=== FILE: README.md ===
# marketdotcom core in Dafny

A Dafny model of the sequential logic of the marketdotcom grocery storefront:
- the Next.js route handlers for payments, accounts, the wallet, orders and products;
- the two Zustand cart stores;
- the shared helpers;
- the pricing, filtering and list-editing expressions inside the dashboard, checkout, cart, help and sign-up pages.

The rendering is not modelled. Every handler is a pure function from the database (and the request) to a status, a body and the database it leaves behind. Every client-side expression is a pure function over immutable values.

## Layout

| file | module | models |
|---|---|---|
| wrappers.dfy | Wrappers | `Option` (JavaScript `undefined`/`null`/`NaN`) and the `quantity or 1` default |
| seqs.dfy | Seqs | `filter`, `find`/`findIndex`, `some`, `reduce` sums, and their algebra |
| text.dfy | Text | ASCII case mapping, `includes`, `startsWith`, `split`/`join`, `trim`, `parseInt`, `parseFloat`, `toString` |
| store.dfy | Store | the database tables (users, orders, payments, rewards, notifications, wallet transactions) and the session |
| catalog.dfy | Catalog | categories, products and variations |
| payments.dfy | Payments | `/api/payments/webhook`, `/verify`, `/initialize` |
| accounts.dfy | Accounts | `/api/auth/register`, `/verify-email` (code and link), `/resend-verification`, `/reset-password` |
| credentials.dfy | Credentials | the credentials `authorize` chain and the `jwt` and `session` callbacks |
| routing.dfy | Routing | `middleware.ts` and `/api/auth/error` |
| wallet.dfy | Wallet | `/api/wallet` (GET and POST) and `/api/wallet/fund` |
| orders_api.dfy | OrdersApi | `/api/orders` GET and PUT |
| products_api.dfy | ProductsApi | `/api/products` GET and POST |
| keyed_cart.dfy | KeyedCart | `src/lib/store/cart-store.ts`: keyed lines, quantity caps, cached totals |
| simple_cart.dfy | SimpleCart | `src/lib/cart-store.ts`: id-keyed lines |
| helpers.dfy | Helpers | `src/lib/helpers.ts` |
| checkout.dfy | Checkout | the checkout and cart pages' totals, order lines, slots and gates |
| wallet_tab.dfy | WalletTab | tiers, points conversion and funding gates |
| product_admin.dfy | ProductAdmin | the product manager's filter, sort, stats, CSV export and import, selection and bulk edit |
| orders_tab.dfy | OrdersTab | status filter, status colours, order label, line totals |
| marketplace_tab.dfy | MarketplaceTab | quantities, variation choice, search, dropdown, add-to-cart |
| dashboard_page.dfy | DashboardPage | admin test, tab parameter, product filter, cart line, stock toggle |
| marketplace_page.dfy | MarketplacePage | public listing filter, cart line, cart count, low-stock badge |
| help_page.dfy | HelpPage | FAQ filter, category counts, `**bold**` rewrite |
| product_form.dfy | ProductFormState | the product form's state and edits |
| product_card.dfy | ProductCard | quantity stepper, price and initial variation |
| register_page.dfy | RegisterPage | password score and the ordered submit checks |
| use_products.dfy | UseProducts | the `useProducts` hook's local list updates |

## Conventions

- **Parameters stand for what the model cannot compute.** These are the current time, `Math.random`, bcrypt, HMAC-SHA512, `JSON.parse`, generated ids and references, the payment gateway's answer, and whether an email was sent. Each is a parameter of the function that uses it.
- **Database tables.**
  - Users and orders are sequences. `findUnique`/`findFirst` return the first match.
  - Payments are a map keyed by `transactionId`, the column the verify route upserts on.
  - Rewards, notifications and wallet transactions are append-only sequences.
- **Absent request fields.** A request string the client did not send is `""`; JavaScript treats it as falsy just like a missing one. The one exception is the products `inStock` query parameter, where absent and empty behave differently, so it is an `Option<string>`.
- **Money.** Money is whole naira (`int`). Gateway amounts are kobo, and the stored Payment amount is the exact `kobo / 100` as a `real`.
- **Letter case.** Case-insensitive comparison is ASCII lower-casing.
- **Text length.** A Dafny string is a sequence of Unicode scalar values. JavaScript's `length` and `slice` count UTF-16 code units, in which a character above U+FFFF, such as an emoji, takes two. Every length rule and cut the source makes is therefore measured with `Text.Utf16Length`, `Text.Utf16Prefix` and `Text.Utf16Suffix`. A cut that splits a surrogate pair is the one place where the model differs from JavaScript; see "## Left out".

## Behaviour worth noting

- **Repeated `charge.success` delivery.** The verify route upserts its Payment with `where: { transactionId }`. An upsert needs a unique key, so `transactionId` is a unique column, and the model keeps payments in a map keyed by it. What follows from that:
  - The webhook's plain `payment.create` for a reference that already has a Payment throws, and the handler answers 500.
  - It throws after the order's statuses have been overwritten. So no second Payment, points, Reward or Notification is written (`Payments.InsertPayment`, `Payments.WebhookRedeliveryAwardsOnce`).
  - A webhook that arrives after the user's own verification fails with 500 the same way and awards no loyalty points at all (`Payments.InsertVersusUpsert`).
- **Shared expiry field.** The verification code's expiry reuses the column of the reset token's expiry, so the two flows interfere:
  - resending a code revives an expired reset token (`Accounts.ResendRevivesResetToken`);
  - verifying by code voids a live one (`Accounts.VerifyingCodeVoidsResetToken`).
- **Dashboard guard.** On `/dashboard` the `authorized` callback refuses a tokenless request before the middleware's own redirect to `/auth/login` can run (`Routing.DashboardGuardIsShadowed`).
- **Cart ids.** The dashboard's cart ids (`productId-variationId`) are not injective: a product id containing `-` can meet a variation of another product (`DashboardPage.CartIdsCanCollide`).
- **`parseInt` without a radix.** The stock fields and the points field are read with `parseInt(s)`, which reads a `0x` or `0X` numeral in base 16 (`Text.HexNumeralReadsInBase16`), while `parseFloat` reads the same text as 0 (`Text.HexPrefixAlone`).

## Model

| member | source | states |
|---|---|---|
| Payments.OrderByReference | src/app/api/payments/webhook/route.ts:60-63 | the index found is the first order whose transactionId is the reference; none exactly when no order carries it |
| Store.KoboToNaira | src/app/api/payments/webhook/route.ts:84 | the naira amount is exactly the kobo amount divided by 100, fractions kept |
| Payments.PointsFor | src/app/api/payments/webhook/route.ts:94 | the points are the whole hundreds of the order's final amount: points·100 ≤ amount < (points+1)·100 |
| Payments.InsertPayment | src/app/api/payments/webhook/route.ts:80-91 | a Payment is a plain insert keyed by transactionId: an existing key makes the create throw and writes nothing, a new key adds exactly that row |
| Payments.HandleSuccess | src/app/api/payments/webhook/route.ts:55-68 | a charge.success whose reference matches no order finishes without any write |
| Payments.HandleFailure | src/app/api/payments/webhook/route.ts:141-153 | a charge.failed whose reference matches no order finishes without any write |
| Payments.Webhook | src/app/api/payments/webhook/route.ts:8-53 | a signature other than hex HMAC-SHA512(secret, body) gives 400 with the store unchanged; past the gate an unparseable body gives 500 with no write; charge.success and charge.failed write what their handlers write and answer 200 exactly when the handler finished, 500 when it threw; other events are acknowledged with no write |
| Payments.WebhookSuccessEffects | src/app/api/payments/webhook/route.ts:70-123 | on a found order without a Payment: order COMPLETED/CONFIRMED, one COMPLETED Payment of amount kobo/100, points and one PURCHASE Reward only when floor(finalAmount/100) > 0, exactly one Notification appended, ledger untouched |
| Payments.WebhookFailureEffects | src/app/api/payments/webhook/route.ts:155-187 | on a found order without a Payment: order FAILED/CANCELLED, one FAILED Payment, users and rewards unchanged, exactly one "Payment Failed" notification appended |
| Payments.WebhookRedeliveryAwardsOnce | src/app/api/payments/webhook/route.ts:71-112 | a second delivery of the same charge.success throws at the Payment insert after the order update, so no second Payment, points, Reward or Notification is written |
| Payments.OwnOrderByReference | src/app/api/payments/verify/route.ts:41-46 | the order found carries the reference and belongs to the caller; none exactly when no such order exists |
| Payments.StatusesFor | src/app/api/payments/verify/route.ts:56-57 | gateway status "success" maps to (COMPLETED, CONFIRMED) and every other value to (FAILED, CANCELLED) |
| Payments.UpsertPayment | src/app/api/payments/verify/route.ts:68-84 | the upsert leaves one row per reference: a new reference adds the incoming row, an existing one only gets the new status and gateway response, other rows untouched |
| Payments.ApplyVerification | src/app/api/payments/verify/route.ts:55-84 | the writes of a verification: the order's two statuses, the Payment upserted on the reference with amount kobo/100 when created, and no other table touched |
| Payments.Verify | src/app/api/payments/verify/route.ts:7-103 | 401 without a session, 400 without a reference, 500 when the gateway says no, 404 unless an order of the caller carries the reference, each with no writes; a caller's order carrying the reference and a gateway answer always give 200, with the writes above and the reported amount kobo/100 |
| Payments.VerifyTwiceKeepsOnePayment | src/app/api/payments/verify/route.ts:68-84 | verifying a reference again keeps the set of Payment keys and only replaces that Payment's status and gateway response |
| Payments.InsertVersusUpsert | src/app/api/payments/webhook/route.ts:80-91 | once a Payment exists for a reference, the webhook's insert fails with 500 leaving the payments as they were, while verify's upsert succeeds without adding a row |
| Payments.PendingOwnOrder | src/app/api/payments/initialize/route.ts:29-35 | the order found has the id, belongs to the caller and is PENDING; none exactly when no such order exists |
| Payments.Initialize | src/app/api/payments/initialize/route.ts:7-94 | 401 without a session; 400 for a missing order id or an amount missing or ≤ 0; 404 iff no PENDING order of the caller has the id; for such an order the answer is 200 exactly when the gateway answers and 500 exactly when it does not; the order gets the reference and paymentMethod (default "paystack") before the gateway call, so a gateway failure leaves it set; the 200 reply returns that reference |
| Payments.InitializedReferenceVerifies | src/app/api/payments/initialize/route.ts:45-87 | the reference a successful initialize hands back is accepted by verify for the same caller, and when no earlier order of the caller carries it, verify finds exactly the initialized order |
| Wallet.GetWallet | src/app/api/wallet/route.ts:7-54 | 401 without a session; for a session, 404 exactly when its user does not exist and 200 exactly when it does, with that user's balance, points, referral code and referral count; never writes |
| Wallet.PostWallet | src/app/api/wallet/route.ts:57-115 | 401 without a session and 400 for an amount missing or ≤ 0, with no writes; for a valid amount, 200 exactly when the caller's user exists and 500 with no write otherwise; on 200 exactly the caller's balance rises by the amount, one FUNDING Reward of 0 points is appended and the new balance is returned |
| Wallet.Fund | src/app/api/wallet/fund/route.ts:6-74 | 401 without a session and 400 for an amount missing or below 100, with no writes; for a valid amount, 200 exactly when the caller's user exists and 500 with no write otherwise; on 200 exactly the caller's balance rises by the amount, one completed CREDIT transaction and one "Wallet Funded Successfully" notification are appended, rewards untouched |
| Wallet.WalletShowsFundedBalance | src/app/api/wallet/route.ts:7-115 | after a successful top-up through either route, reading the wallet shows the balance the top-up returned, with points and referral details unchanged |
| Wallet.FundingThresholdsDiffer | src/app/api/wallet/fund/route.ts:19-24 | an amount in 1..99 is accepted by POST /api/wallet but refused with 400 by POST /api/wallet/fund |
| Wallet.FundKeepsLedgerInStep | src/app/api/wallet/fund/route.ts:30-50 | a successful funding raises the balance by exactly what it adds to the caller's completed credits in the ledger |
| Wallet.FundTwiceAddsBoth | src/app/api/wallet/fund/route.ts:30-37 | two fundings in a row both succeed, add both amounts to the balance and two ledger rows |
| Accounts.CodeNumber | src/app/api/auth/register/route.ts:50 | floor(100000 + r·900000) for r in [0, 1) always lies in 100000..999999 |
| Accounts.VerificationCode | src/app/api/auth/register/route.ts:50 | the code is six decimal digits and reads back as the number it was made from |
| Accounts.SixDigits | src/app/api/auth/register/route.ts:50 | a number in 100000..999999 prints as exactly six characters |
| Accounts.Redact | src/app/api/auth/register/route.ts:76 | the user returned keeps id, email, name, phone, role, verification date and expiry, and carries neither the password hash nor the code |
| Accounts.Register | src/app/api/auth/register/route.ts:7-85 | a missing field or a password under 6 UTF-16 code units gives 400 and an address already registered gives 400 EmailTaken, all without writes; 201 exactly when the fields are present, the password long enough, the database there and the address new, and then exactly one unverified user holding the hashed password, the six-digit code and an expiry ten minutes on is appended |
| Accounts.EmojiPasswordIsLongEnough | src/app/api/auth/register/route.ts:19 | "ab" followed by two emoji is six code units: registration with the other fields present is not refused as too short or missing, and a reset is not refused as too short |
| Accounts.RegisterIgnoresEmailFailure | src/app/api/auth/register/route.ts:67-73 | whether the verification mail goes out changes neither the reply nor the store |
| Accounts.VerifyEmail | src/app/api/auth/verify-email/route.ts:4-87 | 400 for missing input, 503 without a database, 404 for an unknown address; for a known account, 200 AlreadyVerified when verified, else 400 InvalidCode for another code, else 400 CodeExpired once the stored expiry has passed; EmailVerified exactly when an unverified user holds the code and the expiry has not passed, and then that user alone is marked verified with code and expiry cleared; every other answer writes nothing |
| Accounts.RegisteredCodeVerifies | src/app/api/auth/verify-email/route.ts:35-66 | the code a registration stores verifies the account within ten minutes, and a second verification answers "already verified" |
| Accounts.StoredCodeVerifiesOnce | src/app/api/auth/verify-email/route.ts:35-66 | an unverified account whose stored code has not expired verifies with that code, and a second attempt answers "already verified" |
| Accounts.LinkTarget | src/app/api/auth/verify-email/route.ts:96-131 | every outcome of the link redirects into /auth/verify-email? with its query |
| Accounts.UserByVerificationToken | src/app/api/auth/verify-email/route.ts:105-109 | the user found holds the token; none exactly when nobody does |
| Accounts.VerifyEmailLink | src/app/api/auth/verify-email/route.ts:90-133 | always a 307 redirect to /auth/verify-email; a missing token, no database, an unknown token and an already verified user each give their own redirect and write nothing; an unverified holder of the token is marked verified, exactly that user, with the token cleared and the expiry left |
| Accounts.VerifyLinkIsSingleUse | src/app/api/auth/verify-email/route.ts:119-126 | after a link verifies, the same link is an invalid token, and the stored expiry is left as it was |
| Accounts.Resend | src/app/api/auth/resend-verification/route.ts:6-91 | 400 without an email; with the database there always 200; an unknown address and a verified account write nothing; otherwise only the user's code and expiry are replaced |
| Accounts.ResendHidesUnknownAccounts | src/app/api/auth/resend-verification/route.ts:30-36 | an unknown address gets the same answer as a known unverified one whose mail failed, and the mail outcome does not change what is stored |
| Accounts.ResentCodeVerifies | src/app/api/auth/resend-verification/route.ts:46-57 | a resent code verifies the account within ten minutes |
| Accounts.UserByResetToken | src/app/api/auth/reset-password/route.ts:32-39 | the user found holds the token with an expiry still in the future; none exactly when nobody does |
| Accounts.ResetPassword | src/app/api/auth/reset-password/route.ts:5-80 | 400 for missing input or a password under 6 UTF-16 code units; 200 exactly when some user holds the token unexpired, and then only that user's password is replaced by the hash and the token and expiry are cleared; otherwise no writes |
| Accounts.ResetTokenIsSingleUse | src/app/api/auth/reset-password/route.ts:51-59 | a reset token that has worked is refused the next time |
| Accounts.ResendRevivesResetToken | src/app/api/auth/resend-verification/route.ts:51-57 | because the verification expiry and the reset expiry are one field, an expired reset token of an unverified user is refused with 400 before a resend and accepted with 200 after it |
| Accounts.VerifyingCodeVoidsResetToken | src/app/api/auth/verify-email/route.ts:59-66 | verifying by code clears the shared expiry, so a reset token held by that user stops working |
| Credentials.Authorize | src/lib/auth.ts:16-88 | missing credentials are rejected; without a database exactly the demo pair signs in, as the demo customer, and anything else is refused as unavailable; with one, an unknown address is refused; for a known account, no stored password is refused first, then an unverified account whatever the password, then a wrong password; otherwise the user signs in with their id, email, name and role |
| Credentials.AuthorizeNeedsMatchingPassword | src/lib/auth.ts:57-64 | the same account under a password comparison that fails is rejected as an invalid password |
| Credentials.Jwt | src/lib/auth.ts:100-105 | the token takes the role of a signing-in user and is otherwise left as it was |
| Credentials.SessionOf | src/lib/auth.ts:106-112 | the session's id, role and email come from the token |
| Credentials.SignInReachesSession | src/lib/auth.ts:100-112 | a signed-in user's session carries that user's id, email and role, and later token refreshes keep it |
| Routing.Authorized | middleware.ts:25-43 | paths under /api/auth, /marketplace, /auth, /terms, /privacy, /help and the exact path / are let through; every other path exactly when a token is present |
| Routing.Middleware | middleware.ts:5-22 | /dashboard… without a token redirects to /auth/login, /auth… with a token redirects to /dashboard, and everything else passes on unchanged; the middleware itself never asks for a sign-in |
| Routing.Guard | middleware.ts:4-54 | paths outside the matcher pass untouched; inside it the `authorized` callback runs first and a refusal sends the request to the sign-in page, otherwise the middleware function decides |
| Routing.DashboardGuardIsShadowed | middleware.ts:10-12 | a /dashboard request without a token is stopped by `authorized` before the middleware's own redirect can run |
| Routing.SignedInAuthPagesRedirect | middleware.ts:17-19 | a signed-in visitor of any /auth/ page is redirected to /dashboard |
| Routing.TokenIsNeverAskedToSignIn | middleware.ts:25-43 | a request carrying a token is never sent to sign in, whatever its path |
| Routing.AuthErrorRedirect | src/app/api/auth/error/route.ts:6-25 | the target is always /auth/login; reading auth_error back gives `error` when it is non-empty and nothing otherwise, likewise auth_error_description; no other key and no key twice |
| Routing.AuthErrorParameters | src/app/api/auth/error/route.ts:6-25 | a non-empty error alone gives exactly one parameter, auth_error; an empty description adds none |
| OrdersApi.BuildWhere | src/app/api/orders/route.ts:24-35 | a non-admin is pinned to their own userId whatever `userId` says; an admin filters by user only when `userId` is given; `status` adds an equality filter exactly when present |
| OrdersApi.ListOrders | src/app/api/orders/route.ts:8-62 | 401 exactly without a session; otherwise 200 with exactly the orders the filter selects, in table order; never writes |
| OrdersApi.CustomerSeesOnlyOwnOrders | src/app/api/orders/route.ts:27-28 | a customer's list is the same whatever `userId` they send and holds exactly their own orders of the requested status |
| OrdersApi.AdminSeesAllOrders | src/app/api/orders/route.ts:29-35 | an admin with no parameters gets every order |
| OrdersApi.UpdateStatus | src/app/api/orders/route.ts:65-141 | 401 for a missing or non-admin session, 400 for a missing id or status, 500 exactly when the status is not one of the enum's values or no order has the id, all without writes; on 200 only that order's status changes and exactly one "Order Status Updated" ORDER notification to its owner is appended |
| OrdersApi.OrderById | src/app/api/orders/route.ts:87-89 | the order updated has the id; none (the update throws) exactly when no order has it |
| OrdersApi.UpdateIgnoresEmailFailure | src/app/api/orders/route.ts:116-133 | whether the status mail goes out changes neither the reply nor the store |
| OrdersApi.UpdatedOrderIsListedForOwner | src/app/api/orders/route.ts:87-113 | after an admin's update, the owner's list filtered by the new status contains the updated order, and one notification has been added |
| ProductsApi.BuildWhere | src/app/api/products/route.ts:15-30 | categoryId and search filter exactly when non-empty; inStock filters exactly when the parameter is present, even empty, and then asks for stocked products exactly when it is "true" |
| ProductsApi.ListProducts | src/app/api/products/route.ts:7-49 | a product is listed exactly when it is stored and passes the category equality, the case-insensitive name-or-description search and the stock filter |
| ProductsApi.OnlyTrueAsksForStock | src/app/api/products/route.ts:28-30 | any inStock value other than "true" lists the same as "false" |
| ProductsApi.NoParametersListsAll | src/app/api/products/route.ts:15-39 | without parameters every product is listed, in table order |
| ProductsApi.StockOf | src/app/api/products/route.ts:80 | `parseInt(stock) \|\| 0`: the parsed integer, 0 when the text does not parse |
| ProductsApi.RowOf | src/app/api/products/route.ts:92-97 | a variation row keeps the name, belongs to the new product, has type "Size" unless one is given and price parsed or 0 |
| ProductsApi.CreateProduct | src/app/api/products/route.ts:52-109 | 401 for a non-admin, 400 for a missing name or category or undefined basePrice, 500 for an unknown category, all without writes; with the required fields and a known category the answer is 201, and exactly one product with the given fields and the defaults stock 0, unit "piece", inStock true is appended and one variation row per given variation follows the existing rows |
| Catalog.CategoryById | src/app/api/products/route.ts:74-87 | the category found has the id; none exactly when no category has it, which the create's foreign key refuses |
| ProductsApi.CreatedProductIsListed | src/app/api/products/route.ts:74-83 | a product created without inStock is listed among the in-stock products of its category, and one created without stock has stock 0 |
| KeyedCart.WithTotals | src/lib/store/cart-store.ts:74-78 | the stored totals are the sum of the quantities and the sum of price times quantity of the stored lines |
| KeyedCart.AddItem | src/lib/store/cart-store.ts:40-79 | an item whose key (productId, or productId-variationId) is already present raises the first such line to min(quantity + (q or 1), maxQuantity) and adds no line; a new key appends one line with quantity q or 1, uncapped; the totals move by exactly that change |
| KeyedCart.RemoveItem | src/lib/store/cart-store.ts:81-89 | the lines with that id go, every other line stays in order, and totalItems drops by exactly the removed quantities |
| KeyedCart.SetQuantity | src/lib/store/cart-store.ts:99-107 | every line with the id gets min(q, its maxQuantity), every other line is unchanged |
| KeyedCart.UpdateQuantity | src/lib/store/cart-store.ts:91-113 | a quantity ≤ 0 is exactly removeItem, otherwise the lines with the id are set with the cap and nothing else changes; totals stay consistent |
| KeyedCart.ClearCart | src/lib/store/cart-store.ts:115-117 | no lines and both totals 0 |
| KeyedCart.IsInCart | src/lib/store/cart-store.ts:130-138 | true exactly when some line is that variation of the product, or, with no (or an empty) variation id, the product's line without a variation |
| KeyedCart.GetItemQuantity | src/lib/store/cart-store.ts:119-128 | 0 when no line matches, otherwise the quantity of the first matching line |
| KeyedCart.AddedItemIsInCart | src/lib/store/cart-store.ts:40-79 | when product ids contain no "-", an added item is afterwards found by isInCart under its product and variation |
| KeyedCart.KeySeparates | src/lib/store/cart-store.ts:43-52 | when product ids contain no "-", equal merge keys mean the same product and the same variation choice |
| KeyedCart.CapAppliesOnlyOnMerge | src/lib/store/cart-store.ts:59-71 | a new line keeps the requested quantity even above its maxQuantity, while a merged line never exceeds its maxQuantity |
| KeyedCart.UpdateKeepsCaps | src/lib/store/cart-store.ts:99-107 | if every line respects its maxQuantity, it still does after updateQuantity |
| KeyedCart.UpdateQuantityTotals | src/lib/store/cart-store.ts:99-112 | with unique ids, updating one line moves totalItems by exactly the change of that line's quantity |
| SimpleCart.AddItem | src/lib/cart-store.ts:30-70 | an existing id raises that line by (quantity or 1) with no new line and no cap; a new id appends one line with quantity (quantity or 1) |
| SimpleCart.IndexOf | src/lib/cart-store.ts:32 | the line found has the id; none exactly when no line has it |
| SimpleCart.RemoveItem | src/lib/cart-store.ts:72-76 | the lines with that id go and every other line stays, in order |
| SimpleCart.UpdateQuantity | src/lib/cart-store.ts:78-89 | a quantity ≤ 0 is exactly removeItem; otherwise only the lines with the id get the new quantity |
| SimpleCart.ClearCart | src/lib/cart-store.ts:91-93 | the empty list, with both totals 0 |
| SimpleCart.GetItemQuantity | src/lib/cart-store.ts:95-98 | 0 for an absent id, otherwise the first line's quantity |
| SimpleCart.SetQuantityOfUnique | src/lib/cart-store.ts:84-88 | with unique ids the quantity update touches exactly one line |
| SimpleCart.ActionsKeepIdsUnique | src/lib/cart-store.ts:30-89 | addItem, updateQuantity and removeItem keep the ids of the lines distinct |
| SimpleCart.TotalItems | src/lib/cart-store.ts:100-102 | an empty cart has 0 items, and non-negative quantities give a non-negative count. `SimpleCart.AddItemTotals` and `SimpleCart.RemoveItemTotals` relate it to the actions |
| SimpleCart.TotalPrice | src/lib/cart-store.ts:104-106 | an empty cart costs 0, and non-negative prices and quantities give a non-negative total. `SimpleCart.AddItemTotals` and `SimpleCart.RemoveItemTotals` relate it to the actions |
| SimpleCart.AddItemTotals | src/lib/cart-store.ts:100-106 | after addItem the item total rises by (quantity or 1) and the price total by the line's price times that |
| SimpleCart.RemoveItemTotals | src/lib/cart-store.ts:100-106 | removing an absent id changes nothing; removing a present one lowers the totals by exactly that line's quantity and line total |
| SimpleCart.AddThenGet | src/lib/cart-store.ts:95-98 | after addItem, getItemQuantity of the item is its old quantity (0 if absent) plus (quantity or 1) |
| Helpers.TruncateText | src/lib/helpers.ts:45-48 | text within the limit, counted in UTF-16 code units, is returned as it is; longer text ends in "..." after a prefix of the text, and for a limit ≥ 3 the result is the longest prefix fitting in limit−3 code units plus "...", limit or limit−1 code units long, and exactly the first limit−3 characters plus "..." on text without characters above U+FFFF |
| Helpers.EmojiPairIsTruncated | src/lib/helpers.ts:45-48 | two emoji are four code units, so with a limit of 3 they become "..." |
| Helpers.SmallLimitOverflows | src/lib/helpers.ts:47 | for a limit below 3 the truncated text is longer than the limit, in code units |
| Helpers.IsValidEmail | src/lib/helpers.ts:66-69 | true exactly when the address splits as non-empty text, one "@", non-empty text, ".", non-empty text, with no white space and no other "@" |
| Helpers.ValidEmailHasOneAt | src/lib/helpers.ts:67 | a valid address has exactly one "@" |
| Helpers.IsValidPhone | src/lib/helpers.ts:72-75 | true exactly when the number is +234, 234 or 0 followed by 7, 8 or 9 and nine more digits |
| Helpers.PhonePrefixesAgree | src/lib/helpers.ts:73 | the three prefixes accept the same remainders, giving numbers of 11, 13 and 14 characters |
| Helpers.Round | src/lib/helpers.ts:80 | `Math.round` gives the integer within one half of x, halves rounding up |
| Helpers.CalculateDiscount | src/lib/helpers.ts:78-81 | 0 for a price ≤ 0, otherwise the percentage saved rounded to the nearest integer |
| Helpers.DiscountWithinPercent | src/lib/helpers.ts:80 | for 0 ≤ discounted ≤ original the discount is in 0..100, 100 for a free item and 0 for no reduction |
| Helpers.DiscountIsAntitone | src/lib/helpers.ts:80 | a lower discounted price never gives a smaller discount |
| Helpers.GetInitials | src/lib/helpers.ts:112-120 | "U" for an empty name, otherwise the upper-cased first characters of the first two non-empty space-separated words |
| Helpers.InitialsOfTwoNames | src/lib/helpers.ts:114-119 | "first last" gives the two first letters upper-cased |
| Helpers.Capitalize | src/lib/helpers.ts:123-126 | the length is kept, the first character is upper-cased and the others lower-cased |
| Helpers.CapitalizeIdempotent | src/lib/helpers.ts:123-126 | capitalising twice is capitalising once |
| Helpers.ToTitleCase | src/lib/helpers.ts:129-135 | "" stays ""; no "-" or "_" survives |
| Helpers.TitleOfOneWord | src/lib/helpers.ts:129-135 | a single word without separators is just capitalised |
| Helpers.FormErrors | src/lib/helpers.ts:195-217 | the errors object has a key only among name, categoryId, basePrice, stock and unit, and each key exactly when its field breaks its rule; the name's message says whether it is blank or too short |
| Helpers.ValidateProductForm | src/lib/helpers.ts:194-223 | valid exactly when there are no errors; each of name (blank, or shorter than 2 UTF-16 code units), categoryId, basePrice < 0, stock < 0 and blank unit has an error exactly when its rule fails, with the two name messages told apart |
| Helpers.EmojiNameIsLongEnough | src/lib/helpers.ts:199 | a one-emoji name is two code units and draws no name error |
| Helpers.ValidIffRulesHold | src/lib/helpers.ts:194-223 | the form is valid exactly when all six rules hold |
| Helpers.GetPaginationInfo | src/lib/helpers.ts:247-271 | totalPages is the ceiling of items/size, hasNext iff page < totalPages, hasPrev iff page > 1, startItem = (page−1)·size+1 and endItem = min(page·size, items) |
| Helpers.PageRangeIsSound | src/lib/helpers.ts:258-262 | for a page in 1..totalPages, 1 ≤ startItem ≤ endItem ≤ items, a page holds at most size items, a full page whenever there is a next one, and the last page ends at the last item |
| Checkout.DeliveryFee | src/app/checkout/page.tsx:118 | the fee is 0 exactly when the subtotal is above 10000 and 1500 otherwise, so exactly 10000 still pays it |
| Checkout.CheckoutSummary | src/app/checkout/page.tsx:116-120 | without the wallet nothing is deducted; with it the deduction is the smaller of the balance and subtotal plus fee; the final total plus the deduction is subtotal plus fee |
| Checkout.FinalTotalInRange | src/app/checkout/page.tsx:118-120 | with a non-negative subtotal and balance the final total lies in 0..subtotal+fee, and is 0 when the wallet covers everything |
| Checkout.CartPageTotal | src/app/cart/page.tsx:39-40 | the cart's total is at least the items' price, equal to it exactly above 10000, and agrees with the checkout total without the wallet |
| Checkout.OrderLines | src/app/checkout/page.tsx:167-173 | one order line per cart line, in order, with the cart id as product, no variation, the same quantity and price and total price·quantity |
| Checkout.OrderLinesSumToSubtotal | src/app/checkout/page.tsx:167-173 | the order lines' totals add up to the cart's total price |
| Checkout.OfferedSlots | src/app/checkout/page.tsx:492-493 | the offered slots are exactly the available slots of the chosen date, in the order the slots came, with their repetitions |
| Checkout.DeliveryDates | src/app/checkout/page.tsx:469 | every slot's date appears, nothing else does, none twice, in the order of each date's first slot |
| Seqs.Distinct | src/app/checkout/page.tsx:469 | every element appears exactly once and nothing else does, in the order of first occurrence |
| Checkout.OfferedSlotsHaveListedDates | src/app/checkout/page.tsx:469-493 | every offered slot's date is one of the listed dates |
| Checkout.CanContinue | src/app/checkout/page.tsx:616 | "Continue" is enabled exactly when address, date and time are all chosen |
| Checkout.ContinueHint | src/app/checkout/page.tsx:621-630 | the address warning shows exactly when no address is chosen, and the date-and-time warning exactly when an address is chosen but a date or a time is missing |
| Checkout.DisabledButtonExplainsWhy | src/app/checkout/page.tsx:613-630 | the button is disabled exactly while a warning shows; the address warning exactly when no address is chosen, the date-and-time warning exactly when an address is chosen but a date or time is missing |
| Checkout.CheckoutTarget | src/app/cart/page.tsx:42-48 | signed in goes to /checkout, otherwise to /auth/login?redirect=/checkout |
| Checkout.CheckoutTargetIsOpenToCaller | middleware.ts:5-52 | the signed-out target is the sign-in page with the signed-in target as its redirect parameter, and the middleware lets each caller through to their target |
| Checkout.DecrementEnabled | src/app/cart/page.tsx:155 | the minus button works exactly above quantity 1 |
| Checkout.DecrementKeepsLine | src/app/cart/page.tsx:155 | an enabled decrement lowers only that line by one and never removes it |
| WalletTab.PointsToNextTier | src/app/dashboard/components/WalletTab.tsx:100 | for non-negative points the distance to the next tier is in 1..1000 |
| WalletTab.Tier | src/app/dashboard/components/WalletTab.tsx:101 | tier t holds points in 1000·(t−1)..1000·t−1 |
| WalletTab.TierName | src/app/dashboard/components/WalletTab.tsx:102 | tiers 1, 2, 3 are Bronze, Silver, Gold and every other tier Platinum |
| WalletTab.NextTierIsReached | src/app/dashboard/components/WalletTab.tsx:100-101 | adding the shown distance reaches the next tier exactly, one point less stays in the current one |
| WalletTab.TierNames | src/app/dashboard/components/WalletTab.tsx:101-102 | 0-999 points are Bronze, 1000-1999 Silver, 2000-2999 Gold and 3000 or more Platinum |
| WalletTab.ConvertiblePoints | src/app/dashboard/components/WalletTab.tsx:59-60 | the convertible points are the largest multiple of 10 not above the points |
| WalletTab.CashValue | src/app/dashboard/components/WalletTab.tsx:61 | the cash value is a multiple of 10 |
| WalletTab.CashValueIsConvertible | src/app/dashboard/components/WalletTab.tsx:59-61 | the cash value equals the convertible points |
| WalletTab.ConvertEnabled | src/app/dashboard/components/WalletTab.tsx:197 | conversion opens exactly at 100 points or more |
| WalletTab.NairaReceived | src/app/dashboard/components/WalletTab.tsx:498 | an empty entry shows 0; a number shows its whole tenths; non-numeric text shows no number |
| WalletTab.ConvertSubmitEnabled | src/app/dashboard/components/WalletTab.tsx:524 | submit is enabled exactly for a non-empty entry that is not a number below 100 |
| WalletTab.NonNumericEntryEnablesConvert | src/app/dashboard/components/WalletTab.tsx:524 | a non-numeric entry leaves the submit button enabled |
| WalletTab.FundRejectedLocally | src/app/dashboard/components/WalletTab.tsx:64-67 | funding is refused before any request exactly for an empty entry or a number ≤ 0 |
| WalletTab.FundButtonEnabled | src/app/dashboard/components/WalletTab.tsx:435 | the fund button is enabled exactly when not funding and the entry is non-empty and not a number below 100 |
| WalletTab.EnabledFundingIsNotRejected | src/app/dashboard/components/WalletTab.tsx:64-67 | an enabled fund button never meets the local refusal |
| WalletTab.ButtonMatchesFundingRoute | src/app/dashboard/components/WalletTab.tsx:435 | for a whole number the button is enabled exactly when /api/wallet/fund would accept the amount |
| ProductAdmin.FilterProducts | src/app/dashboard/components/ManageProductsTab.tsx:87-98 | a product is kept exactly when it matches the case-insensitive name-or-description search, the category ("all" = any) and the stock mode, low stock meaning fewer than 10; the kept products stay in list order with their repetitions |
| ProductAdmin.DefaultFiltersShowAll | src/app/dashboard/components/ManageProductsTab.tsx:87-98 | an empty search with "all" category and stock keeps every product in order |
| ProductAdmin.LowStockMode | src/app/dashboard/components/ManageProductsTab.tsx:95 | the low-stock mode keeps exactly the matching products with stock below 10 |
| ProductAdmin.SortModeOf | src/app/dashboard/components/ManageProductsTab.tsx:99-116 | the comparator orders by something exactly for the six known `sortBy` values, and returns 0 for every other value |
| ProductAdmin.SortKeyIsUnique | src/app/dashboard/components/ManageProductsTab.tsx:99-116 | each ordering mode is chosen by exactly one `sortBy` value |
| ProductAdmin.InOrderTotal | src/app/dashboard/components/ManageProductsTab.tsx:99-116 | every sort mode's comparison relates any two products one way or the other |
| ProductAdmin.InOrderTrans | src/app/dashboard/components/ManageProductsTab.tsx:99-116 | every sort mode's comparison is transitive |
| ProductAdmin.SortProducts | src/app/dashboard/components/ManageProductsTab.tsx:99-116 | the sorted table is ordered by the mode (name, price up or down, stock up or down, newest first) and is a permutation of its input |
| ProductAdmin.UnorderedKeepsOrder | src/app/dashboard/components/ManageProductsTab.tsx:113-114 | an unknown sort key compares everything equal, so the filtered order is kept |
| ProductAdmin.DisplayedProducts | src/app/dashboard/components/ManageProductsTab.tsx:87-116 | the table is sorted by the chosen mode and is a rearrangement of the filtered list: each product appears as often as in the catalogue if the filters keep it, otherwise not at all |
| ProductAdmin.InStockCount | src/app/dashboard/components/ManageProductsTab.tsx:119 | the in-stock count is at most the number of products, and 0 exactly when no product is in stock |
| ProductAdmin.OutOfStockCount | src/app/dashboard/components/ManageProductsTab.tsx:120 | the out-of-stock count is at most the number of products, and 0 exactly when every product is in stock |
| ProductAdmin.LowStockCount | src/app/dashboard/components/ManageProductsTab.tsx:121 | the low-stock count is at most the number of products, and 0 exactly when every product has 10 or more in stock |
| ProductAdmin.TotalValue | src/app/dashboard/components/ManageProductsTab.tsx:122 | the value of no products is 0, and non-negative prices and stocks give a non-negative value |
| ProductAdmin.TotalValueAfterUpdate | src/app/dashboard/components/ManageProductsTab.tsx:122 | changing one product moves the total value by that product's change in price times stock alone |
| ProductAdmin.StatsAddUp | src/app/dashboard/components/ManageProductsTab.tsx:118-122 | in-stock plus out-of-stock counts are the total, and non-negative prices and stocks give a non-negative total value |
| ProductAdmin.ExportCsv | src/app/dashboard/components/ManageProductsTab.tsx:125-139 | the file opens with the quoted header line, which is the whole file for no products and is followed by a newline otherwise. `ProductAdmin.ExportSplitsIntoLines` splits it into the header and product lines, and `ProductAdmin.ImportOfExport` reads it back |
| ProductAdmin.ExportLines | src/app/dashboard/components/ManageProductsTab.tsx:127-138 | one quoted, comma-joined line of seven fields per product, in order |
| ProductAdmin.CategoryByName | src/app/dashboard/components/ManageProductsTab.tsx:179 | the category found is the first whose name equals the given one ignoring case; none exactly when no category has it |
| ProductAdmin.RowOfValues | src/app/dashboard/components/ManageProductsTab.tsx:175-193 | a row becomes a product exactly when it has all seven values and its category name is known; the product takes name, description, price (parseFloat), stock (parseInt), unit and in-stock ("yes" ignoring case) from their columns and the category's id; it throws exactly when the category is known but values are missing, or fewer than three values meet a non-empty category list; otherwise it is skipped |
| ProductAdmin.ImportRow | src/app/dashboard/components/ManageProductsTab.tsx:173 | a blank line is skipped; a non-blank line gives a product exactly when its cleaned values number seven or more and name a known category, the product carrying the first value as its name and that category's id; a throw needs a non-blank line with missing values |
| ProductAdmin.ImportLines | src/app/dashboard/components/ManageProductsTab.tsx:172-194 | never a header refusal, and never more products than lines |
| ProductAdmin.ImportCsv | src/app/dashboard/components/ManageProductsTab.tsx:159-169 | the file is refused exactly when one of the seven expected headers is missing from the cleaned first line |
| ProductAdmin.CleanQuote | src/app/dashboard/components/ManageProductsTab.tsx:138-175 | cleaning a quoted CSV-safe field gives the field back |
| ProductAdmin.LineRoundTrip | src/app/dashboard/components/ManageProductsTab.tsx:138-175 | splitting an exported line on "," and cleaning gives back the CSV-safe fields |
| ProductAdmin.ImportExportedRow | src/app/dashboard/components/ManageProductsTab.tsx:127-193 | importing an exported product's line gives its name, description, price, category id, stock, unit and stock flag back |
| ProductAdmin.ValuesOfExportedRow | src/app/dashboard/components/ManageProductsTab.tsx:175-193 | the seven exported values of a product whose category its name finds become that product again |
| ProductAdmin.HeaderLineRoundTrip | src/app/dashboard/components/ManageProductsTab.tsx:126-166 | the exported header line has no newline and reads back as the seven expected headers |
| ProductAdmin.ImportExportedLines | src/app/dashboard/components/ManageProductsTab.tsx:172-194 | importing the exported lines gives every exported product back, in order |
| ProductAdmin.ExportSplitsIntoLines | src/app/dashboard/components/ManageProductsTab.tsx:137-160 | splitting the exported file on newlines gives the header line and the product lines |
| ProductAdmin.ImportOfExport | src/app/dashboard/components/ManageProductsTab.tsx:126-194 | importing an exported file of CSV-safe products whose categories are found by name gives every product back, in order |
| ProductAdmin.ToggleSelected | src/app/dashboard/components/ManageProductsTab.tsx:233-239 | the id is selected afterwards exactly when it was not before; no other id changes |
| ProductAdmin.ToggleTwice | src/app/dashboard/components/ManageProductsTab.tsx:233-239 | toggling twice restores the selected ids, and the very list when the id was not selected |
| ProductAdmin.SelectAll | src/app/dashboard/components/ManageProductsTab.tsx:241-247 | when as many ids are selected as products are shown the selection is cleared, otherwise it becomes the shown products' ids |
| ProductAdmin.SelectAllTwice | src/app/dashboard/components/ManageProductsTab.tsx:241-247 | pressing "select all" twice on a non-empty table ends with nothing selected |
| ProductAdmin.BulkEditOpens | src/app/dashboard/components/ManageProductsTab.tsx:249-255 | bulk edit opens exactly when something is selected |
| ProductAdmin.BuildBulkUpdate | src/app/dashboard/components/ManageProductsTab.tsx:257-266 | the update is refused exactly when no field is given; otherwise it carries exactly the given fields, the stock parsed |
| ProductAdmin.BulkBodyNamesFilledFields | src/app/dashboard/components/ManageProductsTab.tsx:258-266 | the request body's keys are exactly the fields filled in, and the edit is refused exactly when none was |
| Text.Utf16Length | src/lib/helpers.ts:46 | `length` counts at least one and at most two code units per character, and equals the character count exactly when no character is above U+FFFF |
| Text.Utf16LengthAppend | src/lib/helpers.ts:47 | the code-unit length of a concatenation is the sum of the lengths |
| Text.EmojiCountTwice | src/app/auth/register/page.tsx:35 | "a1" and two emoji are four characters but six code units |
| Text.Utf16Prefix | src/lib/helpers.ts:47 | `slice(0, n)` keeps a prefix of at most n code units that no further character fits into, so at most one unit short of n |
| Text.Utf16PrefixOfPlainText | src/lib/helpers.ts:47 | on text without characters above U+FFFF the code-unit cut is the plain prefix of n characters |
| Text.Utf16Suffix | src/app/dashboard/components/OrdersTab.tsx:171 | `slice(-n)` keeps a suffix of at most n code units that no further character fits into, so at most one unit short of n, and the whole string when it has no more than n |
| Text.Utf16SuffixOfAppend | src/app/dashboard/components/OrdersTab.tsx:171 | when the tail already has n code units or more, text in front of it does not change the cut |
| Text.Utf16SuffixOfPlainText | src/app/dashboard/components/OrdersTab.tsx:171 | on text without characters above U+FFFF the code-unit cut is the plain suffix of n characters |
| Text.PlainSuffixLength | src/app/dashboard/components/OrdersTab.tsx:171 | on text without characters above U+FFFF the cut keeps min(n, length) characters |
| Text.ParseInt | src/app/dashboard/components/ManageProductsTab.tsx:190 | `parseInt` gives NaN exactly when no digit follows the white space and sign, or no hexadecimal digit follows a 0x prefix; only a leading minus gives a negative number. `Text.IntToStringRoundTrip` reads every printed integer back |
| Text.ParseDecimal | src/app/dashboard/components/ManageProductsTab.tsx:188 | wherever `parseInt` reads a decimal number, `parseFloat` reads one that truncates to it. `Text.IntToStringDecimalRoundTrip` reads every printed integer back |
| Text.HexNumeralReadsInBase16 | src/app/dashboard/components/ManageProductsTab.tsx:260 | `parseInt` with no radix reads a numeral after a 0x or 0X prefix in base 16, after a sign and white space too |
| Text.HexPrefixAlone | src/app/dashboard/components/ManageProductsTab.tsx:187-190 | `parseInt("0x")` is NaN, while `parseFloat` reads a 0x numeral as 0 |
| OrdersTab.StatusColour | src/app/dashboard/components/OrdersTab.tsx:64-80 | yellow exactly for pending, blue exactly for confirmed and processing, purple for shipped, green for delivered, red for cancelled, each after lower-casing; gray exactly when the status is none of these six |
| OrdersTab.ColourIgnoresCase | src/app/dashboard/components/OrdersTab.tsx:65 | statuses equal up to case get the same colour |
| OrdersTab.StoredStatusesHaveColours | src/app/dashboard/components/OrdersTab.tsx:64-80 | upper-case stored statuses get their colours, and an unlisted one gray |
| OrdersTab.FilterOrders | src/app/dashboard/components/OrdersTab.tsx:96-99 | an order is shown exactly when the selection is "all" or its status equals the selection ignoring case; shown orders keep their order and repetitions |
| OrdersTab.AllShowsEveryOrder | src/app/dashboard/components/OrdersTab.tsx:97 | "all" shows every order in order |
| OrdersTab.SelectionIgnoresCase | src/app/dashboard/components/OrdersTab.tsx:98 | two selections equal up to case show the same orders |
| OrdersTab.OrderLabel | src/app/dashboard/components/OrdersTab.tsx:171 | the label is a tail of the id of at most eight UTF-16 code units: the whole id when it has no more than eight, at least seven units otherwise; on an id without characters above U+FFFF, exactly its last min(8, length) characters |
| OrdersTab.LabelIsTheTail | src/app/dashboard/components/OrdersTab.tsx:171 | for an id of at least eight code units the label depends only on that id's tail: a prefix does not change it, and labelling a label changes nothing |
| OrdersTab.EmojiIdShowsFour | src/app/dashboard/components/OrdersTab.tsx:171 | an id of eight emoji is sixteen code units, and its label is the last four emoji |
| OrdersTab.ItemTotalIsLineTotal | src/app/dashboard/components/OrdersTab.tsx:204 | the shown line total quantity·price equals the total the checkout stored for the line |
| MarketplaceTab.QuantityOf | src/app/dashboard/components/MarketplaceTab.tsx:354-366 | an absent quantity shows as 0 |
| MarketplaceTab.ChangeQuantity | src/app/dashboard/components/MarketplaceTab.tsx:69-74 | the product gets max(0, q), never negative; every other product's entry is unchanged |
| MarketplaceTab.ChangeKeepsNonNegative | src/app/dashboard/components/MarketplaceTab.tsx:69-74 | no sequence of changes makes a stored quantity negative |
| MarketplaceTab.ButtonsStep | src/app/dashboard/components/MarketplaceTab.tsx:354-366 | plus adds one, minus at 0 stays at 0 |
| MarketplaceTab.ChangeVariation | src/app/dashboard/components/MarketplaceTab.tsx:76-81 | the product gets the chosen variation; every other product's choice is unchanged |
| MarketplaceTab.SearchProducts | src/app/dashboard/components/MarketplaceTab.tsx:88-92 | a product is kept exactly when its name, description or category name contains the term ignoring case; the matches keep their order and repetitions |
| MarketplaceTab.EmptySearchKeepsAll | src/app/dashboard/components/MarketplaceTab.tsx:88-92 | an empty search keeps every product in order |
| MarketplaceTab.DropdownProducts | src/app/dashboard/components/MarketplaceTab.tsx:178-179 | the dropdown lists exactly the products of the chosen category, or all for "all", in list order with repetitions |
| MarketplaceTab.DropdownStaysInCategory | src/app/dashboard/components/MarketplaceTab.tsx:178-179 | with a category chosen no product of another category is listed |
| MarketplaceTab.AddEnabled | src/app/dashboard/components/MarketplaceTab.tsx:388 | add-to-cart is enabled exactly for an in-stock product with a positive quantity |
| MarketplaceTab.ChosenVariation | src/app/dashboard/components/MarketplaceTab.tsx:382-384 | no variation when none (or "") is chosen; with an id chosen, none exactly when no variation has it, otherwise the first variation carrying it |
| MarketplaceTab.AddToCart | src/app/dashboard/components/MarketplaceTab.tsx:380-386 | the request carries the product, the chosen variation and the shown quantity, 1 when it is 0 |
| MarketplaceTab.EnabledAddUsesShownQuantity | src/app/dashboard/components/MarketplaceTab.tsx:380-388 | an enabled button adds exactly the positive shown quantity, never the default 1 |
| DashboardPage.AdminControlsMatchOrdersRoute | src/app/dashboard/page.tsx:55 | the page's admin test agrees with the orders route: exactly the admins get past its 401 |
| DashboardPage.TabFromParam | src/app/dashboard/page.tsx:58-63 | a listed tab name switches to it, anything else keeps the current tab |
| DashboardPage.TabParamIsIdempotent | src/app/dashboard/page.tsx:58-63 | reading the same parameter twice gives the tab of reading it once, and a listed tab stays listed through any run of parameters |
| DashboardPage.FilterProducts | src/app/dashboard/page.tsx:66-78 | a product is kept exactly when it matches the chosen category and product, "" and "all" choosing any; the kept products stay in list order with their repetitions |
| DashboardPage.FilterDefaults | src/app/dashboard/page.tsx:66-78 | "all"/"all" keeps every product in order; a chosen product keeps only lines with its id |
| DashboardPage.CartId | src/app/dashboard/page.tsx:82 | the product id, or product id, "-", variation id |
| DashboardPage.CartLine | src/app/dashboard/page.tsx:80-92 | the line has the cart id, the variation's price and "name - variation" when one is given, the product's otherwise, the placeholder image when there is none, and the quantity |
| DashboardPage.VariationsGetOwnLines | src/app/dashboard/page.tsx:82 | two variations of a product get different cart ids |
| DashboardPage.CartIdsCanCollide | src/app/dashboard/page.tsx:82 | a product whose id contains "-" can get the same cart id as a variation of another product |
| DashboardPage.TabAddAppendsShownQuantity | src/app/dashboard/page.tsx:80-92 | an enabled add from the marketplace tab for a line not yet in the cart appends one line with the shown quantity |
| DashboardPage.ToggleStock | src/app/dashboard/page.tsx:131-134 | the product is sent with inStock negated and nothing else changed |
| DashboardPage.ToggleStockTwice | src/app/dashboard/page.tsx:131-134 | toggling twice gives the product back |
| MarketplacePage.FilterListings | src/app/marketplace/page.tsx:107-122 | a product is kept exactly when it is in the category ("All" = any) and the non-empty search is in its name or description ignoring case |
| MarketplacePage.FilterListingsIsSubsequence | src/app/marketplace/page.tsx:107-122 | the two filters in a row keep the list's order, and "All" with no search keeps the whole list |
| MarketplacePage.CartLine | src/app/marketplace/page.tsx:125-134 | the line copies id, name, price, image and unit and has the quantity |
| MarketplacePage.CartCount | src/app/marketplace/page.tsx:136 | the count of non-negative quantities is non-negative |
| MarketplacePage.AddRaisesCountByOne | src/app/marketplace/page.tsx:125-136 | a default add-to-cart raises the cart count by one, whether the product was in the cart or not |
| MarketplacePage.LowStockBadge | src/app/marketplace/page.tsx:294 | the badge shows exactly below 10 in stock |
| HelpPage.FilterFaqs | src/app/help/page.tsx:785-793 | an FAQ is shown exactly when it matches the search (question, answer or a tag, ignoring case) and the category ("all" = any); the shown FAQs keep their order |
| HelpPage.EmptySearchShowsCategory | src/app/help/page.tsx:786-790 | an empty search shows exactly the category's FAQs, and every FAQ in order for "all" |
| HelpPage.CategoryCount | src/app/help/page.tsx:884-886 | the "all" count is the number of FAQs and no count exceeds it |
| HelpPage.CountMatchesFilter | src/app/help/page.tsx:884-886 | a category's count is the number of FAQs its filter shows for an empty search |
| HelpPage.CloseFrom | src/app/help/page.tsx:1274 | the closing "**" found is the first one after the opening with no line terminator (\n, \r, U+2028, U+2029) before it; none found means no "**" precedes the first terminator |
| HelpPage.Bold | src/app/help/page.tsx:1274 | from any position, text with no "*" left is copied unchanged |
| HelpPage.NoMarkupUnchanged | src/app/help/page.tsx:1274 | text without "**" is rendered unchanged |
| HelpPage.MarkedTextBecomesStrong | src/app/help/page.tsx:1274 | "**t**" with t free of "*" and of line terminators becomes one strong element around t |
| HelpPage.CarriageReturnStopsBold | src/app/help/page.tsx:1274 | a \r between the markers keeps the text as written |
| ProductFormState.InitialForm | src/components/forms/product-form.tsx:53-67 | without an initial product every field is blank with inStock true; with one its values are copied and a missing inStock becomes true |
| ProductFormState.AddVariation | src/components/forms/product-form.tsx:97-105 | one blank row (name "", price 0, stock 0) is appended and nothing else changes |
| ProductFormState.UpdateVariation | src/components/forms/product-form.tsx:107-114 | only the edited field of row i changes; length and the other rows stay |
| ProductFormState.RemoveVariation | src/components/forms/product-form.tsx:116-121 | exactly row i is removed and the other rows keep their order |
| ProductFormState.RemoveUndoesAdd | src/components/forms/product-form.tsx:97-121 | removing the row just added restores the form |
| ProductFormState.LaterEditWins | src/components/forms/product-form.tsx:107-114 | setting a row's price twice keeps the last value |
| ProductFormState.HandleInputChange | src/components/forms/product-form.tsx:73-78 | the field takes the value, its error (if any) is blanked and every other error stays |
| ProductFormState.EditDecidesFieldAtNextSubmit | src/components/forms/product-form.tsx:73-100 | editing a field blanks its message, and the next submission flags that field exactly when the new value breaks its rule, whatever the old message said |
| ProductFormState.EditedFieldIsJudged | src/components/forms/product-form.tsx:73-100 | after an edit, validation flags the edited field exactly when its new value breaks that field's rule |
| ProductFormState.Submit | src/components/forms/product-form.tsx:123-138 | the form is handed on unchanged exactly when the product validation accepts it; otherwise its non-empty errors are stored |
| ProductFormState.BlankFormIsRefused | src/components/forms/product-form.tsx:53-138 | a blank form is refused for its name, category and unit, not for its price or stock |
| ProductCard.Increment | src/components/ui/product-card.tsx:49-51 | plus is capped at 99 |
| ProductCard.Decrement | src/components/ui/product-card.tsx:53-55 | minus is floored at 1 |
| ProductCard.RunStaysInRange | src/components/ui/product-card.tsx:49-55 | starting in 1..99, any sequence of presses stays in 1..99 |
| ProductCard.StepperEnds | src/components/ui/product-card.tsx:49-55 | plus at 99 and minus at 1 change nothing, and inside the range each undoes the other |
| ProductCard.InitialVariation | src/components/ui/product-card.tsx:40 | the first variation, none exactly when there are none |
| ProductCard.CurrentPrice | src/components/ui/product-card.tsx:57 | the selected variation's price, otherwise the base price |
| ProductCard.HasVariations | src/components/ui/product-card.tsx:58 | true exactly when the product has variations |
| ProductCard.FreshCardPrice | src/components/ui/product-card.tsx:40-58 | a new card shows the first variation's price, or the base price without variations |
| RegisterPage.Score | src/app/auth/register/page.tsx:34-40 | the score is at most 3, 3 exactly when the password is 6+ UTF-16 code units long with a digit and a letter, 0 exactly when none holds |
| RegisterPage.EmojiPasswordScoresFull | src/app/auth/register/page.tsx:34-40 | "a1" followed by two emoji is six code units and scores 3 |
| RegisterPage.Label | src/app/auth/register/page.tsx:274 | 1 is Weak, 2 Fair, 3 Strong, anything else no label |
| RegisterPage.Submit | src/app/auth/register/page.tsx:43-100 | a mismatch stops first, then a score below 3 (length in UTF-16 code units); the request is sent exactly when the passwords match, the score is 3 and the terms are accepted, and carries name, email, phone and password only |
| RegisterPage.StrongLabelIffSent | src/app/auth/register/page.tsx:43-100 | with matching passwords and the terms accepted, the request is sent exactly when the meter's label (page.tsx:274) reads "Strong" |
| RegisterPage.SentPasswordPassesRoute | src/app/auth/register/page.tsx:88-100 | a password the page sends never meets the route's "too short" answer, nor its missing-fields answer when the other fields are filled |
| UseProducts.ErrorText | src/hooks/useProducts.ts:53-63 | a non-OK answer with an empty message stores the fallback, one with a message stores that message, and a thrown error stores its own message |
| UseProducts.Create | src/hooks/useProducts.ts:40-68 | success appends the returned product and clears the error; failure leaves the list, returns nothing and stores the message or the fallback; loading ends false |
| UseProducts.ReplaceById | src/hooks/useProducts.ts:88-91 | every entry with the id is replaced by the returned product, the others are kept, the length unchanged |
| UseProducts.Update | src/hooks/useProducts.ts:70-100 | success replaces the entries with the id and clears the error; failure leaves the list and stores the message; loading ends false |
| UseProducts.Delete | src/hooks/useProducts.ts:102-125 | true exactly on success, which removes the entries with the id; failure leaves the list and stores the message; loading ends false |
| UseProducts.DeleteUndoesCreate | src/hooks/useProducts.ts:58-117 | deleting a product just created with a fresh id restores the list |
| UseProducts.UpdateReplacesEveryMatch | src/hooks/useProducts.ts:88-91 | after an update every entry with the id is the new product and every other entry remains |

## Left out

- Email delivery: only whether the send succeeded is modelled, because the transport is I/O.
- bcrypt, HMAC-SHA512, `crypto.randomBytes`, `Math.random`, `generateReference`, `Date.now` and `JSON.parse` are parameters, because their outputs cannot be computed in the model.
- Concurrency: concurrent requests are not modelled, for example a verify call and a webhook racing on one reference. Each handler runs alone on the database it is given.
- Helpers.TruncateText: where `slice` cuts between the two halves of a surrogate pair, JavaScript keeps the lone high half; a Dafny string cannot hold half a character, so the model drops that character and the result is one code unit shorter.
- OrdersTab.OrderLabel: where `slice(-8)` cuts between the two halves of a surrogate pair, JavaScript keeps the lone low half; a Dafny string cannot hold half a character, so the model drops that character and the label is seven code units long.
- Helpers.GetInitials: for a word starting with a character above U+FFFF, `charAt(0)` yields a lone high surrogate, which a Dafny string cannot hold; the model yields the whole character.
- Unicode: case mapping covers ASCII letters only, because Unicode case tables are beyond the model. `localeCompare` is taken as Unicode scalar-value order, because collation tables are platform data.
- `parseFloat`: exponents and `Infinity` are not recognised, because the forms here only send plain decimal numerals. A `0x` prefix is read as 0 followed by a stop, as `parseFloat` does.
- Money: amounts are whole naira (`int`). Floating-point rounding of prices and totals is not modelled. The stored Payment amount alone is a `real`, because the source divides kobo by 100 there.
- OrdersApi.ListOrders, ProductsApi.NoParametersListsAll: the routes' `orderBy: { createdAt: "desc" }` (src/app/api/orders/route.ts:51, src/app/api/products/route.ts:38) is not applied; lists come back in stored order, and ProductsApi.ListProducts states membership only. Rows with equal timestamps come back in whatever order the database picks, so no one order exists to promise for them.
- Prisma `include` on list routes: the joined rows are not modelled, because they are only passed through to the client.
- The distinction between Prisma error kinds in catch-all handlers is not modelled. Database availability is a single `dbAvailable` flag that turns into 500 or 503 where the source does.
- The sign-in page that `withAuth` redirects to is not modelled, because it is rendering.
- The stock of a variation row created with a product is not modelled, because the route does not set one and the database default applies. `parseFloat(v.price) || 0` is read as a whole-naira price.
- Toasts, alerts, `confirm` dialogs, timers, `FileReader`/`Blob` downloads and image uploads are not modelled, because they are browser I/O. Their outcomes are parameters where a decision depends on them.
- `useProducts`: the message 'An error occurred' for a thrown value that is not an `Error` is not modelled, because every modelled failure carries a message. `refreshProducts` is a plain re-fetch and not modelled.
- The keyed cart's variation `name` and `type` fields are carried but never inspected, because only the variation id takes part in matching.
- Rendering and layout of every page are not modelled.
- `/api/products/[id]` is not part of this model. What it writes for a bulk edit's partial body is therefore not stated; `ProductAdmin.BulkBodyNamesFilledFields` states which fields the body carries.
- The values of the database's order-status enum are the `statuses` parameter of `OrdersApi.UpdateStatus`, because the schema that declares them is not part of this model.
- ImportCsv: the parsed products are posted once, as one array, to `/api/products/import` (src/app/dashboard/components/ManageProductsTab.tsx:197-222). That route is not part of this model, so the model stops at the parsed list.
- Helpers.GetPaginationInfo: requires `pageSize > 0`. The source has no caller of it. A page size of 0 makes the source divide by zero, giving `Infinity` or `NaN` pages, which an `int` cannot hold; a negative page size has no meaning as a page size.
- ProductAdmin.SortProducts: states sortedness and permutation, not stability.
- Helpers.ToTitleCase: states only that "" stays "" and that no separator survives, not the capitalisation of each word. The per-word rule is stated by `Helpers.Capitalize`.
- MarketplacePage.CartCount: states only that the count is non-negative; `MarketplacePage.AddRaisesCountByOne` relates it to an add-to-cart.
- HelpPage.Bold: states only that text with no `*` is copied. The rewrite of marked text is stated by `HelpPage.MarkedTextBecomesStrong` and `HelpPage.NoMarkupUnchanged`.
- ProductAdmin.ImportLines: states only that a refusal never comes from the header check, and that there are never more products than lines. The per-row outcome is stated by `ProductAdmin.ImportRow` and `ProductAdmin.RowOfValues`.
- Payments.HandleSuccess: states only the case of an unknown reference. The effects on a matched order are stated by the webhook lemmas.
- Payments.HandleFailure: states only the case of an unknown reference. The effects on a matched order are stated by the webhook lemmas.

=== FILE: accounts.dfy ===
/** The account lifecycle routes: registration, e-mail verification by code
    (`POST /api/auth/verify-email`) and by link (`GET`), resending the code,
    and password reset.

    Hashing, `Math.random`, the clock and e-mail delivery are parameters:
    `hash` stands for `bcrypt.hash(_, 12)`, `rand` for a `Math.random()`
    draw in [0, 1), `now` for `Date.now()` in milliseconds, and `emailSent`
    for whether the e-mail transport succeeded. `dbAvailable` is false when
    the Prisma client is missing, which each route answers with 503. A
    string parameter that the request did not carry is "". */
module Accounts {
  import opened Wrappers
  import opened Store
  import Text

  /** How long a verification code stays valid: ten minutes. */
  const CODE_TTL_MS: int := 10 * 60 * 1000

  /** The shortest password the routes accept, in UTF-16 code units as
      JavaScript's `length` counts them. */
  const MIN_PASSWORD_LENGTH: int := 6

  // ---------------------------------------------------------------------
  // Verification codes

  /** `Math.floor(100000 + rand * 900000)`. */
  function CodeNumber(rand: real): (n: nat)
    requires 0.0 <= rand < 1.0
    ensures 100000 <= n <= 999999
  {
    var x := 100000.0 + rand * 900000.0;
    assert 100000.0 <= x < 1000000.0;
    x.Floor
  }

  /** The code's decimal text, `.toString()`. */
  function VerificationCode(rand: real): (code: string)
    requires 0.0 <= rand < 1.0
    ensures |code| == 6
    ensures forall i :: 0 <= i < |code| ==> Text.IsDigit(code[i])
    ensures Text.ParseInt(code) == Some(CodeNumber(rand) as int)
  {
    var n := CodeNumber(rand);
    Text.IntToStringRoundTrip(n);
    SixDigits(n);
    Text.NatToString(n)
  }

  /** A number in [100000, 999999] is written with exactly six digits. */
  lemma SixDigits(n: nat)
    requires 100000 <= n <= 999999
    ensures |Text.NatToString(n)| == 6
  {
    var n1, n2, n3, n4, n5 := n / 10, n / 100, n / 1000, n / 10000, n / 100000;
    assert n1 / 10 == n2 && n2 / 10 == n3 && n3 / 10 == n4 && n4 / 10 == n5 && 1 <= n5 < 10;
    assert |Text.NatToString(n5)| == 1;
    assert |Text.NatToString(n4)| == 2;
    assert |Text.NatToString(n3)| == 3;
    assert |Text.NatToString(n2)| == 4;
    assert |Text.NatToString(n1)| == 5;
  }

  // ---------------------------------------------------------------------
  // Registration

  /** The registered user as the response shows it: the stored row without
      `password` and `emailVerificationToken`. */
  datatype PublicUser = PublicUser(
    id: string, email: string, name: string, phone: string, role: Role,
    walletBalance: int, points: int, referralCode: string,
    emailVerified: Option<int>, resetToken: Option<string>, resetTokenExpiry: Option<int>)

  function Redact(u: User): (p: PublicUser)
    ensures p.id == u.id && p.email == u.email && p.name == u.name && p.phone == u.phone
    ensures p.role == u.role && p.emailVerified == u.emailVerified && p.resetTokenExpiry == u.resetTokenExpiry
  {
    PublicUser(u.id, u.email, u.name, u.phone, u.role, u.walletBalance, u.points, u.referralCode,
               u.emailVerified, u.resetToken, u.resetTokenExpiry)
  }

  datatype RegisterBody =
    | MissingFields
    | PasswordTooShort
    | RegistrationUnavailable
    | EmailTaken
    | Registered(user: PublicUser)

  /** The row registration creates: a customer with no balance, no points,
      an unverified e-mail and the fresh code as its verification token. */
  function NewUser(id: string, name: string, email: string, phone: string, hashed: string,
                   referralCode: string, code: string, expiry: int): User
  {
    User(id, email, name, phone, Some(hashed), Customer, 0, 0, referralCode, 0,
         None, Some(code), None, Some(expiry))
  }

  /** `POST /api/auth/register`. `id` and `referralCode` are the values the
      database and `Math.random().toString(36)` produce. */
  function Register(db: Db, dbAvailable: bool, name: string, email: string, phone: string,
                    password: string, hash: string -> string, rand: real, id: string,
                    referralCode: string, now: int, emailSent: bool): (r: Reply<RegisterBody>)
    requires 0.0 <= rand < 1.0
    ensures name == "" || email == "" || phone == "" || password == "" ==> r == Reply(400, MissingFields, db)
    ensures name != "" && email != "" && phone != "" && password != "" && Text.Utf16Length(password) < MIN_PASSWORD_LENGTH
            ==> r == Reply(400, PasswordTooShort, db)
    ensures r.status != 201 ==> r.db == db
    // an address already registered is refused and no user is created
    ensures name != "" && email != "" && phone != "" && Text.Utf16Length(password) >= MIN_PASSWORD_LENGTH && dbAvailable ==>
              (UserByEmail(db.users, email).Some? <==> r == Reply(400, EmailTaken, db))
    ensures r.status == 201 <==>
              name != "" && email != "" && phone != "" && Text.Utf16Length(password) >= MIN_PASSWORD_LENGTH
              && dbAvailable && UserByEmail(db.users, email).None?
    ensures r.status == 201 ==>
              && var u := NewUser(id, name, email, phone, hash(password), referralCode,
                                  VerificationCode(rand), now + CODE_TTL_MS);
              && r.db == db.(users := db.users + [u])
              && r.body == Registered(Redact(u))
  {
    if name == "" || email == "" || phone == "" || password == "" then Reply(400, MissingFields, db)
    else if Text.Utf16Length(password) < MIN_PASSWORD_LENGTH then Reply(400, PasswordTooShort, db)
    else if !dbAvailable then Reply(503, RegistrationUnavailable, db)
    else if UserByEmail(db.users, email).Some? then Reply(400, EmailTaken, db)
    else
      var u := NewUser(id, name, email, phone, hash(password), referralCode,
                       VerificationCode(rand), now + CODE_TTL_MS);
      // a failed send is logged and does not change the reply
      Reply(201, Registered(Redact(u)), db.(users := db.users + [u]))
  }

  /** "ab" followed by two emoji is six UTF-16 code units, so neither route
      calls it too short. */
  lemma EmojiPasswordIsLongEnough(db: Db, dbAvailable: bool, name: string, email: string, phone: string,
                                  hash: string -> string, rand: real, id: string, referralCode: string,
                                  now: int, emailSent: bool, token: string)
    requires 0.0 <= rand < 1.0
    requires name != "" && email != "" && phone != ""
    ensures Register(db, dbAvailable, name, email, phone, "ab\U{1F600}\U{1F600}", hash, rand, id,
                     referralCode, now, emailSent).body !in {MissingFields, PasswordTooShort}
    ensures ResetPassword(db, dbAvailable, token, "ab\U{1F600}\U{1F600}", hash, now).body != ResetPasswordTooShort
  {
    Text.EmojiCountTwice();
  }

  /** The e-mail transport never changes what registration answers or
      stores. */
  lemma RegisterIgnoresEmailFailure(db: Db, dbAvailable: bool, name: string, email: string, phone: string,
                                    password: string, hash: string -> string, rand: real, id: string,
                                    referralCode: string, now: int)
    requires 0.0 <= rand < 1.0
    ensures Register(db, dbAvailable, name, email, phone, password, hash, rand, id, referralCode, now, true)
         == Register(db, dbAvailable, name, email, phone, password, hash, rand, id, referralCode, now, false)
  {
  }

  // ---------------------------------------------------------------------
  // Verification by code

  datatype VerifyBody =
    | MissingInput
    | VerificationUnavailable
    | NoAccount
    | AlreadyVerified
    | InvalidCode
    | CodeExpired
    | EmailVerified

  /** `POST /api/auth/verify-email`: the checks run in the order the route
      makes them; the code is compared before its expiry is looked at. */
  function VerifyEmail(db: Db, dbAvailable: bool, email: string, code: string, now: int): (r: Reply<VerifyBody>)
    ensures email == "" || code == "" ==> r == Reply(400, MissingInput, db)
    ensures (email != "" && code != "" && !dbAvailable) ==> r == Reply(503, VerificationUnavailable, db)
    ensures (email != "" && code != "" && dbAvailable && UserByEmail(db.users, email).None?) ==>
              r == Reply(404, NoAccount, db)
    // for a known account: verified first, then the code, then its expiry
    ensures (email != "" && code != "" && dbAvailable && UserByEmail(db.users, email).Some?) ==>
              && var u := db.users[UserByEmail(db.users, email).value];
              && (u.emailVerified.Some? ==> r == Reply(200, AlreadyVerified, db))
              && ((u.emailVerified.None? && u.emailVerificationToken != Some(code)) ==> r == Reply(400, InvalidCode, db))
              && ((u.emailVerified.None? && u.emailVerificationToken == Some(code)
                   && u.resetTokenExpiry.Some? && now > u.resetTokenExpiry.value) ==> r == Reply(400, CodeExpired, db))
    ensures r.status != 200 || r.body != EmailVerified ==> r.db == db
    ensures r.body == InvalidCode ==>
              && UserByEmail(db.users, email).Some?
              && var u := db.users[UserByEmail(db.users, email).value];
              && u.emailVerified.None? && u.emailVerificationToken != Some(code)
    ensures r.body == CodeExpired ==>
              && UserByEmail(db.users, email).Some?
              && var u := db.users[UserByEmail(db.users, email).value];
              && u.emailVerificationToken == Some(code)
              && u.resetTokenExpiry.Some? && now > u.resetTokenExpiry.value
    ensures r.body == EmailVerified <==>
              && email != "" && code != "" && dbAvailable
              && UserByEmail(db.users, email).Some?
              && var u := db.users[UserByEmail(db.users, email).value];
              && u.emailVerified.None? && u.emailVerificationToken == Some(code)
              && (u.resetTokenExpiry.None? || now <= u.resetTokenExpiry.value)
    ensures r.body == EmailVerified ==>
              && var i := UserByEmail(db.users, email).value;
              && r.status == 200
              && r.db == db.(users := db.users[i := db.users[i].(emailVerified := Some(now),
                                                                emailVerificationToken := None,
                                                                resetTokenExpiry := None)])
  {
    if email == "" || code == "" then Reply(400, MissingInput, db)
    else if !dbAvailable then Reply(503, VerificationUnavailable, db)
    else match UserByEmail(db.users, email)
      case None => Reply(404, NoAccount, db)
      case Some(i) =>
        var u := db.users[i];
        if u.emailVerified.Some? then Reply(200, AlreadyVerified, db)
        else if u.emailVerificationToken != Some(code) then Reply(400, InvalidCode, db)
        else if u.resetTokenExpiry.Some? && now > u.resetTokenExpiry.value then Reply(400, CodeExpired, db)
        else
          Reply(200, EmailVerified,
                db.(users := db.users[i := u.(emailVerified := Some(now), emailVerificationToken := None,
                                              resetTokenExpiry := None)]))
  }

  /** The code a successful registration issues verifies that account at
      any time up to its expiry, and a second attempt then finds it
      already verified. */
  lemma RegisteredCodeVerifies(db: Db, name: string, email: string, phone: string, password: string,
                               hash: string -> string, rand: real, id: string, referralCode: string,
                               now: int, emailSent: bool, later: int)
    requires 0.0 <= rand < 1.0
    requires Register(db, true, name, email, phone, password, hash, rand, id, referralCode, now, emailSent).status == 201
    requires later <= now + CODE_TTL_MS
    ensures var db1 := Register(db, true, name, email, phone, password, hash, rand, id, referralCode, now, emailSent).db;
            var v := VerifyEmail(db1, true, email, VerificationCode(rand), later);
            && v.body == EmailVerified
            && VerifyEmail(v.db, true, email, VerificationCode(rand), later).body == AlreadyVerified
  {
    var code := VerificationCode(rand);
    var u := NewUser(id, name, email, phone, hash(password), referralCode, code, now + CODE_TTL_MS);
    var db1 := Register(db, true, name, email, phone, password, hash, rand, id, referralCode, now, emailSent).db;
    assert db1.users == db.users + [u];
    var last := |db.users|;
    assert UserByEmail(db1.users, email) == Some(last) by {
      assert db1.users[last] == u;
      assert forall j :: 0 <= j < last ==> db1.users[j] == db.users[j];
    }
    StoredCodeVerifiesOnce(db1, email, code, later, last);
  }

  /** An unverified account whose stored code is live verifies with that
      code, and a second attempt finds it already verified. */
  lemma StoredCodeVerifiesOnce(db: Db, email: string, code: string, now: int, i: nat)
    requires email != "" && code != ""
    requires UserByEmail(db.users, email) == Some(i)
    requires db.users[i].emailVerified.None? && db.users[i].emailVerificationToken == Some(code)
    requires db.users[i].resetTokenExpiry.None? || now <= db.users[i].resetTokenExpiry.value
    ensures var v := VerifyEmail(db, true, email, code, now);
            && v.body == EmailVerified
            && VerifyEmail(v.db, true, email, code, now).body == AlreadyVerified
  {
    var v := VerifyEmail(db, true, email, code, now);
    assert v.db.users[i].email == email;
    assert forall j :: 0 <= j < i ==> v.db.users[j] == db.users[j];
    assert UserByEmail(v.db.users, email) == Some(i);
  }

  // ---------------------------------------------------------------------
  // Verification by link

  datatype LinkOutcome =
    | MissingToken
    | ServiceUnavailable
    | InvalidToken
    | LinkAlreadyVerified
    | LinkVerified

  /** The page the link handler redirects to for each outcome. */
  function LinkTarget(o: LinkOutcome): (url: string)
    ensures Text.StartsWith(url, "/auth/verify-email?")
  {
    match o
    case MissingToken => "/auth/verify-email?error=missing_token"
    case ServiceUnavailable => "/auth/verify-email?error=service_unavailable"
    case InvalidToken => "/auth/verify-email?error=invalid_token"
    case LinkAlreadyVerified => "/auth/verify-email?success=already_verified"
    case LinkVerified => "/auth/verify-email?success=verified"
  }

  /** `prisma.user.findFirst({ where: { emailVerificationToken: token } })`. */
  function UserByVerificationToken(users: seq<User>, token: string): (r: Option<nat>)
    ensures r.Some? ==> r.value < |users| && users[r.value].emailVerificationToken == Some(token)
    ensures r.None? <==> forall j :: 0 <= j < |users| ==> users[j].emailVerificationToken != Some(token)
  {
    Seqs.FindFirst(users, (u: User) => u.emailVerificationToken == Some(token))
  }

  /** `GET /api/auth/verify-email?token=…`: marks the first user holding the
      token as verified and clears the token. Unlike the code route it
      neither checks nor clears the expiry. */
  function VerifyEmailLink(db: Db, dbAvailable: bool, token: string, now: int): (r: Reply<LinkOutcome>)
    ensures r.status == 307 && Text.StartsWith(LinkTarget(r.body), "/auth/verify-email?")
    ensures r.body != LinkVerified ==> r.db == db
    ensures token == "" ==> r.body == MissingToken
    ensures token != "" && dbAvailable ==>
              (UserByVerificationToken(db.users, token).None? <==> r.body == InvalidToken)
    ensures (token != "" && !dbAvailable) ==> r == Reply(307, ServiceUnavailable, db)
    ensures (token != "" && dbAvailable && UserByVerificationToken(db.users, token).Some?) ==>
              && var u := db.users[UserByVerificationToken(db.users, token).value];
              && (u.emailVerified.Some? ==> r == Reply(307, LinkAlreadyVerified, db))
              && (u.emailVerified.None? ==> r.body == LinkVerified)
    ensures r.body == LinkVerified ==>
              && token != "" && dbAvailable
              && UserByVerificationToken(db.users, token).Some?
              && var i := UserByVerificationToken(db.users, token).value;
              && db.users[i].emailVerified.None?
              && r.db == db.(users := db.users[i := db.users[i].(emailVerified := Some(now),
                                                                emailVerificationToken := None)])
  {
    if token == "" then Reply(307, MissingToken, db)
    else if !dbAvailable then Reply(307, ServiceUnavailable, db)
    else match UserByVerificationToken(db.users, token)
      case None => Reply(307, InvalidToken, db)
      case Some(i) =>
        var u := db.users[i];
        if u.emailVerified.Some? then Reply(307, LinkAlreadyVerified, db)
        else Reply(307, LinkVerified, db.(users := db.users[i := u.(emailVerified := Some(now),
                                                                  emailVerificationToken := None)]))
  }

  /** A link whose token no other user holds works once: using it again
      finds no user. The expiry the code route would have enforced is left
      in place. */
  lemma VerifyLinkIsSingleUse(db: Db, token: string, now: int, later: int)
    requires VerifyEmailLink(db, true, token, now).body == LinkVerified
    requires var i := UserByVerificationToken(db.users, token).value;
             forall j :: 0 <= j < |db.users| && j != i ==> db.users[j].emailVerificationToken != Some(token)
    ensures var r := VerifyEmailLink(db, true, token, now);
            var i := UserByVerificationToken(db.users, token).value;
            && r.db.users[i].resetTokenExpiry == db.users[i].resetTokenExpiry
            && VerifyEmailLink(r.db, true, token, later) == Reply(307, InvalidToken, r.db)
  {
  }

  // ---------------------------------------------------------------------
  // Resending the code

  datatype ResendBody =
    | MissingEmail
    | ResendUnavailable
    | MaybeSent          // the generic reply: no such account, or the send failed
    | ResendAlreadyVerified
    | CodeSent

  /** `POST /api/auth/resend-verification`: an unverified account gets a
      fresh code valid for ten minutes. */
  function Resend(db: Db, dbAvailable: bool, email: string, rand: real, now: int,
                  emailSent: bool): (r: Reply<ResendBody>)
    requires 0.0 <= rand < 1.0
    ensures email == "" ==> r == Reply(400, MissingEmail, db)
    ensures email != "" && dbAvailable ==> r.status == 200
    ensures email != "" && dbAvailable && UserByEmail(db.users, email).None? ==> r == Reply(200, MaybeSent, db)
    ensures r.body == ResendAlreadyVerified ==> r.db == db
    ensures r.db != db ==>
              && email != "" && dbAvailable && UserByEmail(db.users, email).Some?
              && var i := UserByEmail(db.users, email).value;
              && db.users[i].emailVerified.None?
              && r.db == db.(users := db.users[i := db.users[i].(emailVerificationToken := Some(VerificationCode(rand)),
                                                                resetTokenExpiry := Some(now + CODE_TTL_MS))])
  {
    if email == "" then Reply(400, MissingEmail, db)
    else if !dbAvailable then Reply(503, ResendUnavailable, db)
    else match UserByEmail(db.users, email)
      case None => Reply(200, MaybeSent, db)
      case Some(i) =>
        var u := db.users[i];
        if u.emailVerified.Some? then Reply(200, ResendAlreadyVerified, db)
        else
          var db' := db.(users := db.users[i := u.(emailVerificationToken := Some(VerificationCode(rand)),
                                                   resetTokenExpiry := Some(now + CODE_TTL_MS))]);
          // the code is stored before the send, and stays stored when it fails
          Reply(200, if emailSent then CodeSent else MaybeSent, db')
  }

  /** An unknown address and a failed send give the same reply, so the
      route does not reveal which addresses have accounts; only the stored
      code differs. */
  lemma ResendHidesUnknownAccounts(db: Db, known: string, unknown: string, rand: real, now: int)
    requires 0.0 <= rand < 1.0
    requires unknown != "" && UserByEmail(db.users, unknown).None?
    requires known != "" && UserByEmail(db.users, known).Some?
    requires db.users[UserByEmail(db.users, known).value].emailVerified.None?
    ensures Resend(db, true, unknown, rand, now, true).body == Resend(db, true, known, rand, now, false).body
    ensures Resend(db, true, known, rand, now, false).db == Resend(db, true, known, rand, now, true).db
  {
  }

  /** A resent code verifies the account within its ten minutes. */
  lemma {:induction false} ResentCodeVerifies(db: Db, email: string, rand: real, now: int, emailSent: bool, later: int)
    requires 0.0 <= rand < 1.0
    requires email != "" && UserByEmail(db.users, email).Some?
    requires db.users[UserByEmail(db.users, email).value].emailVerified.None?
    requires later <= now + CODE_TTL_MS
    ensures var db1 := Resend(db, true, email, rand, now, emailSent).db;
            VerifyEmail(db1, true, email, VerificationCode(rand), later).body == EmailVerified
  {
    var db1 := Resend(db, true, email, rand, now, emailSent).db;
    var i := UserByEmail(db.users, email).value;
    assert forall j :: 0 <= j < |db.users| ==> db1.users[j].email == db.users[j].email;
    assert UserByEmail(db1.users, email) == Some(i);
  }

  // ---------------------------------------------------------------------
  // Password reset

  datatype ResetBody =
    | ResetMissingInput
    | ResetPasswordTooShort
    | ResetUnavailable
    | InvalidOrExpiredToken
    | PasswordReset

  /** The user a reset token selects: it must be stored and its expiry
      still strictly in the future. */
  predicate HoldsLiveResetToken(u: User, token: string, now: int) {
    u.resetToken == Some(token) && u.resetTokenExpiry.Some? && u.resetTokenExpiry.value > now
  }

  function UserByResetToken(users: seq<User>, token: string, now: int): (r: Option<nat>)
    ensures r.Some? ==> r.value < |users| && HoldsLiveResetToken(users[r.value], token, now)
    ensures r.None? <==> forall j :: 0 <= j < |users| ==> !HoldsLiveResetToken(users[j], token, now)
  {
    Seqs.FindFirst(users, (u: User) => HoldsLiveResetToken(u, token, now))
  }

  /** `POST /api/auth/reset-password`. */
  function ResetPassword(db: Db, dbAvailable: bool, token: string, password: string,
                         hash: string -> string, now: int): (r: Reply<ResetBody>)
    ensures token == "" || password == "" ==> r == Reply(400, ResetMissingInput, db)
    ensures token != "" && password != "" && Text.Utf16Length(password) < MIN_PASSWORD_LENGTH ==> r == Reply(400, ResetPasswordTooShort, db)
    ensures r.status != 200 ==> r.db == db
    ensures r.status == 200 <==>
              token != "" && Text.Utf16Length(password) >= MIN_PASSWORD_LENGTH && dbAvailable
              && UserByResetToken(db.users, token, now).Some?
    ensures r.status == 200 ==>
              && var i := UserByResetToken(db.users, token, now).value;
              && r.db == db.(users := db.users[i := db.users[i].(password := Some(hash(password)),
                                                                resetToken := None, resetTokenExpiry := None)])
  {
    if token == "" || password == "" then Reply(400, ResetMissingInput, db)
    else if Text.Utf16Length(password) < MIN_PASSWORD_LENGTH then Reply(400, ResetPasswordTooShort, db)
    else if !dbAvailable then Reply(503, ResetUnavailable, db)
    else match UserByResetToken(db.users, token, now)
      case None => Reply(400, InvalidOrExpiredToken, db)
      case Some(i) =>
        var u := db.users[i];
        Reply(200, PasswordReset,
              db.(users := db.users[i := u.(password := Some(hash(password)), resetToken := None,
                                            resetTokenExpiry := None)]))
  }

  /** A reset token no other user holds works once: replaying it, at any
      time, is refused. */
  lemma ResetTokenIsSingleUse(db: Db, token: string, password: string, hash: string -> string,
                                                 now: int, later: int, again: string)
    requires ResetPassword(db, true, token, password, hash, now).status == 200
    requires var i := UserByResetToken(db.users, token, now).value;
             forall j :: 0 <= j < |db.users| && j != i ==> db.users[j].resetToken != Some(token)
    requires Text.Utf16Length(again) >= MIN_PASSWORD_LENGTH
    ensures var db1 := ResetPassword(db, true, token, password, hash, now).db;
            ResetPassword(db1, true, token, again, hash, later) == Reply(400, InvalidOrExpiredToken, db1)
  {
  }

  /** The verification code's expiry is stored in `resetTokenExpiry`, the
      field the reset route checks. So resending a code to an unverified
      account that also holds an expired reset token, which the reset route
      refuses, makes that token usable again for ten minutes. */
  lemma {:induction false} ResendRevivesResetToken(db: Db, email: string, rand: real, now: int, emailSent: bool,
                                                   token: string, password: string, hash: string -> string)
    requires 0.0 <= rand < 1.0
    requires email != "" && UserByEmail(db.users, email).Some?
    requires var u := db.users[UserByEmail(db.users, email).value];
             u.emailVerified.None? && u.resetToken == Some(token) && u.resetTokenExpiry.Some?
             && u.resetTokenExpiry.value <= now
    requires token != "" && Text.Utf16Length(password) >= MIN_PASSWORD_LENGTH
    requires var i := UserByEmail(db.users, email).value;
             forall j :: 0 <= j < |db.users| && j != i ==> db.users[j].resetToken != Some(token)
    ensures ResetPassword(db, true, token, password, hash, now) == Reply(400, InvalidOrExpiredToken, db)
    ensures ResetPassword(Resend(db, true, email, rand, now, emailSent).db, true, token, password, hash, now).status == 200
  {
    var i := UserByEmail(db.users, email).value;
    var db1 := Resend(db, true, email, rand, now, emailSent).db;
    assert HoldsLiveResetToken(db1.users[i], token, now);
  }

  /** Verifying an e-mail by code clears `resetTokenExpiry`, so a reset
      token the account held stops working. */
  lemma VerifyingCodeVoidsResetToken(db: Db, email: string, code: string, now: int,
                                                        token: string, password: string, hash: string -> string,
                                                        later: int)
    requires VerifyEmail(db, true, email, code, now).body == EmailVerified
    requires var i := UserByEmail(db.users, email).value;
             forall j :: 0 <= j < |db.users| && j != i ==> db.users[j].resetToken != Some(token)
    ensures var db1 := VerifyEmail(db, true, email, code, now).db;
            ResetPassword(db1, true, token, password, hash, later).status != 200
  {
  }
}

=== FILE: catalog.dfy ===
/** The product catalogue shared by the product routes and the dashboard,
    marketplace and product-form views. Prices are whole naira; `createdAt`
    is a timestamp in milliseconds. */
module Catalog {
  import opened Wrappers
  import Seqs

  datatype Category = Category(id: string, name: string)

  datatype Variation = Variation(id: string, name: string, price: int, stock: int)

  datatype Product = Product(
    id: string,
    name: string,
    description: string,
    basePrice: int,
    categoryId: string,
    category: Category,
    stock: int,
    unit: string,
    inStock: bool,
    createdAt: int,
    variations: seq<Variation>)

  /** Below this stock a product counts as running low. */
  const LOW_STOCK: int := 10

  /** A row of the Variation table as the product route creates it. */
  datatype VariationRow = VariationRow(name: string, kind: string, price: int, productId: string)

  /** The catalogue tables: categories, products, and the variation rows
      created alongside products. */
  datatype Shelf = Shelf(categories: seq<Category>, products: seq<Product>, variationRows: seq<VariationRow>)

  /** The category with that id, first in table order. */
  function CategoryById(categories: seq<Category>, id: string): (r: Option<nat>)
    ensures r.Some? ==> r.value < |categories| && categories[r.value].id == id
    ensures r.None? <==> forall j :: 0 <= j < |categories| ==> categories[j].id != id
  {
    Seqs.FindFirst(categories, (c: Category) => c.id == id)
  }
}

=== FILE: checkout.dfy ===
/** The pricing and gating expressions of the checkout and cart pages:
    delivery fee, wallet deduction and final total, the order lines sent to
    the server, the delivery-slot choices, and the buttons' conditions.
    Both pages read the simple cart store. Amounts are whole naira. */
module Checkout {
  import opened Wrappers
  import Seqs
  import SimpleCart
  import Routing
  import Text

  /** A subtotal strictly above this ships free. */
  const FREE_DELIVERY_ABOVE: int := 10000
  const DELIVERY_FEE: int := 1500

  /** `subtotal > 10000 ? 0 : 1500`. */
  function DeliveryFee(subtotal: int): (fee: int)
    ensures fee == 0 <==> subtotal > FREE_DELIVERY_ABOVE
    ensures fee == 0 || fee == DELIVERY_FEE
  {
    if subtotal > FREE_DELIVERY_ABOVE then 0 else DELIVERY_FEE
  }

  datatype Summary = Summary(subtotal: int, deliveryFee: int, walletDeduction: int, finalTotal: int)

  /** The checkout summary: the wallet covers as much of subtotal plus fee
      as its balance allows when the customer opts in. */
  function CheckoutSummary(subtotal: int, useWallet: bool, walletBalance: int): (s: Summary)
    ensures s.subtotal == subtotal && s.deliveryFee == DeliveryFee(subtotal)
    ensures !useWallet ==> s.walletDeduction == 0
    ensures useWallet ==> s.walletDeduction <= walletBalance && s.walletDeduction <= subtotal + s.deliveryFee
    ensures useWallet ==> s.walletDeduction == walletBalance || s.walletDeduction == subtotal + s.deliveryFee
    ensures s.finalTotal + s.walletDeduction == subtotal + s.deliveryFee
  {
    var fee := DeliveryFee(subtotal);
    var deduction := if useWallet then (if walletBalance < subtotal + fee then walletBalance else subtotal + fee) else 0;
    Summary(subtotal, fee, deduction, subtotal + fee - deduction)
  }

  /** With a non-negative balance and subtotal the customer never pays less
      than nothing nor more than subtotal plus fee, and a balance covering
      everything leaves nothing to pay. */
  lemma FinalTotalInRange(subtotal: int, useWallet: bool, walletBalance: int)
    requires subtotal >= 0 && walletBalance >= 0
    ensures var s := CheckoutSummary(subtotal, useWallet, walletBalance);
            && 0 <= s.finalTotal <= subtotal + s.deliveryFee
            && (useWallet && walletBalance >= subtotal + s.deliveryFee ==> s.finalTotal == 0)
  {
  }

  /** The cart page's total: the fee is added, nothing is deducted. */
  function CartPageTotal(totalPrice: int): (total: int)
    ensures total >= totalPrice
    ensures total == totalPrice <==> totalPrice > FREE_DELIVERY_ABOVE
    ensures total == CheckoutSummary(totalPrice, false, 0).finalTotal
  {
    totalPrice + DeliveryFee(totalPrice)
  }

  /** One line of the order the checkout posts; the cart has no variations
      so `variationId` is always null. */
  datatype OrderLine = OrderLine(productId: string, variationId: Option<string>, quantity: int, unitPrice: int,
                                 totalPrice: int)

  function OrderLineOf(l: SimpleCart.Line): OrderLine {
    OrderLine(l.id, None, l.quantity, l.price, l.price * l.quantity)
  }

  /** `items.map(...)`: one order line per cart line, in order. */
  function OrderLines(items: seq<SimpleCart.Line>): (r: seq<OrderLine>)
    ensures |r| == |items|
    ensures forall i :: 0 <= i < |items| ==>
              && r[i].productId == items[i].id && r[i].variationId.None?
              && r[i].quantity == items[i].quantity && r[i].unitPrice == items[i].price
              && r[i].totalPrice == r[i].unitPrice * r[i].quantity
  {
    seq(|items|, i requires 0 <= i < |items| => OrderLineOf(items[i]))
  }

  function LineTotal(l: OrderLine): int { l.totalPrice }

  /** The order lines add up to the subtotal the summary shows. */
  lemma {:induction false} OrderLinesSumToSubtotal(items: seq<SimpleCart.Line>)
    ensures Seqs.Sum(OrderLines(items), LineTotal) == SimpleCart.TotalPrice(items)
  {
    if items != [] {
      var n := |items| - 1;
      OrderLinesSumToSubtotal(items[..n]);
      assert OrderLines(items) == OrderLines(items[..n]) + [OrderLineOf(items[n])];
      assert items == items[..n] + [items[n]];
      Seqs.SumAppend(OrderLines(items[..n]), [OrderLineOf(items[n])], LineTotal);
      Seqs.SumAppend(items[..n], [items[n]], SimpleCart.LineTotal);
    }
  }

  datatype DeliverySlot = DeliverySlot(id: string, date: string, timeSlot: string, available: bool)

  /** The time slots offered once a date is chosen. */
  function OfferedSlots(slots: seq<DeliverySlot>, date: string): (r: seq<DeliverySlot>)
    ensures forall s :: s in r <==> s in slots && s.date == date && s.available
    ensures |r| <= |slots|
    // the offered slots keep the order the slots came in
    ensures Seqs.IsFilter(r, slots, (s: DeliverySlot) => s.date == date && s.available)
  {
    var offered := (s: DeliverySlot) => s.date == date && s.available;
    Seqs.FilterIsFilter(slots, offered);
    Seqs.Filter(slots, offered)
  }

  function DateOf(s: DeliverySlot): string { s.date }

  /** `slots.map(s => s.date)`. */
  function SlotDates(slots: seq<DeliverySlot>): (r: seq<string>)
    ensures |r| == |slots|
    ensures forall i :: 0 <= i < |slots| ==> r[i] == slots[i].date
  {
    seq(|slots|, i requires 0 <= i < |slots| => slots[i].date)
  }

  /** `[...new Set(slots.map(s => s.date))]`: each slot date once. */
  function DeliveryDates(slots: seq<DeliverySlot>): (r: seq<string>)
    ensures forall d :: d in r <==> exists s :: s in slots && s.date == d
    ensures forall i, j :: 0 <= i < j < |r| ==> r[i] != r[j]
    ensures forall d :: d in r <==> d in SlotDates(slots)
    // listed in the order of each date's first slot
    ensures forall i, j :: 0 <= i < j < |r| ==> Seqs.IndexOf(SlotDates(slots), r[i]) < Seqs.IndexOf(SlotDates(slots), r[j])
  {
    var dates := SlotDates(slots);
    assert forall d :: d in dates <==> exists s :: s in slots && s.date == d by {
      forall d | exists s :: s in slots && s.date == d
        ensures d in dates
      {
        var s :| s in slots && s.date == d;
        var i :| 0 <= i < |slots| && slots[i] == s;
        assert dates[i] == d;
      }
    }
    Seqs.Distinct(dates)
  }

  /** Every offered slot's date is one of the listed dates. */
  lemma OfferedSlotsHaveListedDates(slots: seq<DeliverySlot>, date: string)
    ensures forall s :: s in OfferedSlots(slots, date) ==> s.date in DeliveryDates(slots)
  {
  }

  /** The "Continue to Payment" button: address, date and time chosen. */
  function CanContinue(selectedAddress: string, deliveryDate: string, deliveryTime: string): (r: bool)
    ensures r <==> selectedAddress != "" && deliveryDate != "" && deliveryTime != ""
  {
    !(selectedAddress == "" || deliveryDate == "" || deliveryTime == "")
  }

  /** The warning under the button. */
  datatype Hint = SelectAddress | SelectDateAndTime

  function ContinueHint(selectedAddress: string, deliveryDate: string, deliveryTime: string): (h: Option<Hint>)
    ensures h == Some(SelectAddress) <==> selectedAddress == ""
    ensures h == Some(SelectDateAndTime) <==> selectedAddress != "" && (deliveryDate == "" || deliveryTime == "")
  {
    if selectedAddress == "" then Some(SelectAddress)
    else if deliveryDate == "" || deliveryTime == "" then Some(SelectDateAndTime)
    else None
  }

  /** The button is disabled exactly while a warning says what is missing,
      and with no address chosen the warning asks for the address first. */
  lemma DisabledButtonExplainsWhy(selectedAddress: string, deliveryDate: string, deliveryTime: string)
    ensures !CanContinue(selectedAddress, deliveryDate, deliveryTime)
            <==> ContinueHint(selectedAddress, deliveryDate, deliveryTime).Some?
  {
  }

  /** Where the cart's checkout button leads. */
  function CheckoutTarget(signedIn: bool): (url: string)
    ensures signedIn <==> url == "/checkout"
    ensures !signedIn ==> url == "/auth/login?redirect=/checkout"
  {
    if signedIn then "/checkout" else "/auth/login?redirect=/checkout"
  }

  /** Each caller is sent where the middleware lets them in: a signed-in
      shopper to the checkout page, which no matcher selects, and anyone
      else to the sign-in page, with the signed-in target as the `redirect`
      parameter. */
  lemma CheckoutTargetIsOpenToCaller()
    ensures CheckoutTarget(false) == "/auth/login" + "?redirect=" + CheckoutTarget(true)
    ensures Routing.Guard("/checkout", true) == Routing.Next
    ensures Routing.Guard("/auth/login", false) == Routing.Next
  {
    var checkout, login := "/checkout", "/auth/login";
    assert checkout[1] == 'c' && login[1] == 'a';
    assert !Text.StartsWith(checkout, "/dashboard/") && !Text.StartsWith(checkout, "/auth/")
           && !Text.StartsWith(checkout, "/api/");
    assert login[..6] == "/auth/" && login[..5] == "/auth";
    assert !Text.StartsWith(login, "/dashboard");
  }

  /** The minus button is disabled at quantity 1 or below. */
  function DecrementEnabled(quantity: int): (r: bool)
    ensures r <==> quantity > 1
  {
    !(quantity <= 1)
  }

  /** An enabled minus button lowers the line by one and never removes it:
      every line keeps a quantity of at least 1. */
  lemma DecrementKeepsLine(items: seq<SimpleCart.Line>, k: nat)
    requires SimpleCart.UniqueIds(items) && k < |items| && DecrementEnabled(items[k].quantity)
    ensures var r := SimpleCart.UpdateQuantity(items, items[k].id, items[k].quantity - 1);
            && |r| == |items|
            && r[k] == items[k].(quantity := items[k].quantity - 1)
            && r[k].quantity >= 1
            && forall i :: 0 <= i < |items| && i != k ==> r[i] == items[i]
  {
  }
}

=== FILE: credentials.dfy ===
/** The credentials sign-in of the authentication options: the `authorize`
    decision chain and the `jwt` and `session` callbacks that carry the
    user's id and role into every later request.

    `compare(plain, hashed)` stands for `bcrypt.compare`; `dbAvailable` is
    false when the Prisma client is missing. */
module Credentials {
  import opened Wrappers
  import opened Store

  const DEMO_EMAIL: string := "demo@marketdotcom.com"
  const DEMO_PASSWORD: string := "demo123"

  /** What a successful `authorize` hands to the session layer. */
  datatype AuthUser = AuthUser(id: string, email: string, name: string, role: Role)

  datatype Rejection =
    | MissingCredentials
    | DatabaseUnavailable
    | NoAccount
    | SetupIncomplete
    | EmailNotVerified
    | InvalidPassword

  datatype AuthResult = SignedIn(user: AuthUser) | Rejected(reason: Rejection)

  const DEMO_USER: AuthUser := AuthUser("demo-user", DEMO_EMAIL, "Demo User", Customer)

  /** `user.password` is truthy: stored and non-empty. */
  predicate HasPassword(u: User) {
    u.password.Some? && u.password.value != ""
  }

  /** `authorize(credentials)`: the checks in the order the provider makes
      them; every thrown error is a rejection. */
  function Authorize(users: seq<User>, dbAvailable: bool, email: string, password: string,
                     compare: (string, string) -> bool): (r: AuthResult)
    ensures email == "" || password == "" ==> r == Rejected(MissingCredentials)
    // without a database only the demo account signs in, as a customer
    ensures email != "" && password != "" && !dbAvailable ==>
              (r.SignedIn? <==> email == DEMO_EMAIL && password == DEMO_PASSWORD)
    ensures email != "" && password != "" && !dbAvailable && r.SignedIn? ==> r.user == DEMO_USER
    ensures (email != "" && password != "" && !dbAvailable && !(email == DEMO_EMAIL && password == DEMO_PASSWORD))
            ==> r == Rejected(DatabaseUnavailable)
    ensures email != "" && password != "" && dbAvailable && UserByEmail(users, email).None? ==> r == Rejected(NoAccount)
    // a known account: a stored hash, then verification, then the password
    ensures (email != "" && password != "" && dbAvailable && UserByEmail(users, email).Some?) ==>
              && var u := users[UserByEmail(users, email).value];
              && (!HasPassword(u) ==> r == Rejected(SetupIncomplete))
              // an unverified account is refused whatever the password
              && ((HasPassword(u) && u.emailVerified.None?) ==> r == Rejected(EmailNotVerified))
              && ((HasPassword(u) && u.emailVerified.Some? && !compare(password, u.password.value))
                  ==> r == Rejected(InvalidPassword))
              && ((HasPassword(u) && u.emailVerified.Some? && compare(password, u.password.value))
                  ==> r == SignedIn(AuthUser(u.id, u.email, u.name, u.role)))
    ensures dbAvailable && r.SignedIn? ==>
              && UserByEmail(users, email).Some?
              && var u := users[UserByEmail(users, email).value];
              && HasPassword(u) && u.emailVerified.Some? && compare(password, u.password.value)
              && r.user == AuthUser(u.id, u.email, u.name, u.role)
  {
    if email == "" || password == "" then Rejected(MissingCredentials)
    else if !dbAvailable then
      if email == DEMO_EMAIL && password == DEMO_PASSWORD then SignedIn(DEMO_USER)
      else Rejected(DatabaseUnavailable)
    else match UserByEmail(users, email)
      case None => Rejected(NoAccount)
      case Some(i) =>
        var u := users[i];
        if !HasPassword(u) then Rejected(SetupIncomplete)
        else if u.emailVerified.None? then Rejected(EmailNotVerified)
        else if !compare(password, u.password.value) then Rejected(InvalidPassword)
        else SignedIn(AuthUser(u.id, u.email, u.name, u.role))
  }

  /** Signing in needs the stored hash to accept the password: changing
      only the comparison's verdict on it flips the outcome. */
  lemma AuthorizeNeedsMatchingPassword(users: seq<User>, email: string, password: string,
                                                          accept: (string, string) -> bool,
                                                          refuse: (string, string) -> bool)
    requires email != "" && password != ""
    requires Authorize(users, true, email, password, accept).SignedIn?
    requires var u := users[UserByEmail(users, email).value];
             !refuse(password, u.password.value)
    ensures Authorize(users, true, email, password, refuse) == Rejected(InvalidPassword)
  {
  }

  /** The JWT as the callbacks see it: `sub` is the user id the session
      layer stores, `role` what `jwt` copied. */
  datatype Token = Token(sub: string, email: string, role: Option<Role>)

  /** The `jwt` callback: `user` is present only on the sign-in request. */
  function Jwt(token: Token, user: Option<AuthUser>): (t: Token)
    ensures user.Some? ==> t.role == Some(user.value.role)
    ensures user.None? ==> t == token
    ensures t.sub == token.sub && t.email == token.email
  {
    match user
    case None => token
    case Some(u) => token.(role := Some(u.role))
  }

  /** The client-visible session: `session.user.id` and `.role`. */
  datatype SessionUser = SessionUser(id: string, email: string, role: Option<Role>)

  /** The `session` callback: copies `sub` and `role` from the token. */
  function SessionOf(token: Token): (s: SessionUser)
    ensures s.id == token.sub && s.role == token.role && s.email == token.email
  {
    SessionUser(token.sub, token.email, token.role)
  }

  /** After a sign-in the session carries the signed-in user's id and role,
      and later requests (no user) keep them. */
  lemma SignInReachesSession(users: seq<User>, dbAvailable: bool, email: string, password: string,
                             compare: (string, string) -> bool)
    requires Authorize(users, dbAvailable, email, password, compare).SignedIn?
    ensures var u := Authorize(users, dbAvailable, email, password, compare).user;
            var t := Jwt(Token(u.id, u.email, None), Some(u));
            && SessionOf(t) == SessionUser(u.id, u.email, Some(u.role))
            && SessionOf(Jwt(t, None)) == SessionOf(t)
  {
  }
}

=== FILE: dashboard_page.dfy ===
/** The dashboard page: who counts as an admin, which tab a `tab` query
    parameter opens, the category/product filter feeding the marketplace
    tab, the cart line built for an add-to-cart, and the stock toggle. */
module DashboardPage {
  import opened Wrappers
  import Seqs
  import opened Store
  import Catalog
  import SimpleCart
  import OrdersApi
  import MarketplaceTab

  /** `session?.user?.role === "ADMIN"`. */
  predicate IsAdmin(session: Option<Session>) {
    session.Some? && session.value.role == Admin
  }

  /** The page offers the status controls exactly to the callers the orders
      route lets change a status: everyone else gets 401. */
  lemma AdminControlsMatchOrdersRoute(db: Db, session: Option<Session>, orderId: string, status: string,
                                      statuses: set<string>, emailSent: bool)
    ensures IsAdmin(session) <==> OrdersApi.UpdateStatus(db, session, orderId, status, statuses, emailSent).status != 401
  {
  }

  const TABS: seq<string> := ["marketplace", "orders", "wallet", "admin", "manage-products"]

  /** The active tab after reading the `tab` parameter ("" when absent):
      only a listed name switches tabs. */
  function TabFromParam(current: string, param: string): (tab: string)
    ensures param in TABS ==> tab == param
    ensures param !in TABS ==> tab == current
    ensures current in TABS ==> tab in TABS
  {
    if param != "" && param in TABS then param else current
  }

  /** Reading the same parameter again changes nothing, and a page opened
      on a listed tab stays on a listed tab whatever parameters follow. */
  lemma {:induction false} TabParamIsIdempotent(current: string, params: seq<string>)
    ensures forall p :: TabFromParam(TabFromParam(current, p), p) == TabFromParam(current, p)
    ensures current in TABS ==> TabsAfter(current, params) in TABS
    decreases |params|
  {
    if params != [] {
      TabParamIsIdempotent(TabFromParam(current, params[0]), params[1..]);
    }
  }

  /** The tab after reading each parameter in turn. */
  function TabsAfter(current: string, params: seq<string>): string
    decreases |params|
  {
    if params == [] then current else TabsAfter(TabFromParam(current, params[0]), params[1..])
  }

  /** A selection filters unless it is "" or "all". */
  predicate Active(selection: string) {
    selection != "" && selection != "all"
  }

  predicate Kept(category: string, product: string, p: Catalog.Product) {
    && (Active(category) ==> p.categoryId == category)
    && (Active(product) ==> p.id == product)
  }

  /** `filteredProducts`: the category filter, then the product filter. */
  function FilterProducts(ps: seq<Catalog.Product>, category: string, product: string): (r: seq<Catalog.Product>)
    ensures forall p :: p in r <==> p in ps && Kept(category, product, p)
    ensures |r| <= |ps|
    // the kept products stay in list order, with their repetitions
    ensures Seqs.IsFilter(r, ps, (p: Catalog.Product) => Kept(category, product, p))
  {
    var inCategory := (p: Catalog.Product) => p.categoryId == category;
    var isProduct := (p: Catalog.Product) => p.id == product;
    var byCategory := if Active(category) then Seqs.Filter(ps, inCategory) else ps;
    var r := if Active(product) then Seqs.Filter(byCategory, isProduct) else byCategory;
    Seqs.FilterIsFilter(ps, inCategory);
    Seqs.FilterIsFilter(byCategory, isProduct);
    TwoFiltersKeep(ps, byCategory, r, category, product);
    r
  }

  /** The category step followed by the product step filters by `Kept`. */
  lemma TwoFiltersKeep(ps: seq<Catalog.Product>, byCategory: seq<Catalog.Product>, r: seq<Catalog.Product>,
                       category: string, product: string)
    requires Active(category) ==> Seqs.IsFilter(byCategory, ps, (p: Catalog.Product) => p.categoryId == category)
    requires !Active(category) ==> byCategory == ps
    requires Active(product) ==> Seqs.IsFilter(r, byCategory, (p: Catalog.Product) => p.id == product)
    requires !Active(product) ==> r == byCategory
    ensures Seqs.IsFilter(r, ps, (p: Catalog.Product) => Kept(category, product, p))
  {
    var first := (p: Catalog.Product) => Active(category) ==> p.categoryId == category;
    var second := (p: Catalog.Product) => Active(product) ==> p.id == product;
    if !Active(category) {
      Seqs.IsFilterOfAll(ps, first);
    }
    if !Active(product) {
      Seqs.IsFilterOfAll(byCategory, second);
    }
    Seqs.IsFilterCompose(ps, byCategory, r, first, second, (p: Catalog.Product) => Kept(category, product, p));
  }

  /** With both selections at "all" the full list goes through, in order;
      with a product chosen at most the lines with that id remain. */
  lemma FilterDefaults(ps: seq<Catalog.Product>, category: string, product: string)
    ensures FilterProducts(ps, "all", "all") == ps
    ensures Active(product) ==> forall i :: 0 <= i < |FilterProducts(ps, category, product)| ==>
                                  FilterProducts(ps, category, product)[i].id == product
  {
  }

  const PLACEHOLDER_IMAGE: string := "/api/placeholder/300/200"

  /** `${product.id}-${variation.id}` for a variation, the product id
      alone otherwise. */
  function CartId(productId: string, variation: Option<Catalog.Variation>): (id: string)
    ensures variation.None? ==> id == productId
    ensures variation.Some? ==> |id| == |productId| + 1 + |variation.value.id|
    ensures variation.Some? ==> id[..|productId|] == productId && id[|productId|] == '-'
                                && id[|productId| + 1..] == variation.value.id
  {
    if variation.Some? then productId + "-" + variation.value.id else productId
  }

  /** `handleAddToCart`: the variation's name and price when one is given,
      the product's otherwise; `image` is the product's image, "" when it
      has none. */
  function CartLine(p: Catalog.Product, image: string, variation: Option<Catalog.Variation>, quantity: int): (l: SimpleCart.Line)
    ensures l.id == CartId(p.id, variation) && l.quantity == quantity && l.unit == p.unit
    ensures variation.None? ==> l.name == p.name && l.price == p.basePrice
    ensures variation.Some? ==> l.name == p.name + " - " + variation.value.name && l.price == variation.value.price
    ensures l.image == if image != "" then image else PLACEHOLDER_IMAGE
  {
    SimpleCart.Line(CartId(p.id, variation),
                    if variation.Some? then p.name + " - " + variation.value.name else p.name,
                    if variation.Some? then variation.value.price else p.basePrice,
                    if image != "" then image else PLACEHOLDER_IMAGE,
                    quantity, p.unit)
  }

  /** Two different variations of one product become two cart lines. */
  lemma VariationsGetOwnLines(productId: string, v: Catalog.Variation, w: Catalog.Variation)
    requires v.id != w.id
    ensures CartId(productId, Some(v)) != CartId(productId, Some(w))
  {
  }

  /** The id scheme is not injective: a product whose own id contains a
      dash can share a cart line with a variation of another product. */
  lemma CartIdsCanCollide()
    ensures CartId("a-b", None) == CartId("a", Some(Catalog.Variation("b", "Small", 100, 1)))
  {
  }

  /** An add-to-cart from the marketplace tab for a product not yet in the
      cart appends one line holding exactly the quantity the tab showed. */
  lemma TabAddAppendsShownQuantity(items: seq<SimpleCart.Line>, p: Catalog.Product, image: string,
                                   quantities: map<string, int>, selected: map<string, string>)
    requires MarketplaceTab.AddEnabled(p, quantities)
    requires var req := MarketplaceTab.AddToCart(p, quantities, selected);
             SimpleCart.IndexOf(items, CartId(p.id, req.variation)).None?
    ensures var req := MarketplaceTab.AddToCart(p, quantities, selected);
            var line := CartLine(p, image, req.variation, req.quantity);
            var r := SimpleCart.AddItem(items, line, Some(line.quantity));
            && |r| == |items| + 1 && r[..|items|] == items
            && r[|items|].quantity == MarketplaceTab.QuantityOf(quantities, p.id)
  {
  }

  /** `handleToggleStockStatus`: the product sent back with `inStock`
      negated. */
  function ToggleStock(p: Catalog.Product): (r: Catalog.Product)
    ensures r.inStock != p.inStock
    ensures r.(inStock := p.inStock) == p
  {
    p.(inStock := !p.inStock)
  }

  /** Toggling twice sends the product as it was. */
  lemma ToggleStockTwice(p: Catalog.Product)
    ensures ToggleStock(ToggleStock(p)) == p
  {
  }
}

=== FILE: help_page.dfy ===
/** The help page: the FAQ search and category filter, the per-category
    counts of the sidebar, and the rewrite of `**bold**` markup in guide
    sections into `<strong>` elements. */
module HelpPage {
  import opened Wrappers
  import Seqs
  import Text

  datatype Faq = Faq(question: string, answer: string, category: string, tags: seq<string>)

  /** The search matches the question, the answer or some tag, ignoring
      case. */
  predicate MatchesSearch(query: string, f: Faq) {
    || Text.ContainsIgnoringCase(f.question, query)
    || Text.ContainsIgnoringCase(f.answer, query)
    || exists k :: 0 <= k < |f.tags| && Text.ContainsIgnoringCase(f.tags[k], query)
  }

  predicate MatchesCategory(category: string, f: Faq) {
    category == "all" || f.category == category
  }

  /** `filteredFaqs`. */
  function FilterFaqs(faqs: seq<Faq>, query: string, category: string): (r: seq<Faq>)
    ensures forall f :: f in r <==> f in faqs && MatchesSearch(query, f) && MatchesCategory(category, f)
    ensures |r| <= |faqs|
    // the shown questions keep their order on the page
    ensures Seqs.IsFilter(r, faqs, (f: Faq) => MatchesSearch(query, f) && MatchesCategory(category, f))
  {
    var shown := (f: Faq) => MatchesSearch(query, f) && MatchesCategory(category, f);
    Seqs.FilterIsFilter(faqs, shown);
    Seqs.Filter(faqs, shown)
  }

  /** An empty search matches every FAQ, so it shows exactly the chosen
      category, and with "all" every FAQ in order. */
  lemma {:induction false} EmptySearchShowsCategory(faqs: seq<Faq>, category: string)
    ensures forall f :: f in FilterFaqs(faqs, "", category) <==> f in faqs && MatchesCategory(category, f)
    ensures FilterFaqs(faqs, "", "all") == faqs
  {
    forall f: Faq
      ensures MatchesSearch("", f)
    {
      Text.ContainsEmpty(Text.LowerStr(f.question));
    }
    Seqs.FilterKeepsAll(faqs, (f: Faq) => MatchesSearch("", f) && MatchesCategory("all", f));
  }

  /** The count next to a category in the sidebar. */
  function CategoryCount(faqs: seq<Faq>, id: string): (n: nat)
    ensures id == "all" ==> n == |faqs|
    ensures n <= |faqs|
  {
    if id == "all" then |faqs| else |Seqs.Filter(faqs, (f: Faq) => f.category == id)|
  }

  /** A category's count is the number of FAQs its filter shows for an
      empty search. */
  lemma CountMatchesFilter(faqs: seq<Faq>, id: string)
    ensures CategoryCount(faqs, id) == |FilterFaqs(faqs, "", id)|
  {
    EmptySearchShowsCategory(faqs, id);
    if id != "all" {
      SameFilter(faqs, id);
    }
  }

  lemma {:induction false} SameFilter(faqs: seq<Faq>, id: string)
    requires id != "all"
    ensures Seqs.Filter(faqs, (f: Faq) => f.category == id) == FilterFaqs(faqs, "", id)
  {
    if faqs != [] {
      Text.ContainsEmpty(Text.LowerStr(faqs[0].question));
      SameFilter(faqs[1..], id);
    }
  }

  /** The characters JavaScript's `.` does not match: the four line
      terminators of the ECMAScript grammar. */
  predicate IsLineTerminator(c: char) {
    c == '\n' || c == '\r' || c == '\U{2028}' || c == '\U{2029}'
  }

  /** `s[j..k]` holds no line terminator. */
  predicate NoTerminatorBetween(s: string, j: nat, k: nat)
    requires j <= k <= |s|
  {
    forall m :: j <= m < k ==> !IsLineTerminator(s[m])
  }

  /** The first closing `**` at or after `j`, provided no line terminator
      comes first: `.` in `(.*?)` does not match one. */
  function CloseFrom(s: string, j: nat): (r: Option<nat>)
    decreases |s| - j
    ensures r.Some? ==> j <= r.value && r.value + 2 <= |s| && s[r.value] == '*' && s[r.value + 1] == '*'
    ensures r.Some? ==> forall k :: j <= k < r.value ==> !IsLineTerminator(s[k]) && !(s[k] == '*' && s[k + 1] == '*')
    // no pair closes on the line: no `**` at or after `j` is reached before a line terminator
    ensures r.None? ==> forall k :: j <= k && k + 1 < |s| && NoTerminatorBetween(s, j, k) ==>
                          !(s[k] == '*' && s[k + 1] == '*')
  {
    if j + 2 > |s| then None
    else if s[j] == '*' && s[j + 1] == '*' then Some(j)
    else if IsLineTerminator(s[j]) then None
    else CloseFrom(s, j + 1)
  }

  /** The global replacement of the pattern `\*\*(.*?)\*\*` by
      `<strong>$1</strong>`, from position `i` on: at each position an
      opening `**` with a closing one on the same line is replaced,
      otherwise the character is kept and the scan moves on by one. */
  function Bold(s: string, i: nat): (r: string)
    requires i <= |s|
    decreases |s| - i
    ensures (forall k :: i <= k < |s| ==> s[k] != '*') ==> r == s[i..]
  {
    if i == |s| then ""
    else if i + 2 <= |s| && s[i] == '*' && s[i + 1] == '*' && CloseFrom(s, i + 2).Some? then
      var j := CloseFrom(s, i + 2).value;
      "<strong>" + s[i + 2..j] + "</strong>" + Bold(s, j + 2)
    else
      [s[i]] + Bold(s, i + 1)
  }

  function BoldRewrite(content: string): string { Bold(content, 0) }

  /** The opening `**` at `i` that the rewrite matches. */
  predicate OpensAt(s: string, i: nat) {
    i + 2 <= |s| && s[i] == '*' && s[i + 1] == '*' && CloseFrom(s, i + 2).Some?
  }

  /** Text in which no position opens a match is rendered unchanged. */
  lemma {:induction false} NothingOpensUnchanged(s: string, i: nat)
    requires i <= |s|
    requires forall k :: i <= k < |s| ==> !OpensAt(s, k)
    ensures Bold(s, i) == s[i..]
    decreases |s| - i
  {
    if i < |s| {
      assert !OpensAt(s, i);
      NothingOpensUnchanged(s, i + 1);
      assert s[i..] == [s[i]] + s[i + 1..];
    }
  }

  /** Text without a `**` pair is rendered unchanged. */
  lemma NoMarkupUnchanged(s: string, i: nat)
    requires i <= |s|
    requires forall k :: 0 <= k < |s| - 1 ==> !(s[k] == '*' && s[k + 1] == '*')
    ensures Bold(s, i) == s[i..]
  {
    NothingOpensUnchanged(s, i);
  }

  /** One marked word on its own line becomes one `<strong>` element. */
  lemma MarkedTextBecomesStrong(t: string)
    requires forall k :: 0 <= k < |t| ==> t[k] != '*' && !IsLineTerminator(t[k])
    ensures BoldRewrite("**" + t + "**") == "<strong>" + t + "</strong>"
  {
    var s := "**" + t + "**";
    ClosesAtEnd(s, t, 2);
    assert CloseFrom(s, 2) == Some(|t| + 2);
    assert s[2..|t| + 2] == t;
    assert Bold(s, |t| + 4) == "";
  }

  /** A line terminator inside the markup stops the match, as `.` would:
      the text is rendered unchanged. */
  lemma CarriageReturnStopsBold()
    ensures BoldRewrite("**a\rb**") == "**a\rb**"
  {
    var s := "**a\rb**";
    assert CloseFrom(s, 3) == None;
    assert CloseFrom(s, 2) == None;
    assert forall k :: 0 <= k < |s| ==> !OpensAt(s, k) by {
      forall k | 0 <= k < |s|
        ensures !OpensAt(s, k)
      {
        if k == 0 {
          assert CloseFrom(s, 2) == None;
        } else if k == 5 {
          assert CloseFrom(s, 7) == None;
        } else if k + 1 < |s| {
          assert !(s[k] == '*' && s[k + 1] == '*');
        }
      }
    }
    NothingOpensUnchanged(s, 0);
  }

  lemma {:induction false} ClosesAtEnd(s: string, t: string, j: nat)
    requires s == "**" + t + "**"
    requires forall k :: 0 <= k < |t| ==> t[k] != '*' && !IsLineTerminator(t[k])
    requires 2 <= j <= |t| + 2
    ensures CloseFrom(s, j) == Some(|t| + 2)
    decreases |t| + 2 - j
  {
    if j < |t| + 2 {
      assert s[j] == t[j - 2];
      ClosesAtEnd(s, t, j + 1);
    }
  }
}

=== FILE: helpers.dfy ===
/** The pure helpers of `src/lib/helpers.ts`: text truncation, the email
    and phone patterns, the discount percentage, initials and casing, the
    product-form validation, and pagination. */
module Helpers {
  import opened Wrappers
  import Seqs
  import Text

  // ---------------------------------------------------------------------
  // truncateText

  /** `s.slice(0, end)`, cut in UTF-16 code units: a negative end counts
      from the back, and the cut is clamped to the string. */
  function SliceTo(s: string, end: int): (r: string)
    ensures r <= s
    ensures 0 <= end <= Text.Utf16Length(s) ==> end - 1 <= Text.Utf16Length(r) <= end
    ensures end >= Text.Utf16Length(s) ==> r == s
    ensures end < 0 ==>
              var e := Text.Utf16Length(s) + end;
              (e <= 0 ==> r == []) && (e > 0 ==> e - 1 <= Text.Utf16Length(r) <= e)
  {
    var n := Text.Utf16Length(s);
    var e := if end < 0 then (if n + end < 0 then 0 else n + end) else if end > n then n else end;
    Text.Utf16Prefix(s, e)
  }

  /** The ellipsis adds three code units after the kept text. */
  lemma AppendEllipsis(kept: string)
    ensures var r := kept + "...";
            && r[|r| - 3..] == "..." && r[..|r| - 3] == kept
            && Text.Utf16Length(r) == Text.Utf16Length(kept) + 3
  {
    Text.Utf16LengthAppend(kept, "...");
    assert "..."[1..] == ".." && ".."[1..] == "." && "."[1..] == "";
    assert (kept + "...")[..|kept|] == kept;
  }

  /** `truncateText(text, maxLength)`, with JavaScript's `length` and `slice`
      counting UTF-16 code units. */
  function TruncateText(text: string, maxLength: int): (r: string)
    ensures Text.Utf16Length(text) <= maxLength ==> r == text
    ensures Text.Utf16Length(text) > maxLength ==> |r| >= 3 && r[|r| - 3..] == "..." && r[..|r| - 3] <= text
    // the intended case: the result is `maxLength` code units long, one
    // fewer where the cut would split a surrogate pair
    ensures Text.Utf16Length(text) > maxLength >= 3 ==>
              && r == Text.Utf16Prefix(text, maxLength - 3) + "..."
              && maxLength - 1 <= Text.Utf16Length(r) <= maxLength
    // on text without characters above U+FFFF, the first `maxLength - 3`
    // characters and "..."
    ensures (forall k :: 0 <= k < |text| ==> !Text.Astral(text[k])) && Text.Utf16Length(text) > maxLength >= 3 ==>
              r == text[..maxLength - 3] + "..."
  {
    if Text.Utf16Length(text) <= maxLength then text
    else
      var kept := SliceTo(text, maxLength - 3);
      AppendEllipsis(kept);
      if maxLength >= 3 && forall k :: 0 <= k < |text| ==> !Text.Astral(text[k]) then
        Text.Utf16PrefixOfPlainText(text, maxLength - 3);
        kept + "..."
      else kept + "..."
  }

  /** `truncateText("\u{1F600}\u{1F600}", 3)` is "...": two emoji are four
      code units, over the limit, and no code unit is kept before the
      ellipsis. */
  lemma EmojiPairIsTruncated()
    ensures TruncateText("\U{1F600}\U{1F600}", 3) == "..."
  {
    Text.EmojiCountTwice();
    Text.Utf16LengthAppend("\U{1F600}", "\U{1F600}");
    assert "\U{1F600}\U{1F600}" == "\U{1F600}" + "\U{1F600}";
  }

  /** Below a limit of 3 the negative slice end counts from the back, so a
      long text comes back longer than the limit: `truncateText("abcdef", 2)`
      is "abcde...". */
  lemma SmallLimitOverflows(text: string, maxLength: int)
    requires 0 <= maxLength < 3 && Text.Utf16Length(text) > maxLength + 1
    ensures Text.Utf16Length(TruncateText(text, maxLength)) > maxLength
  {
    AppendEllipsis(SliceTo(text, maxLength - 3));
  }

  // ---------------------------------------------------------------------
  // isValidEmail: /^[^\s@]+@[^\s@]+\.[^\s@]+$/

  /** `[^\s@]`. */
  predicate Plain(c: char) {
    c != '@' && !Text.IsSpace(c)
  }

  /** `s` matches the email pattern with its "@" at `i` and the chosen "." at
      `j`: non-empty text before the "@", between it and the ".", and after
      the "."; no white space and no other "@" anywhere. */
  predicate EmailSplit(s: string, i: int, j: int) {
    && 0 < i && i + 1 < j && j + 1 < |s|
    && s[i] == '@' && s[j] == '.'
    && forall k :: 0 <= k < |s| && k != i ==> Plain(s[k])
  }

  /** `isValidEmail(email)`: finds the first "@" and then a "." with text on
      both sides after it. */
  function IsValidEmail(s: string): (r: bool)
    ensures r <==> exists i, j :: EmailSplit(s, i, j)
  {
    match Seqs.FindFirst(s, (c: char) => c == '@')
    case None =>
      assert forall i, j :: !EmailSplit(s, i, j);
      false
    case Some(i) =>
      // the first "@" is the only one a match can use
      forall i', j | EmailSplit(s, i', j)
        ensures i' == i
      {
        assert s[i'] == '@';
      }
      if 0 < i && i + 2 < |s| && (forall k :: 0 <= k < |s| && k != i ==> Plain(s[k])) then
        var domain := s[i + 2..|s| - 1];
        var found := Seqs.Exists(domain, (c: char) => c == '.');
        assert found ==> exists j :: EmailSplit(s, i, j) by {
          if found {
            var k :| 0 <= k < |domain| && domain[k] == '.';
            assert EmailSplit(s, i, i + 2 + k);
          }
        }
        forall i', j | EmailSplit(s, i', j)
          ensures found
        {
          assert domain[j - i - 2] == '.';
        }
        found
      else false
  }

  /** An address carries exactly one "@", so its local part and domain are
      determined. */
  lemma ValidEmailHasOneAt(s: string, i: int, j: int, i': int)
    requires EmailSplit(s, i, j)
    requires 0 <= i' < |s| && s[i'] == '@'
    ensures i' == i && IsValidEmail(s)
  {
  }

  // ---------------------------------------------------------------------
  // isValidPhone: /^(\+234|234|0)[789]\d{9}$/

  const PHONE_PREFIXES: seq<string> := ["+234", "234", "0"]

  /** `[789]\d{9}`: a Nigerian mobile number after its country or trunk
      prefix. */
  predicate MobileRest(r: string) {
    |r| == 10 && (r[0] == '7' || r[0] == '8' || r[0] == '9') && forall k :: 1 <= k < 10 ==> Text.IsDigit(r[k])
  }

  /** `isValidPhone(phone)`. */
  function IsValidPhone(s: string): (r: bool)
    ensures r <==> exists p :: 0 <= p < |PHONE_PREFIXES| && Text.StartsWith(s, PHONE_PREFIXES[p])
                                && MobileRest(s[|PHONE_PREFIXES[p]|..])
  {
    if Text.StartsWith(s, "+234") then
      assert Text.StartsWith(s, PHONE_PREFIXES[0]);
      assert !Text.StartsWith(s, PHONE_PREFIXES[1]) && !Text.StartsWith(s, PHONE_PREFIXES[2]) by {
        assert s[0] == '+';
      }
      MobileRest(s[4..])
    else if Text.StartsWith(s, "234") then
      assert Text.StartsWith(s, PHONE_PREFIXES[1]);
      assert !Text.StartsWith(s, PHONE_PREFIXES[2]) by {
        assert s[0] == '2';
      }
      MobileRest(s[3..])
    else if Text.StartsWith(s, "0") then
      assert Text.StartsWith(s, PHONE_PREFIXES[2]);
      MobileRest(s[1..])
    else false
  }

  /** The three prefixes are interchangeable: a number is valid behind one
      exactly when it is valid behind the others, and the full number is
      then 11, 13 or 14 characters long. */
  lemma PhonePrefixesAgree(rest: string)
    ensures IsValidPhone("0" + rest) == IsValidPhone("234" + rest) == IsValidPhone("+234" + rest) == MobileRest(rest)
    ensures MobileRest(rest) ==> |"0" + rest| == 11 && |"234" + rest| == 13 && |"+234" + rest| == 14
  {
    assert ("0" + rest)[0] == '0' && ("234" + rest)[0] == '2' && ("+234" + rest)[0] == '+';
    assert ("0" + rest)[1..] == rest;
    assert ("234" + rest)[3..] == rest;
    assert ("+234" + rest)[4..] == rest;
    assert Text.StartsWith("0" + rest, "0");
    assert Text.StartsWith("234" + rest, "234");
    assert Text.StartsWith("+234" + rest, "+234");
  }

  // ---------------------------------------------------------------------
  // calculateDiscount

  /** `Math.round(x)`: halves round up. */
  function Round(x: real): (n: int)
    ensures n as real - 0.5 <= x < n as real + 0.5
  {
    (x + 0.5).Floor
  }

  /** `calculateDiscount(originalPrice, discountedPrice)`: the saving as a
      whole percentage of the original price, 0 for a non-positive
      original. */
  function CalculateDiscount(originalPrice: int, discountedPrice: int): (r: int)
    ensures originalPrice <= 0 ==> r == 0
    ensures originalPrice > 0 ==>
              var exact := (originalPrice - discountedPrice) as real / originalPrice as real * 100.0;
              r as real - 0.5 <= exact < r as real + 0.5
  {
    if originalPrice <= 0 then 0
    else Round((originalPrice - discountedPrice) as real / originalPrice as real * 100.0)
  }

  /** A discounted price between 0 and the original gives a percentage
      between 0 and 100: 100 for a free item, 0 for no saving. */
  lemma {:induction false} DiscountWithinPercent(originalPrice: int, discountedPrice: int)
    requires 0 <= discountedPrice <= originalPrice && originalPrice > 0
    ensures 0 <= CalculateDiscount(originalPrice, discountedPrice) <= 100
    ensures discountedPrice == 0 ==> CalculateDiscount(originalPrice, discountedPrice) == 100
    ensures discountedPrice == originalPrice ==> CalculateDiscount(originalPrice, discountedPrice) == 0
  {
    var o := originalPrice as real;
    var x := (originalPrice - discountedPrice) as real / o * 100.0;
    assert (originalPrice - discountedPrice) as real <= o;
    assert (originalPrice - discountedPrice) as real / o <= 1.0;
    assert 0.0 <= x <= 100.0;
    if discountedPrice == 0 {
      assert x == 100.0;
    }
  }

  /** A lower discounted price never shows a smaller percentage. */
  lemma DiscountIsAntitone(originalPrice: int, lower: int, higher: int)
    requires originalPrice > 0 && lower <= higher
    ensures CalculateDiscount(originalPrice, lower) >= CalculateDiscount(originalPrice, higher)
  {
    var o := originalPrice as real;
    assert (originalPrice - lower) as real / o >= (originalPrice - higher) as real / o;
  }

  // ---------------------------------------------------------------------
  // getInitials, capitalize, toTitleCase

  predicate NonEmpty(w: string) { w != "" }

  /** `words.map(w => w.charAt(0)).join('')`: the first character of each
      non-empty word (`charAt(0)` of "" is ""). */
  function FirstChars(words: seq<string>): (r: string)
    ensures |r| <= |words|
    ensures |r| == |Seqs.Filter(words, NonEmpty)|
    ensures forall k :: 0 <= k < |r| ==> r[k] == Seqs.Filter(words, NonEmpty)[k][0]
  {
    var kept := Seqs.Filter(words, NonEmpty);
    seq(|kept|, k requires 0 <= k < |kept| => kept[k][0])
  }

  /** `getInitials(name)`. */
  function GetInitials(name: string): (r: string)
    ensures name == "" ==> r == "U"
    ensures |r| <= 2
    ensures forall k :: 0 <= k < |r| ==> Text.Upper(r[k]) == r[k]
    // the upper-cased first letters of the first two non-empty words
    ensures name != "" ==>
              var words := Seqs.Filter(Text.Split(name, ' '), NonEmpty);
              && |r| == (if |words| < 2 then |words| else 2)
              && forall k :: 0 <= k < |r| ==> r[k] == Text.Upper(words[k][0])
  {
    if name == "" then "U"
    else
      var all := Text.UpperStr(FirstChars(Text.Split(name, ' ')));
      all[..if |all| < 2 then |all| else 2]
  }

  /** A first and a last name give their two capitalised initials. */
  lemma InitialsOfTwoNames(first: string, last: string)
    requires first != "" && last != "" && ' ' !in first && ' ' !in last
    ensures GetInitials(first + " " + last) == [Text.Upper(first[0]), Text.Upper(last[0])]
  {
    assert Text.Join([first, last], ' ') == first + " " + last;
    Text.SplitJoin([first, last], ' ');
    assert [first, last][1..] == [last] && [last][1..] == [];
    assert Seqs.Filter([first, last], NonEmpty) == [first, last];
  }

  /** `capitalize(text)`: first character upper case, the rest lower case. */
  function Capitalize(text: string): (r: string)
    ensures |r| == |text|
    ensures |text| > 0 ==> r[0] == Text.Upper(text[0])
    ensures forall k :: 1 <= k < |text| ==> r[k] == Text.Lower(text[k])
  {
    if text == "" then "" else [Text.Upper(text[0])] + Text.LowerStr(text[1..])
  }

  /** Capitalising twice is capitalising once. */
  lemma CapitalizeIdempotent(text: string)
    ensures Capitalize(Capitalize(text)) == Capitalize(text)
  {
  }

  /** `[-_\s]`. */
  predicate IsWordBreak(c: char) {
    c == '-' || c == '_' || Text.IsSpace(c)
  }

  /** `text.split(/[-_\s]+/)`: the pieces between maximal runs of word
      breaks; a leading or trailing run yields an empty piece. */
  function SplitWords(s: string): (r: seq<string>)
    ensures |r| >= 1
    ensures forall i, k :: 0 <= i < |r| && 0 <= k < |r[i]| ==> !IsWordBreak(r[i][k])
    decreases |s|
  {
    match Seqs.FindFirst(s, IsWordBreak)
    case None => [s]
    case Some(i) => [s[..i]] + SplitWords(SkipBreaks(s[i..]))
  }

  /** Drops the run of word breaks at the front. */
  function SkipBreaks(s: string): (r: string)
    ensures |r| <= |s|
    ensures |s| > 0 && IsWordBreak(s[0]) ==> |r| < |s|
    ensures r == s[|s| - |r|..]
  {
    if |s| > 0 && IsWordBreak(s[0]) then SkipBreaks(s[1..]) else s
  }

  function CapitalizeAll(words: seq<string>): (r: seq<string>)
    ensures |r| == |words|
    ensures forall i :: 0 <= i < |words| ==> r[i] == Capitalize(words[i])
  {
    seq(|words|, i requires 0 <= i < |words| => Capitalize(words[i]))
  }

  /** `toTitleCase(text)`. */
  function ToTitleCase(text: string): (r: string)
    ensures text == "" ==> r == ""
    // hyphens and underscores never survive
    ensures forall k :: 0 <= k < |r| ==> r[k] != '-' && r[k] != '_'
  {
    if text == "" then ""
    else
      var words := CapitalizeAll(SplitWords(text));
      forall i, k | 0 <= i < |words| && 0 <= k < |words[i]|
        ensures words[i][k] != '-' && words[i][k] != '_'
      {
        var w := SplitWords(text)[i];
        assert !IsWordBreak(w[k]);
      }
      Text.JoinChars(words, ' ');
      Text.Join(words, ' ')
  }

  /** A single word is just capitalised. */
  lemma TitleOfOneWord(text: string)
    requires text != "" && forall k :: 0 <= k < |text| ==> !IsWordBreak(text[k])
    ensures ToTitleCase(text) == Capitalize(text)
  {
  }

  // ---------------------------------------------------------------------
  // validateProductForm

  datatype ProductForm = ProductForm(
    name: string,
    description: string,
    basePrice: int,
    categoryId: string,
    stock: int,
    unit: string,
    inStock: bool)

  datatype Validation = Validation(isValid: bool, errors: map<string, string>)

  /** The `errors` object `validateProductForm` fills: one message per
      offending field. The length rule measures the untrimmed name in UTF-16
      code units. */
  function FormErrors(form: ProductForm): (errors: map<string, string>)
    ensures "name" in errors <==> Text.Trim(form.name) == "" || Text.Utf16Length(form.name) < 2
    ensures "categoryId" in errors <==> form.categoryId == ""
    ensures "basePrice" in errors <==> form.basePrice < 0
    ensures "stock" in errors <==> form.stock < 0
    ensures "unit" in errors <==> Text.Trim(form.unit) == ""
    ensures errors.Keys <= {"name", "categoryId", "basePrice", "stock", "unit"}
    ensures "name" in errors ==>
              errors["name"] == (if Text.Trim(form.name) == "" then "Product name is required"
                                 else "Product name must be at least 2 characters")
  {
    var e0: map<string, string> := map[];
    var e1 := if Text.Trim(form.name) == "" then e0["name" := "Product name is required"]
              else if Text.Utf16Length(form.name) < 2 then e0["name" := "Product name must be at least 2 characters"]
              else e0;
    var e2 := if form.categoryId == "" then e1["categoryId" := "Category is required"] else e1;
    var e3 := if form.basePrice < 0 then e2["basePrice" := "Price cannot be negative"] else e2;
    var e4 := if form.stock < 0 then e3["stock" := "Stock cannot be negative"] else e3;
    if Text.Trim(form.unit) == "" then e4["unit" := "Unit is required"] else e4
  }

  /** `validateProductForm(form)`: valid exactly when no field drew a
      message. */
  function ValidateProductForm(form: ProductForm): (v: Validation)
    ensures v.isValid <==> v.errors == map[]
    ensures "name" in v.errors <==> Text.Trim(form.name) == "" || Text.Utf16Length(form.name) < 2
    ensures "categoryId" in v.errors <==> form.categoryId == ""
    ensures "basePrice" in v.errors <==> form.basePrice < 0
    ensures "stock" in v.errors <==> form.stock < 0
    ensures "unit" in v.errors <==> Text.Trim(form.unit) == ""
    ensures v.errors.Keys <= {"name", "categoryId", "basePrice", "stock", "unit"}
    ensures "name" in v.errors ==>
              v.errors["name"] == (if Text.Trim(form.name) == "" then "Product name is required"
                                   else "Product name must be at least 2 characters")
  {
    var errors := FormErrors(form);
    Validation(|errors| == 0, errors)
  }

  /** The form is valid exactly when every field rule holds. A name of
      white space is refused even when long enough, while a one-letter name
      padded with a space passes. */
  lemma ValidIffRulesHold(form: ProductForm)
    ensures ValidateProductForm(form).isValid <==>
              && Text.Trim(form.name) != "" && Text.Utf16Length(form.name) >= 2
              && form.categoryId != "" && form.basePrice >= 0 && form.stock >= 0
              && Text.Trim(form.unit) != ""
  {
  }

  /** One emoji is two code units, so it passes the two-character rule. */
  lemma EmojiNameIsLongEnough(form: ProductForm)
    requires form.name == "\U{1F600}"
    ensures "name" !in ValidateProductForm(form).errors
  {
    Text.EmojiCountTwice();
    Text.TrimOfNonBlank(form.name);
  }

  // ---------------------------------------------------------------------
  // getPaginationInfo

  datatype Pagination = Pagination(totalPages: int, hasNextPage: bool, hasPrevPage: bool, startItem: int, endItem: int)

  /** `Math.ceil(a / b)` for a positive `b`. */
  function CeilDiv(a: int, b: int): (r: int)
    requires b > 0
    ensures (r - 1) * b < a <= r * b
  {
    -((-a) / b)
  }

  /** `getPaginationInfo(currentPage, totalItems, pageSize)`. */
  function GetPaginationInfo(currentPage: int, totalItems: int, pageSize: int): (p: Pagination)
    requires pageSize > 0
    ensures (p.totalPages - 1) * pageSize < totalItems <= p.totalPages * pageSize
    ensures p.hasNextPage <==> currentPage < p.totalPages
    ensures p.hasPrevPage <==> currentPage > 1
    ensures p.startItem == (currentPage - 1) * pageSize + 1
    ensures p.endItem <= currentPage * pageSize && p.endItem <= totalItems
    ensures p.endItem == currentPage * pageSize || p.endItem == totalItems
  {
    var totalPages := CeilDiv(totalItems, pageSize);
    Pagination(totalPages, currentPage < totalPages, currentPage > 1,
               (currentPage - 1) * pageSize + 1,
               if currentPage * pageSize < totalItems then currentPage * pageSize else totalItems)
  }

  /** On every existing page the item range is non-empty and at most a page
      long; only the last page may be short, and it ends at the last item. */
  lemma PageRangeIsSound(currentPage: int, totalItems: int, pageSize: int)
    requires pageSize > 0
    requires 1 <= currentPage <= GetPaginationInfo(currentPage, totalItems, pageSize).totalPages
    ensures var p := GetPaginationInfo(currentPage, totalItems, pageSize);
            && 1 <= p.startItem <= p.endItem <= totalItems
            && p.endItem - p.startItem + 1 <= pageSize
            && (p.hasNextPage ==> p.endItem - p.startItem + 1 == pageSize)
            && (!p.hasNextPage ==> p.endItem == totalItems)
  {
    var t := GetPaginationInfo(currentPage, totalItems, pageSize).totalPages;
    var c, k := currentPage, pageSize;
    assert (c - 1) * k == c * k - k;
    assert (t - 1) * k == t * k - k;
    if c < t {
      ScaleMonotone(c, t - 1, k);
    } else {
      assert c == t;
    }
  }

  lemma ScaleMonotone(a: int, b: int, k: int)
    requires a <= b && k > 0
    ensures a * k <= b * k
  {
    assert b * k - a * k == (b - a) * k;
  }
}

=== FILE: keyed_cart.dfy ===
/** The persisted cart store of `src/lib/store/cart-store.ts`: lines keyed by
    product and variation, quantities capped by the stock a line was added
    with, and totals cached next to the lines. Prices are whole naira. */
module KeyedCart {
  import opened Wrappers
  import Seqs

  datatype VariationRef = VariationRef(id: string, name: string, kind: string)

  datatype Line = Line(
    id: string,
    productId: string,
    name: string,
    price: int,
    image: string,
    quantity: int,
    maxQuantity: int,
    variation: Option<VariationRef>)

  datatype Cart = Cart(items: seq<Line>, totalItems: int, totalPrice: int)

  function Quantity(l: Line): int { l.quantity }

  function LineTotal(l: Line): int { l.price * l.quantity }

  /** The cached totals agree with the lines. */
  predicate Consistent(c: Cart) {
    c.totalItems == Seqs.Sum(c.items, Quantity) && c.totalPrice == Seqs.Sum(c.items, LineTotal)
  }

  /** The cart holding `items`, with its totals recomputed as every action
      does before it stores the new list. */
  function WithTotals(items: seq<Line>): (c: Cart)
    ensures Consistent(c) && c.items == items
  {
    Cart(items, Seqs.Sum(items, Quantity), Seqs.Sum(items, LineTotal))
  }

  const Empty: Cart := Cart([], 0, 0)

  /** The identity `addItem` merges on: `productId-variationId`, or the bare
      product id for a line without variation. */
  function Key(productId: string, variation: Option<VariationRef>): string {
    match variation
    case Some(v) => productId + "-" + v.id
    case None => productId
  }

  function KeyOf(l: Line): string { Key(l.productId, l.variation) }

  function Min(a: int, b: int): (m: int)
    ensures m <= a && m <= b && (m == a || m == b)
  {
    if a <= b then a else b
  }

  /** `addItem(item)`: `item` is the new line (its `quantity` field is
      ignored) and `quantity` the optional quantity passed with it. A line
      with the same key absorbs the quantity up to its stock; otherwise the
      line is appended with the quantity as given, without a cap. */
  function AddItem(c: Cart, item: Line, quantity: Option<int>): (r: Cart)
    ensures Consistent(r)
    ensures Seqs.FindFirst(c.items, (l: Line) => KeyOf(l) == KeyOf(item)).Some? ==>
              var k := Seqs.FindFirst(c.items, (l: Line) => KeyOf(l) == KeyOf(item)).value;
              var q := Min(c.items[k].quantity + OrOne(quantity), c.items[k].maxQuantity);
              && r.items == c.items[k := c.items[k].(quantity := q)]
              && (Consistent(c) ==> r.totalItems == c.totalItems - c.items[k].quantity + q)
    ensures Seqs.FindFirst(c.items, (l: Line) => KeyOf(l) == KeyOf(item)).None? ==>
              && r.items == c.items + [item.(quantity := OrOne(quantity))]
              && (Consistent(c) ==>
                    r.totalItems == c.totalItems + OrOne(quantity)
                    && r.totalPrice == c.totalPrice + item.price * OrOne(quantity))
  {
    var q := OrOne(quantity);
    match Seqs.FindFirst(c.items, (l: Line) => KeyOf(l) == KeyOf(item))
    case Some(k) =>
      var existing := c.items[k];
      var items := c.items[k := existing.(quantity := Min(existing.quantity + q, existing.maxQuantity))];
      Seqs.SumUpdate(c.items, k, items[k], Quantity);
      WithTotals(items)
    case None =>
      var added := item.(quantity := q);
      Seqs.SumAppend(c.items, [added], Quantity);
      Seqs.SumAppend(c.items, [added], LineTotal);
      WithTotals(c.items + [added])
  }

  /** `removeItem(id)`: drops every line with that id, keeping the others in
      their order. */
  function RemoveItem(c: Cart, id: string): (r: Cart)
    ensures Consistent(r)
    ensures r.items == Seqs.Filter(c.items, (l: Line) => l.id != id)
    ensures forall i :: 0 <= i < |r.items| ==> r.items[i].id != id
    ensures forall l :: l in c.items && l.id != id ==> l in r.items
    ensures Consistent(c) ==>
              r.totalItems == c.totalItems - Seqs.Sum(Seqs.Filter(c.items, (l: Line) => l.id == id), Quantity)
  {
    var kept := Seqs.Filter(c.items, (l: Line) => l.id != id);
    Seqs.SumFilterComplement(c.items, (l: Line) => l.id != id, (l: Line) => l.id == id, Quantity);
    WithTotals(kept)
  }

  /** `items.map(l => l.id === id ? { ...l, quantity: min(q, l.maxQuantity) } : l)`. */
  function SetQuantity(items: seq<Line>, id: string, q: int): (r: seq<Line>)
    ensures |r| == |items|
    ensures forall i :: 0 <= i < |items| && items[i].id == id ==>
              r[i] == items[i].(quantity := Min(q, items[i].maxQuantity))
    ensures forall i :: 0 <= i < |items| && items[i].id != id ==> r[i] == items[i]
  {
    seq(|items|, i requires 0 <= i < |items| =>
      if items[i].id == id then items[i].(quantity := Min(q, items[i].maxQuantity)) else items[i])
  }

  /** `updateQuantity(id, q)`: a quantity of zero or less removes the line;
      any other is capped by the line's stock. */
  function UpdateQuantity(c: Cart, id: string, q: int): (r: Cart)
    ensures Consistent(r)
    ensures q <= 0 ==> r == RemoveItem(c, id)
    ensures q > 0 ==> r.items == SetQuantity(c.items, id, q)
  {
    if q <= 0 then RemoveItem(c, id) else WithTotals(SetQuantity(c.items, id, q))
  }

  function ClearCart(c: Cart): (r: Cart)
    ensures Consistent(r) && r.items == [] && r.totalItems == 0 && r.totalPrice == 0
  {
    Empty
  }

  /** The lines `getItemQuantity` and `isInCart` look for: with a variation
      id, that variation of the product; without one (or with "", which is
      falsy), the product's line that has no variation. */
  predicate Matches(l: Line, productId: string, variationId: Option<string>) {
    if variationId.Some? && variationId.value != "" then
      l.productId == productId && l.variation.Some? && l.variation.value.id == variationId.value
    else
      l.productId == productId && l.variation.None?
  }

  function IsInCart(c: Cart, productId: string, variationId: Option<string>): (r: bool)
    ensures r <==> exists i :: 0 <= i < |c.items| && Matches(c.items[i], productId, variationId)
  {
    Seqs.Exists(c.items, (l: Line) => Matches(l, productId, variationId))
  }

  /** `item?.quantity || 0`: the quantity of the first matching line, or 0. */
  function GetItemQuantity(c: Cart, productId: string, variationId: Option<string>): (r: int)
    ensures !IsInCart(c, productId, variationId) ==> r == 0
    ensures IsInCart(c, productId, variationId) ==>
              exists i :: 0 <= i < |c.items| && Matches(c.items[i], productId, variationId) && r == c.items[i].quantity
    // and that line is the first that matches
    ensures forall i :: 0 <= i < |c.items| && Matches(c.items[i], productId, variationId)
                        && (forall j :: 0 <= j < i ==> !Matches(c.items[j], productId, variationId)) ==>
              r == c.items[i].quantity
  {
    match Seqs.FindFirst(c.items, (l: Line) => Matches(l, productId, variationId))
    case None => 0
    case Some(i) => c.items[i].quantity
  }

  /** A line's merge key is what `isInCart` searches by, provided product
      ids contain no "-": after `addItem` the item is in the cart. */
  lemma {:induction false} AddedItemIsInCart(c: Cart, item: Line, quantity: Option<int>)
    requires forall i :: 0 <= i < |c.items| ==> '-' !in c.items[i].productId
    requires '-' !in item.productId
    requires item.variation.Some? ==> item.variation.value.id != ""
    ensures IsInCart(AddItem(c, item, quantity), item.productId,
                     if item.variation.Some? then Some(item.variation.value.id) else None)
  {
    var r := AddItem(c, item, quantity);
    var v := if item.variation.Some? then Some(item.variation.value.id) else None;
    match Seqs.FindFirst(c.items, (l: Line) => KeyOf(l) == KeyOf(item))
    case Some(k) =>
      KeySeparates(c.items[k], item);
      assert Matches(r.items[k], item.productId, v);
    case None =>
      assert Matches(r.items[|c.items|], item.productId, v);
  }

  /** Equal keys mean the same product and the same variation choice when
      product ids contain no "-". */
  lemma KeySeparates(a: Line, b: Line)
    requires '-' !in a.productId && '-' !in b.productId
    requires KeyOf(a) == KeyOf(b)
    ensures a.productId == b.productId
    ensures a.variation.Some? <==> b.variation.Some?
    ensures a.variation.Some? ==> a.variation.value.id == b.variation.value.id
  {
    if a.variation.Some? && b.variation.Some? {
      var s := KeyOf(a);
      assert s[..|a.productId|] == a.productId && s[|a.productId|] == '-';
      assert s[..|b.productId|] == b.productId && s[|b.productId|] == '-';
      PrefixBeforeDash(a.productId, b.productId, s);
      assert s[|a.productId| + 1..] == a.variation.value.id;
      assert KeyOf(b)[|b.productId| + 1..] == b.variation.value.id;
    }
  }

  /** Two dash-free prefixes that are each followed by "-" in the same
      string are equal. */
  lemma PrefixBeforeDash(p: string, q: string, s: string)
    requires '-' !in p && '-' !in q
    requires |p| < |s| && |q| < |s| && s[..|p|] == p && s[..|q|] == q && s[|p|] == '-' && s[|q|] == '-'
    ensures p == q
  {
  }

  /** Merging respects the stock cap but the first insert does not: a new
      line keeps a quantity above its `maxQuantity`, while a merged line
      never exceeds the cap. */
  lemma CapAppliesOnlyOnMerge(c: Cart, item: Line, quantity: Option<int>)
    ensures Seqs.FindFirst(c.items, (l: Line) => KeyOf(l) == KeyOf(item)).None? ==>
              AddItem(c, item, quantity).items[|c.items|].quantity == OrOne(quantity)
    ensures Seqs.FindFirst(c.items, (l: Line) => KeyOf(l) == KeyOf(item)).Some? ==>
              var k := Seqs.FindFirst(c.items, (l: Line) => KeyOf(l) == KeyOf(item)).value;
              AddItem(c, item, quantity).items[k].quantity <= c.items[k].maxQuantity
  {
  }

  /** A cart whose lines respect their caps keeps respecting them under
      `updateQuantity`, whatever the requested quantity. */
  lemma UpdateKeepsCaps(c: Cart, id: string, q: int)
    requires forall i :: 0 <= i < |c.items| ==> c.items[i].quantity <= c.items[i].maxQuantity
    ensures var r := UpdateQuantity(c, id, q);
            forall i :: 0 <= i < |r.items| ==> r.items[i].quantity <= r.items[i].maxQuantity
  {
  }

  /** Setting one line's quantity changes the cached item count by exactly
      that line's change when the id is unique. */
  lemma {:induction false} UpdateQuantityTotals(c: Cart, k: nat, q: int)
    requires Consistent(c) && k < |c.items| && q > 0
    requires forall i :: 0 <= i < |c.items| && i != k ==> c.items[i].id != c.items[k].id
    ensures var r := UpdateQuantity(c, c.items[k].id, q);
            r.totalItems == c.totalItems - c.items[k].quantity + Min(q, c.items[k].maxQuantity)
  {
    var id := c.items[k].id;
    var items := SetQuantity(c.items, id, q);
    assert items == c.items[k := c.items[k].(quantity := Min(q, c.items[k].maxQuantity))];
    Seqs.SumUpdate(c.items, k, items[k], Quantity);
  }
}

=== FILE: marketplace_page.dfy ===
/** The public marketplace page: its category and search filter over the
    built-in product list, the cart line an add-to-cart builds, the cart
    count and the low-stock badge. */
module MarketplacePage {
  import opened Wrappers
  import Seqs
  import Text
  import Catalog
  import SimpleCart

  /** A product of the page's own list; `category` is a category name. */
  datatype Listing = Listing(id: string, name: string, description: string, price: int, category: string,
                             image: string, stock: int, unit: string)

  predicate InCategory(category: string, p: Listing) {
    category == "All" || p.category == category
  }

  predicate MatchesQuery(query: string, p: Listing) {
    query == "" || Text.ContainsIgnoringCase(p.name, query) || Text.ContainsIgnoringCase(p.description, query)
  }

  /** The effect's `filtered`: the category filter unless "All", then the
      search filter when the query is non-empty. */
  function FilterListings(ps: seq<Listing>, category: string, query: string): (r: seq<Listing>)
    ensures forall p :: p in r <==> p in ps && InCategory(category, p) && MatchesQuery(query, p)
    ensures |r| <= |ps|
  {
    var byCategory := if category != "All" then Seqs.Filter(ps, (p: Listing) => p.category == category) else ps;
    if query != "" then
      Seqs.Filter(byCategory, (p: Listing) => Text.ContainsIgnoringCase(p.name, query)
                                              || Text.ContainsIgnoringCase(p.description, query))
    else byCategory
  }

  /** The result is the list itself, in order, without a category or a
      query, and keeps the list's order otherwise (it is a filter of it). */
  lemma {:induction false} FilterListingsIsSubsequence(ps: seq<Listing>, category: string, query: string)
    ensures FilterListings(ps, "All", "") == ps
    ensures FilterListings(ps, category, query)
              == Seqs.Filter(ps, (p: Listing) => InCategory(category, p) && MatchesQuery(query, p))
  {
    FilterOfFilter(ps, category, query);
  }

  lemma {:induction false} FilterOfFilter(ps: seq<Listing>, category: string, query: string)
    ensures FilterListings(ps, category, query)
              == Seqs.Filter(ps, (p: Listing) => InCategory(category, p) && MatchesQuery(query, p))
  {
    if ps != [] {
      FilterOfFilter(ps[1..], category, query);
      var byCat := (p: Listing) => p.category == category;
      var byQuery := (p: Listing) => Text.ContainsIgnoringCase(p.name, query) || Text.ContainsIgnoringCase(p.description, query);
      if category != "All" {
        assert Seqs.Filter(ps, byCat) == (if byCat(ps[0]) then [ps[0]] else []) + Seqs.Filter(ps[1..], byCat);
        if query != "" {
          Seqs.FilterAppend(if byCat(ps[0]) then [ps[0]] else [], Seqs.Filter(ps[1..], byCat), byQuery);
        }
      }
    }
  }

  /** `handleAddToCart(product, quantity = 1)`: the product's id, name,
      price, image and unit. */
  function CartLine(p: Listing, quantity: int): (l: SimpleCart.Line)
    ensures l.id == p.id && l.name == p.name && l.price == p.price && l.image == p.image && l.unit == p.unit
    ensures l.quantity == quantity
  {
    SimpleCart.Line(p.id, p.name, p.price, p.image, quantity, p.unit)
  }

  /** `items.reduce((t, i) => t + i.quantity, 0)`. */
  function CartCount(items: seq<SimpleCart.Line>): (n: int)
    ensures (forall i :: 0 <= i < |items| ==> items[i].quantity >= 0) ==> n >= 0
  {
    var n := SimpleCart.TotalItems(items);
    if forall i :: 0 <= i < |items| ==> items[i].quantity >= 0 then
      Seqs.SumOfNonNegative(items, SimpleCart.Quantity);
      n
    else n
  }

  /** A default add-to-cart raises the cart count by one, whether the
      product was already in the cart or not. */
  lemma AddRaisesCountByOne(items: seq<SimpleCart.Line>, p: Listing)
    requires SimpleCart.UniqueIds(items)
    ensures CartCount(SimpleCart.AddItem(items, CartLine(p, 1), Some(1))) == CartCount(items) + 1
  {
    SimpleCart.AddItemTotals(items, CartLine(p, 1), Some(1));
  }

  /** The "Low Stock" badge. */
  function LowStockBadge(p: Listing): (shown: bool)
    ensures shown <==> p.stock < Catalog.LOW_STOCK
  {
    p.stock < 10
  }
}

=== FILE: marketplace_tab.dfy ===
/** The dashboard's marketplace tab: per-product quantity and variation
    choices, the search over the category-filtered list, the product
    dropdown, and the add-to-cart button. The two choice objects are maps
    from product id; a missing key reads as `undefined`. */
module MarketplaceTab {
  import opened Wrappers
  import Seqs
  import Text
  import opened Catalog

  /** `quantities[id] || 0`: an absent entry shows 0. */
  function QuantityOf(quantities: map<string, int>, id: string): (n: int)
    ensures id !in quantities ==> n == 0
    ensures id in quantities ==> n == quantities[id]
  {
    if id in quantities then quantities[id] else 0
  }

  /** `handleQuantityChange(id, q)`: stores `max(0, q)` under the id. */
  function ChangeQuantity(quantities: map<string, int>, id: string, q: int): (r: map<string, int>)
    ensures id in r && r[id] >= 0
    ensures r[id] == if q < 0 then 0 else q
    ensures forall k :: k != id ==> (k in r <==> k in quantities)
    ensures forall k :: k != id && k in quantities ==> r[k] == quantities[k]
  {
    quantities[id := if 0 < q then q else 0]
  }

  /** No stored quantity is negative. */
  predicate NonNegative(quantities: map<string, int>) {
    forall k :: k in quantities ==> quantities[k] >= 0
  }

  /** Any sequence of quantity changes keeps every stored quantity
      non-negative. */
  lemma ChangeKeepsNonNegative(quantities: map<string, int>, id: string, q: int)
    requires NonNegative(quantities)
    ensures NonNegative(ChangeQuantity(quantities, id, q))
  {
  }

  /** The minus button at 0 stores 0 again; the plus button adds one. */
  lemma ButtonsStep(quantities: map<string, int>, id: string)
    requires NonNegative(quantities)
    ensures QuantityOf(ChangeQuantity(quantities, id, QuantityOf(quantities, id) + 1), id) == QuantityOf(quantities, id) + 1
    ensures QuantityOf(quantities, id) == 0 ==> QuantityOf(ChangeQuantity(quantities, id, QuantityOf(quantities, id) - 1), id) == 0
  {
  }

  /** `handleVariationChange(id, v)`. */
  function ChangeVariation(selected: map<string, string>, id: string, variationId: string): (r: map<string, string>)
    ensures id in r && r[id] == variationId
    ensures forall k :: k != id ==> (k in r <==> k in selected)
    ensures forall k :: k != id && k in selected ==> r[k] == selected[k]
  {
    selected[id := variationId]
  }

  /** The search matches the name, the description or the category name,
      ignoring case. */
  predicate MatchesSearch(term: string, p: Product) {
    || Text.ContainsIgnoringCase(p.name, term)
    || Text.ContainsIgnoringCase(p.description, term)
    || Text.ContainsIgnoringCase(p.category.name, term)
  }

  /** `searchFilteredProducts`. */
  function SearchProducts(ps: seq<Product>, term: string): (r: seq<Product>)
    ensures forall p :: p in r <==> p in ps && MatchesSearch(term, p)
    ensures |r| <= |ps|
    // the matches keep the list's order and their repetitions
    ensures Seqs.IsFilter(r, ps, (p: Product) => MatchesSearch(term, p))
  {
    var matches := (p: Product) => MatchesSearch(term, p);
    Seqs.FilterIsFilter(ps, matches);
    Seqs.Filter(ps, matches)
  }

  /** An empty search keeps every product, in order. */
  lemma {:induction false} EmptySearchKeepsAll(ps: seq<Product>)
    ensures SearchProducts(ps, "") == ps
  {
    forall i | 0 <= i < |ps|
      ensures MatchesSearch("", ps[i])
    {
      Text.ContainsEmpty(Text.LowerStr(ps[i].name));
    }
    Seqs.FilterKeepsAll(ps, (p: Product) => MatchesSearch("", p));
  }

  /** The product dropdown: every product when the category is "all",
      otherwise those of the selected category. */
  function DropdownProducts(ps: seq<Product>, category: string): (r: seq<Product>)
    ensures forall p :: p in r <==> p in ps && (category == "all" || p.categoryId == category)
    ensures Seqs.IsFilter(r, ps, (p: Product) => category == "all" || p.categoryId == category)
  {
    var inCategory := (p: Product) => category == "all" || p.categoryId == category;
    Seqs.FilterIsFilter(ps, inCategory);
    Seqs.Filter(ps, inCategory)
  }

  /** With a category chosen, the dropdown lists no product of another
      category. */
  lemma DropdownStaysInCategory(ps: seq<Product>, category: string)
    requires category != "all"
    ensures forall i :: 0 <= i < |DropdownProducts(ps, category)| ==> DropdownProducts(ps, category)[i].categoryId == category
  {
  }

  /** The add-to-cart button. */
  function AddEnabled(p: Product, quantities: map<string, int>): (r: bool)
    ensures r <==> p.inStock && QuantityOf(quantities, p.id) > 0
  {
    !(!p.inStock || QuantityOf(quantities, p.id) <= 0)
  }

  /** What the button hands to the page's add-to-cart. */
  datatype AddRequest = AddRequest(product: Product, variation: Option<Variation>, quantity: int)

  /** The variation chosen for `p`, looked up by id among its variations;
      none when nothing (or "") is chosen or the id is unknown. */
  function ChosenVariation(p: Product, selected: map<string, string>): (r: Option<Variation>)
    ensures p.id !in selected || selected[p.id] == "" ==> r.None?
    ensures r.Some? ==> r.value in p.variations && r.value.id == selected[p.id]
    // with an id chosen, the first variation carrying it, if any
    ensures (p.id in selected && selected[p.id] != "") ==>
              (r.None? <==> forall k :: 0 <= k < |p.variations| ==> p.variations[k].id != selected[p.id])
    ensures p.id in selected ==>
              forall k :: 0 <= k < |p.variations| && p.variations[k].id == selected[p.id] != ""
                          && (forall j :: 0 <= j < k ==> p.variations[j].id != selected[p.id]) ==>
                r == Some(p.variations[k])
  {
    if p.id in selected && selected[p.id] != "" then
      match Seqs.FindFirst(p.variations, (v: Variation) => v.id == selected[p.id])
      case None => None
      case Some(k) => Some(p.variations[k])
    else None
  }

  /** The button's click: `quantities[id] || 1` and the chosen variation. */
  function AddToCart(p: Product, quantities: map<string, int>, selected: map<string, string>): (r: AddRequest)
    ensures r.product == p && r.variation == ChosenVariation(p, selected)
    ensures QuantityOf(quantities, p.id) != 0 ==> r.quantity == QuantityOf(quantities, p.id)
    ensures QuantityOf(quantities, p.id) == 0 ==> r.quantity == 1
  {
    var q := QuantityOf(quantities, p.id);
    AddRequest(p, ChosenVariation(p, selected), if q != 0 then q else 1)
  }

  /** The button is disabled at quantity 0, so the default of 1 never
      applies to a click: what is added is what is shown, and it is
      positive. */
  lemma EnabledAddUsesShownQuantity(p: Product, quantities: map<string, int>, selected: map<string, string>)
    requires AddEnabled(p, quantities)
    ensures AddToCart(p, quantities, selected).quantity == QuantityOf(quantities, p.id) > 0
  {
  }
}

=== FILE: orders_api.dfy ===
/** `GET /api/orders` and `PUT /api/orders`: the role-based `where` filter
    of the listing and the admin status update with its notification.

    As elsewhere, a query or body string the request did not carry is "",
    which the handlers treat like an absent value. `emailSent` is the
    outcome of the status-update email, which the handler ignores. */
module OrdersApi {
  import opened Wrappers
  import opened Store
  import Seqs

  /** The `where` object of the listing; an absent field does not filter. */
  datatype OrderWhere = OrderWhere(userId: Option<string>, status: Option<string>)

  /** The `where` object built from the session and the query parameters
      `status` and `userId`. */
  function BuildWhere(session: Session, status: string, userId: string): (w: OrderWhere)
    // a customer is pinned to their own orders, whatever `userId` asks for
    ensures session.role != Admin ==> w.userId == Some(session.userId)
    ensures session.role == Admin ==> (w.userId.Some? <==> userId != "")
    ensures session.role == Admin && userId != "" ==> w.userId == Some(userId)
    ensures w.status.Some? <==> status != ""
    ensures status != "" ==> w.status == Some(status)
  {
    var owner := if session.role != Admin then Some(session.userId)
                 else if userId != "" then Some(userId)
                 else None;
    OrderWhere(owner, if status != "" then Some(status) else None)
  }

  /** An order `findMany` selects for `w`. */
  predicate Selects(w: OrderWhere, o: Order) {
    && (w.userId.Some? ==> o.userId == w.userId.value)
    && (w.status.Some? ==> o.status == w.status.value)
  }

  datatype OrdersBody = OrdersUnauthorized | Orders(orders: seq<Order>)

  /** `GET /api/orders`: the selected orders in table order. Never writes. */
  function ListOrders(db: Db, session: Option<Session>, status: string, userId: string): (r: Reply<OrdersBody>)
    ensures r.db == db
    ensures session.None? <==> r.status == 401
    ensures session.None? ==> r.body == OrdersUnauthorized
    ensures session.Some? ==>
              && r.status == 200 && r.body.Orders?
              && var w := BuildWhere(session.value, status, userId);
              && (forall o :: o in r.body.orders <==> o in db.orders && Selects(w, o))
              && r.body.orders == Seqs.Filter(db.orders, (o: Order) => Selects(w, o))
  {
    if session.None? then Reply(401, OrdersUnauthorized, db)
    else
      var w := BuildWhere(session.value, status, userId);
      Reply(200, Orders(Seqs.Filter(db.orders, (o: Order) => Selects(w, o))), db)
  }

  /** A customer's listing holds exactly their own orders with the requested
      status (any status when none is requested); a `userId` parameter
      pointing at someone else changes nothing. */
  lemma CustomerSeesOnlyOwnOrders(db: Db, session: Session, status: string, userId: string)
    requires session.role == Customer
    ensures var r := ListOrders(db, Some(session), status, userId);
            && r.body.Orders?
            && r.body == ListOrders(db, Some(session), status, "").body
            && forall o :: o in r.body.orders <==>
                 o in db.orders && o.userId == session.userId && (status == "" || o.status == status)
  {
  }

  /** An admin without parameters sees the whole table, in order. */
  lemma {:induction false} AdminSeesAllOrders(db: Db, session: Session)
    requires session.role == Admin
    ensures ListOrders(db, Some(session), "", "").body == Orders(db.orders)
  {
    var w := BuildWhere(session, "", "");
    Seqs.FilterKeepsAll(db.orders, (o: Order) => Selects(w, o));
  }

  /** `prisma.order.update({ where: { id } })` finds the order with that id. */
  function OrderById(orders: seq<Order>, id: string): (r: Option<nat>)
    ensures r.Some? ==> r.value < |orders| && orders[r.value].id == id
    ensures r.None? <==> forall j :: 0 <= j < |orders| ==> orders[j].id != id
  {
    Seqs.FindFirst(orders, (o: Order) => o.id == id)
  }

  datatype UpdateBody = UpdateUnauthorized | MissingFields | UpdateFailed | Updated(order: Order)

  /** `PUT /api/orders`: an admin sets an order's status and the owner gets
      one ORDER notification. `statuses` holds the values of the database's
      order-status enum: a status outside it, like an unknown id, makes the
      update throw (500, nothing written). */
  function UpdateStatus(db: Db, session: Option<Session>, orderId: string, status: string,
                        statuses: set<string>, emailSent: bool): (r: Reply<UpdateBody>)
    ensures session.None? || session.value.role != Admin ==> r == Reply(401, UpdateUnauthorized, db)
    ensures session.Some? && session.value.role == Admin && (orderId == "" || status == "") ==>
              r == Reply(400, MissingFields, db)
    ensures session.Some? && session.value.role == Admin && orderId != "" && status != "" ==>
              (r.status == 500 <==> status !in statuses || OrderById(db.orders, orderId).None?)
    ensures r.status != 200 ==> r.db == db
    ensures r.status in {200, 400, 401, 500}
    ensures r.status == 200 ==>
              && session.Some? && session.value.role == Admin && orderId != "" && status != ""
              && status in statuses && OrderById(db.orders, orderId).Some?
              && var i := OrderById(db.orders, orderId).value;
              && var o := db.orders[i];
              && r.body == Updated(o.(status := status))
              && r.db.orders == db.orders[i := o.(status := status)]
              && r.db.notifications
                   == db.notifications + [Notification(o.userId, "Order Status Updated", OrderNotice, Some(orderId))]
              && r.db.users == db.users && r.db.payments == db.payments
              && r.db.rewards == db.rewards && r.db.walletTransactions == db.walletTransactions
  {
    if session.None? || session.value.role != Admin then Reply(401, UpdateUnauthorized, db)
    else if orderId == "" || status == "" then Reply(400, MissingFields, db)
    else if status !in statuses then Reply(500, UpdateFailed, db)
    else match OrderById(db.orders, orderId)
      case None => Reply(500, UpdateFailed, db)
      case Some(i) =>
        var o := db.orders[i].(status := status);
        Reply(200, Updated(o),
              db.(orders := db.orders[i := o],
                  notifications := db.notifications + [Notification(o.userId, "Order Status Updated", OrderNotice, Some(o.id))]))
  }

  /** The email's outcome never reaches the response or the database. */
  lemma UpdateIgnoresEmailFailure(db: Db, session: Option<Session>, orderId: string, status: string,
                                  statuses: set<string>)
    ensures UpdateStatus(db, session, orderId, status, statuses, false)
            == UpdateStatus(db, session, orderId, status, statuses, true)
  {
  }

  /** After an admin moves an order to a status, its owner finds it when
      listing their orders with that status, and gets exactly one more
      notification. */
  lemma {:induction false} UpdatedOrderIsListedForOwner(db: Db, admin: Session, owner: Session, orderId: string,
                                                        status: string, statuses: set<string>, emailSent: bool)
    requires admin.role == Admin && owner.role == Customer
    requires UpdateStatus(db, Some(admin), orderId, status, statuses, emailSent).status == 200
    requires owner.userId == db.orders[OrderById(db.orders, orderId).value].userId
    ensures var r := UpdateStatus(db, Some(admin), orderId, status, statuses, emailSent);
            var i := OrderById(db.orders, orderId).value;
            && r.body.Updated?
            && r.body.order in ListOrders(r.db, Some(owner), status, "").body.orders
            && |r.db.notifications| == |db.notifications| + 1
  {
    var r := UpdateStatus(db, Some(admin), orderId, status, statuses, emailSent);
    var i := OrderById(db.orders, orderId).value;
    assert r.db.orders[i] == r.body.order;
    assert r.body.order in r.db.orders;
  }
}

=== FILE: orders_tab.dfy ===
/** The dashboard's orders tab: the status filter, the badge colour of a
    status, the short order label and the line totals. */
module OrdersTab {
  import Seqs
  import Text
  import Store
  import Checkout

  /** The badge colours of `getStatusColor`. */
  datatype Colour = Yellow | Blue | Purple | Green | Red | Gray

  const KNOWN_STATUSES: seq<string> := ["pending", "confirmed", "processing", "shipped", "delivered", "cancelled"]

  /** `getStatusColor(status)`: switches on the lower-cased status; anything
      it does not list is gray. */
  function StatusColour(status: string): (c: Colour)
    ensures c == Gray <==> Text.LowerStr(status) !in KNOWN_STATUSES
    ensures c == Yellow <==> Text.LowerStr(status) == "pending"
    ensures c == Blue <==> Text.LowerStr(status) == "confirmed" || Text.LowerStr(status) == "processing"
    ensures c == Purple <==> Text.LowerStr(status) == "shipped"
    ensures c == Green <==> Text.LowerStr(status) == "delivered"
    ensures c == Red <==> Text.LowerStr(status) == "cancelled"
  {
    match Text.LowerStr(status)
    case "pending" => Yellow
    case "confirmed" => Blue
    case "processing" => Blue
    case "shipped" => Purple
    case "delivered" => Green
    case "cancelled" => Red
    case _ => Gray
  }

  /** The colour ignores case: statuses equal up to ASCII case get the same
      badge. The enum values the server stores ("PENDING", …) therefore get
      the colours of their lower-case names. */
  lemma ColourIgnoresCase(a: string, b: string)
    requires Text.LowerStr(a) == Text.LowerStr(b)
    ensures StatusColour(a) == StatusColour(b)
  {
  }

  lemma StoredStatusesHaveColours()
    ensures StatusColour("PENDING") == Yellow && StatusColour("CONFIRMED") == Blue
    ensures StatusColour("SHIPPED") == Purple && StatusColour("DELIVERED") == Green
    ensures StatusColour("CANCELLED") == Red && StatusColour("REFUNDED") == Gray
  {
    assert Text.LowerStr("PENDING") == "pending";
    assert Text.LowerStr("CONFIRMED") == "confirmed";
    assert Text.LowerStr("SHIPPED") == "shipped";
    assert Text.LowerStr("DELIVERED") == "delivered";
    assert Text.LowerStr("CANCELLED") == "cancelled";
    assert Text.LowerStr("REFUNDED") == "refunded";
  }

  /** Whether the tab shows an order under the selected status. */
  predicate Shows(selected: string, o: Store.Order) {
    selected == "all" || Text.LowerStr(o.status) == Text.LowerStr(selected)
  }

  /** `filteredOrders`. */
  function FilterOrders(orders: seq<Store.Order>, selected: string): (r: seq<Store.Order>)
    ensures forall o :: o in r <==> o in orders && (selected == "all" || Text.LowerStr(o.status) == Text.LowerStr(selected))
    ensures |r| <= |orders|
    // every shown order, in the list's order, with its repetitions
    ensures Seqs.IsFilter(r, orders, (o: Store.Order) => selected == "all" || Text.LowerStr(o.status) == Text.LowerStr(selected))
  {
    var shows := (o: Store.Order) => Shows(selected, o);
    Seqs.FilterIsFilter(orders, shows);
    Seqs.Filter(orders, shows)
  }

  /** "all" shows every order in order. */
  lemma {:induction false} AllShowsEveryOrder(orders: seq<Store.Order>)
    ensures FilterOrders(orders, "all") == orders
  {
    Seqs.FilterKeepsAll(orders, (o: Store.Order) => Shows("all", o));
  }

  /** The selection's case does not matter. */
  lemma {:induction false} SelectionIgnoresCase(orders: seq<Store.Order>, a: string, b: string)
    requires a != "all" && b != "all" && Text.LowerStr(a) == Text.LowerStr(b)
    ensures FilterOrders(orders, a) == FilterOrders(orders, b)
  {
    if orders != [] {
      SelectionIgnoresCase(orders[1..], a, b);
    }
  }

  /** `order.id.slice(-8)`: the last eight UTF-16 code units, or the whole
      id when it is no longer. */
  function OrderLabel(id: string): (r: string)
    ensures |r| <= |id| && r == id[|id| - |r|..]
    ensures Text.Utf16Length(id) <= 8 ==> r == id
    ensures Text.Utf16Length(id) >= 8 ==> 7 <= Text.Utf16Length(r) <= 8
    // an id of plain characters shows its last min(8, length) of them
    ensures (forall k :: 0 <= k < |id| ==> !Text.Astral(id[k])) ==>
              |r| == (if |id| < 8 then |id| else 8)
  {
    Text.PlainSuffixLength(id, 8);
    Text.Utf16Suffix(id, 8)
  }

  /** A label depends only on the id's last eight code units: whatever
      precedes them does not change it, and labelling a label changes
      nothing. Two ids that end alike therefore share a label. */
  lemma LabelIsTheTail(prefix: string, id: string)
    requires Text.Utf16Length(id) >= 8
    ensures OrderLabel(prefix + id) == OrderLabel(id)
    ensures OrderLabel(OrderLabel(prefix + id)) == OrderLabel(prefix + id)
  {
    Text.Utf16SuffixOfAppend(prefix, id, 8);
  }

  /** An id of eight emoji is sixteen code units, so its label is the last
      four emoji. */
  lemma EmojiIdShowsFour()
    ensures var e := "\U{1F600}";
            OrderLabel(e + e + e + e + e + e + e + e) == e + e + e + e
  {
    var e := "\U{1F600}";
    var four := e + e + e + e;
    Text.EmojiCountTwice();
    Text.Utf16LengthAppend(e, e);
    Text.Utf16LengthAppend(e + e, e);
    Text.Utf16LengthAppend(e + e + e, e);
    assert Text.Utf16Length(four) == 8;
    assert e + e + e + e + e + e + e + e == four + four;
    Text.Utf16SuffixOfAppend(four, four, 8);
  }

  /** One item as the tab lists it. */
  datatype ItemView = ItemView(name: string, quantity: int, unit: string, price: int)

  /** The amount shown at the right of an item. */
  function ItemTotal(item: ItemView): int { item.quantity * item.price }

  /** The tab shows, for an item the checkout posted, the total that the
      order line carries. */
  lemma ItemTotalIsLineTotal(l: Checkout.OrderLine, name: string, unit: string)
    requires l.totalPrice == l.unitPrice * l.quantity
    ensures ItemTotal(ItemView(name, l.quantity, unit, l.unitPrice)) == l.totalPrice
  {
  }
}

=== FILE: payments.dfy ===
/** Payment reconciliation: `POST /api/payments/initialize`,
    `POST /api/payments/verify` and `POST /api/payments/webhook`.

    Each handler is one state transformer `Db -> Reply`. The gateway, the
    HMAC-SHA512 digest, `JSON.parse` and the reference generator are
    parameters. The handlers do not run in a transaction: when a write
    throws part-way, the reply is 500 and the writes made before it stay. */
module Payments {
  import opened Wrappers
  import opened Store
  import Seqs

  // ---------------------------------------------------------------------
  // Webhook

  /** A parsed webhook envelope: `event.event` and `event.data`. */
  datatype WebhookEvent = WebhookEvent(name: string, data: Transaction)

  datatype WebhookBody = Acknowledged | InvalidSignature | ProcessingFailed

  /** The outcome of an event handler: it finished, or a write threw after
      the writes already made to `db`. */
  datatype Effect = Done(db: Db) | Threw(db: Db)

  /** `prisma.order.findFirst({ where: { transactionId: reference } })`. */
  function OrderByReference(orders: seq<Order>, reference: string): (r: Option<nat>)
    ensures r.Some? ==> r.value < |orders| && orders[r.value].transactionId == Some(reference)
    ensures r.Some? ==> forall j :: 0 <= j < r.value ==> orders[j].transactionId != Some(reference)
    ensures r.None? <==> forall j :: 0 <= j < |orders| ==> orders[j].transactionId != Some(reference)
  {
    Seqs.FindFirst(orders, (o: Order) => o.transactionId == Some(reference))
  }

  /** Loyalty points for an order: one point per full 100 naira
      (`Math.floor(order.finalAmount / 100)`). */
  function PointsFor(finalAmount: int): (r: int)
    ensures r * 100 <= finalAmount < (r + 1) * 100
  {
    finalAmount / 100
  }

  /** The Payment row the webhook creates for a charge event. */
  function WebhookPayment(order: Order, data: Transaction, status: PaymentStatus): Payment {
    Payment(order.id, order.userId, KoboToNaira(data.amountKobo), "NGN", "PAYSTACK", status, data.reference, data)
  }

  /** `prisma.payment.create`: a plain insert, which the unique
      `transactionId` column refuses when the reference is already there. */
  function InsertPayment(db: Db, p: Payment): (r: Effect)
    ensures p.transactionId in db.payments ==> r == Threw(db)
    ensures p.transactionId !in db.payments ==> r == Done(db.(payments := db.payments[p.transactionId := p]))
  {
    if p.transactionId in db.payments then Threw(db)
    else Done(db.(payments := db.payments[p.transactionId := p]))
  }

  /** Credits the buyer's loyalty points and records the Reward; both are
      skipped when the order earns no points. */
  function AwardPoints(db: Db, order: Order): Effect {
    var points := PointsFor(order.finalAmount);
    if points <= 0 then Done(db)
    else match UserById(db.users, order.userId)
      case None => Threw(db)
      case Some(u) =>
        var user := db.users[u];
        Done(db.(users := db.users[u := user.(points := user.points + points)],
                 rewards := db.rewards + [Reward(order.userId, points, Purchase, Some(order.id))]))
  }

  /** `handleSuccessfulPayment`. */
  function HandleSuccess(db: Db, data: Transaction): (r: Effect)
    ensures OrderByReference(db.orders, data.reference).None? ==> r == Done(db)
  {
    match OrderByReference(db.orders, data.reference)
    case None => Done(db)
    case Some(i) =>
      var order := db.orders[i];
      var db1 := db.(orders := db.orders[i := order.(paymentStatus := PaymentCompleted, status := CONFIRMED)]);
      match InsertPayment(db1, WebhookPayment(order, data, PaymentCompleted))
      case Threw(db2) => Threw(db2)
      case Done(db2) =>
        match AwardPoints(db2, order)
        case Threw(db3) => Threw(db3)
        case Done(db3) =>
          Done(db3.(notifications := db3.notifications
                      + [Notification(order.userId, "Payment Successful", PaymentNotice, Some(order.id))]))
  }

  /** `handleFailedPayment`: as the success handler, with FAILED/CANCELLED and
      no points. */
  function HandleFailure(db: Db, data: Transaction): (r: Effect)
    ensures OrderByReference(db.orders, data.reference).None? ==> r == Done(db)
  {
    match OrderByReference(db.orders, data.reference)
    case None => Done(db)
    case Some(i) =>
      var order := db.orders[i];
      var db1 := db.(orders := db.orders[i := order.(paymentStatus := PaymentFailed, status := CANCELLED)]);
      match InsertPayment(db1, WebhookPayment(order, data, PaymentFailed))
      case Threw(db2) => Threw(db2)
      case Done(db2) =>
        Done(db2.(notifications := db2.notifications
                    + [Notification(order.userId, "Payment Failed", PaymentNotice, Some(order.id))]))
  }

  /** `POST /api/payments/webhook`: a signature gate, then dispatch on the
      event name. `hmacHex(secret, body)` stands for the hex HMAC-SHA512
      digest and `parse` for `JSON.parse` (`None` when it throws). */
  function Webhook(db: Db, secret: string, rawBody: string, signature: string,
                   hmacHex: (string, string) -> string,
                   parse: string -> Option<WebhookEvent>): (r: Reply<WebhookBody>)
    // a forged or missing signature is refused and writes nothing
    ensures signature != hmacHex(secret, rawBody) ==> r == Reply(400, InvalidSignature, db)
    // past the gate the reply is 200 or, when a write or the parse threw, 500
    ensures signature == hmacHex(secret, rawBody) ==>
              (r.status == 200 && r.body == Acknowledged) || (r.status == 500 && r.body == ProcessingFailed)
    // an event other than charge.success / charge.failed is acknowledged and ignored
    ensures signature == hmacHex(secret, rawBody) && parse(rawBody).Some?
            && parse(rawBody).value.name != "charge.success" && parse(rawBody).value.name != "charge.failed"
            ==> r == Reply(200, Acknowledged, db)
    // a charge event for an unknown reference is acknowledged and writes nothing
    ensures signature == hmacHex(secret, rawBody) && parse(rawBody).Some?
            && OrderByReference(db.orders, parse(rawBody).value.data.reference).None?
            ==> r == Reply(200, Acknowledged, db)
    // a body that does not parse is a 500 with nothing written
    ensures signature == hmacHex(secret, rawBody) && parse(rawBody).None? ==> r == Reply(500, ProcessingFailed, db)
    // charge.success runs the success handler: its writes stay, and the reply is 200 exactly when it finished
    ensures (signature == hmacHex(secret, rawBody) && parse(rawBody).Some? && parse(rawBody).value.name == "charge.success")
            ==> r.db == HandleSuccess(db, parse(rawBody).value.data).db
                && (r.status == 200 <==> HandleSuccess(db, parse(rawBody).value.data).Done?)
    // charge.failed runs the failure handler in the same way
    ensures (signature == hmacHex(secret, rawBody) && parse(rawBody).Some? && parse(rawBody).value.name == "charge.failed")
            ==> r.db == HandleFailure(db, parse(rawBody).value.data).db
                && (r.status == 200 <==> HandleFailure(db, parse(rawBody).value.data).Done?)
  {
    if signature != hmacHex(secret, rawBody) then Reply(400, InvalidSignature, db)
    else match parse(rawBody)
      case None => Reply(500, ProcessingFailed, db)
      case Some(event) =>
        var effect :=
          if event.name == "charge.success" then HandleSuccess(db, event.data)
          else if event.name == "charge.failed" then HandleFailure(db, event.data)
          else Done(db);
        match effect
        case Done(db') => Reply(200, Acknowledged, db')
        case Threw(db') => Reply(500, ProcessingFailed, db')
  }

  /** A `charge.success` for a known reference that has no Payment yet, and
      whose buyer exists: the order becomes COMPLETED/CONFIRMED, one
      COMPLETED Payment of `amount / 100` naira is added, the buyer gains
      `floor(finalAmount / 100)` points with a Reward exactly when that is
      positive, and exactly one Notification is appended. Nothing else
      changes. */
  lemma WebhookSuccessEffects(db: Db, data: Transaction)
    requires OrderByReference(db.orders, data.reference).Some?
    requires data.reference !in db.payments
    requires UserById(db.users, db.orders[OrderByReference(db.orders, data.reference).value].userId).Some?
    ensures var i := OrderByReference(db.orders, data.reference).value;
            var order := db.orders[i];
            var u := UserById(db.users, order.userId).value;
            var points := order.finalAmount / 100;
            var r := HandleSuccess(db, data);
            && r.Done?
            && r.db.orders == db.orders[i := order.(paymentStatus := PaymentCompleted, status := CONFIRMED)]
            && r.db.payments.Keys == db.payments.Keys + {data.reference}
            && r.db.payments[data.reference].status == PaymentCompleted
            && r.db.payments[data.reference].amount * 100.0 == data.amountKobo as real
            && r.db.payments[data.reference].orderId == order.id
            && (forall k :: k in db.payments ==> r.db.payments[k] == db.payments[k])
            && (points > 0 ==> r.db.users == db.users[u := db.users[u].(points := db.users[u].points + points)])
            && (points > 0 ==> r.db.rewards == db.rewards + [Reward(order.userId, points, Purchase, Some(order.id))])
            && (points <= 0 ==> r.db.users == db.users && r.db.rewards == db.rewards)
            && |r.db.notifications| == |db.notifications| + 1
            && r.db.notifications[..|db.notifications|] == db.notifications
            && r.db.walletTransactions == db.walletTransactions
  {
  }

  /** A `charge.failed` for a known reference without a Payment: the order
      becomes FAILED/CANCELLED, a FAILED Payment is added, one Notification
      is appended, and points, users and rewards are untouched. */
  lemma WebhookFailureEffects(db: Db, data: Transaction)
    requires OrderByReference(db.orders, data.reference).Some?
    requires data.reference !in db.payments
    ensures var i := OrderByReference(db.orders, data.reference).value;
            var order := db.orders[i];
            var r := HandleFailure(db, data);
            && r.Done?
            && r.db.orders == db.orders[i := order.(paymentStatus := PaymentFailed, status := CANCELLED)]
            && r.db.payments == db.payments[data.reference := WebhookPayment(order, data, PaymentFailed)]
            && r.db.users == db.users
            && r.db.rewards == db.rewards
            && r.db.notifications == db.notifications
                 + [Notification(order.userId, "Payment Failed", PaymentNotice, Some(order.id))]
  {
  }

  /** A second delivery of the same `charge.success` after one was fully
      processed: the Payment insert is refused, so the reply is 500, no
      second Payment, Reward or Notification is written, and points are not
      awarded twice. The order is re-confirmed before the insert fails. */
  lemma WebhookRedeliveryAwardsOnce(db: Db, data: Transaction)
    requires OrderByReference(db.orders, data.reference).Some?
    requires data.reference !in db.payments
    requires HandleSuccess(db, data).Done?
    ensures var db1 := HandleSuccess(db, data).db;
            var r := HandleSuccess(db1, data);
            && r.Threw?
            && r.db.payments == db1.payments
            && r.db.users == db1.users
            && r.db.rewards == db1.rewards
            && r.db.notifications == db1.notifications
            && r.db.orders == db1.orders
  {
    var i := OrderByReference(db.orders, data.reference).value;
    var db1 := HandleSuccess(db, data).db;
    assert db1.orders[i].transactionId == Some(data.reference);
    var i1 := OrderByReference(db1.orders, data.reference).value;
    assert i1 == i by {
      assert forall j :: 0 <= j < |db1.orders| && j != i ==> db1.orders[j] == db.orders[j];
    }
  }

  // ---------------------------------------------------------------------
  // Verify

  datatype VerifyBody =
    | Unauthorized
    | MissingReference
    | VerificationFailed
    | OrderNotFound
    | Verified(paymentStatus: PaymentStatus, orderStatus: string, reference: string,
               amount: real, gatewayStatus: string, paidAt: string)

  /** `prisma.order.findFirst({ where: { transactionId: reference, userId } })`. */
  function OwnOrderByReference(orders: seq<Order>, reference: string, userId: string): (r: Option<nat>)
    ensures r.Some? ==> r.value < |orders| && orders[r.value].transactionId == Some(reference)
                        && orders[r.value].userId == userId
    ensures r.None? <==> forall j :: 0 <= j < |orders| ==>
                           !(orders[j].transactionId == Some(reference) && orders[j].userId == userId)
  {
    Seqs.FindFirst(orders, (o: Order) => o.transactionId == Some(reference) && o.userId == userId)
  }

  /** The local statuses for a gateway status: only `"success"` confirms. */
  function StatusesFor(gatewayStatus: string): (r: (PaymentStatus, string))
    ensures gatewayStatus == "success" <==> r == (PaymentCompleted, CONFIRMED)
    ensures gatewayStatus != "success" <==> r == (PaymentFailed, CANCELLED)
  {
    if gatewayStatus == "success" then (PaymentCompleted, CONFIRMED) else (PaymentFailed, CANCELLED)
  }

  /** `prisma.payment.upsert({ where: { transactionId } })`: an existing row
      gets the new status and gateway response and keeps everything else; a
      missing one is created. */
  function UpsertPayment(payments: map<string, Payment>, incoming: Payment): (r: map<string, Payment>)
    ensures r.Keys == payments.Keys + {incoming.transactionId}
    ensures forall k :: k in payments && k != incoming.transactionId ==> r[k] == payments[k]
    ensures incoming.transactionId !in payments ==> r[incoming.transactionId] == incoming
    ensures incoming.transactionId in payments ==>
              r[incoming.transactionId] == payments[incoming.transactionId].(status := incoming.status,
                                                                      gatewayResponse := incoming.gatewayResponse)
  {
    var key := incoming.transactionId;
    if key in payments then
      payments[key := payments[key].(status := incoming.status, gatewayResponse := incoming.gatewayResponse)]
    else payments[key := incoming]
  }

  /** The writes of a verification that found the caller's order `i`: the
      order takes the statuses the gateway status maps to, and the Payment
      for `reference` is upserted. Users, rewards and notifications are not
      touched. */
  function ApplyVerification(db: Db, i: nat, userId: string, reference: string, data: Transaction): (r: Db)
    requires i < |db.orders|
    ensures r.orders == db.orders[i := db.orders[i].(paymentStatus := StatusesFor(data.status).0,
                                                      status := StatusesFor(data.status).1)]
    ensures r.payments.Keys == db.payments.Keys + {reference}
    ensures r.payments[reference].status == StatusesFor(data.status).0
    ensures r.payments[reference].gatewayResponse == data
    ensures reference !in db.payments ==> r.payments[reference].amount * 100.0 == data.amountKobo as real
    ensures reference !in db.payments ==> r.payments[reference].orderId == db.orders[i].id
    ensures forall k :: k in db.payments && k != reference ==> r.payments[k] == db.payments[k]
    ensures r.users == db.users && r.rewards == db.rewards && r.notifications == db.notifications
    ensures r.walletTransactions == db.walletTransactions
  {
    var statuses := StatusesFor(data.status);
    var order := db.orders[i];
    var incoming := Payment(order.id, userId, KoboToNaira(data.amountKobo), "NGN", "PAYSTACK",
                            statuses.0, reference, data);
    db.(orders := db.orders[i := order.(paymentStatus := statuses.0, status := statuses.1)],
        payments := UpsertPayment(db.payments, incoming))
  }

  /** `POST /api/payments/verify`. `gateway` is the verification response
      (`None` when its `status` is false or the call throws). */
  function Verify(db: Db, session: Option<Session>, reference: string,
                  gateway: Option<Transaction>): (r: Reply<VerifyBody>)
    ensures session.None? ==> r == Reply(401, Unauthorized, db)
    ensures session.Some? && reference == "" ==> r == Reply(400, MissingReference, db)
    ensures session.Some? && reference != "" && gateway.None? ==> r == Reply(500, VerificationFailed, db)
    ensures session.Some? && reference != "" && gateway.Some? ==>
              (OwnOrderByReference(db.orders, reference, session.value.userId).None?
               <==> r == Reply(404, OrderNotFound, db))
    ensures (session.Some? && reference != "" && gateway.Some?
             && OwnOrderByReference(db.orders, reference, session.value.userId).Some?) ==> r.status == 200
    ensures r.status == 200 ==>
              && session.Some? && reference != "" && gateway.Some?
              && OwnOrderByReference(db.orders, reference, session.value.userId).Some?
              && r.db == ApplyVerification(db, OwnOrderByReference(db.orders, reference, session.value.userId).value,
                                           session.value.userId, reference, gateway.value)
              && r.body.Verified?
              && r.body.paymentStatus == StatusesFor(gateway.value.status).0
              && r.body.amount * 100.0 == gateway.value.amountKobo as real
    ensures r.status in {200, 400, 401, 404, 500}
  {
    if session.None? then Reply(401, Unauthorized, db)
    else if reference == "" then Reply(400, MissingReference, db)
    else match gateway
      case None => Reply(500, VerificationFailed, db)
      case Some(data) =>
        match OwnOrderByReference(db.orders, reference, session.value.userId)
        case None => Reply(404, OrderNotFound, db)
        case Some(i) =>
          var statuses := StatusesFor(data.status);
          Reply(200, Verified(statuses.0, statuses.1, data.reference, KoboToNaira(data.amountKobo), data.status, data.paidAt),
                ApplyVerification(db, i, session.value.userId, reference, data))
  }

  /** Verifying the same reference twice leaves exactly one Payment for it:
      the second call only rewrites its status and gateway response. */
  lemma VerifyTwiceKeepsOnePayment(db: Db, session: Option<Session>, reference: string,
                                   first: Option<Transaction>, second: Option<Transaction>)
    requires Verify(db, session, reference, first).status == 200
    requires second.Some?
    ensures var db1 := Verify(db, session, reference, first).db;
            var r := Verify(db1, session, reference, second);
            && r.status == 200
            && r.db.payments.Keys == db1.payments.Keys
            && r.db.payments[reference] == db1.payments[reference].(status := StatusesFor(second.value.status).0,
                                                                   gatewayResponse := second.value)
  {
    var db1 := Verify(db, session, reference, first).db;
    var i := OwnOrderByReference(db.orders, reference, session.value.userId).value;
    assert db1.orders[i].transactionId == Some(reference) && db1.orders[i].userId == session.value.userId;
  }

  /** The insert/upsert difference: once a Payment exists for a reference,
      the webhook's insert is refused (500, payments unchanged), while a
      verification of the same reference succeeds and updates that row in
      place. */
  lemma InsertVersusUpsert(db: Db, secret: string, rawBody: string,
                           hmacHex: (string, string) -> string, parse: string -> Option<WebhookEvent>,
                           session: Session, gateway: Transaction)
    requires parse(rawBody).Some? && parse(rawBody).value.name == "charge.success"
    requires var ref := parse(rawBody).value.data.reference;
             && ref != "" && ref in db.payments
             && OwnOrderByReference(db.orders, ref, session.userId).Some?
    ensures var ref := parse(rawBody).value.data.reference;
            var w := Webhook(db, secret, rawBody, hmacHex(secret, rawBody), hmacHex, parse);
            var v := Verify(db, Some(session), ref, Some(gateway));
            && w.status == 500 && w.db.payments == db.payments
            && v.status == 200 && v.db.payments.Keys == db.payments.Keys
  {
  }

  // ---------------------------------------------------------------------
  // Initialize

  /** The `data` of a successful gateway initialisation. */
  datatype Checkout = Checkout(authorizationUrl: string, accessCode: string)

  datatype InitializeBody =
    | InitUnauthorized
    | InvalidRequest
    | NotFoundOrPaid
    | InitializationFailed
    | Initialized(reference: string, authorizationUrl: string, accessCode: string)

  /** `prisma.order.findFirst({ where: { id, userId, paymentStatus: "PENDING" } })`. */
  function PendingOwnOrder(orders: seq<Order>, orderId: string, userId: string): (r: Option<nat>)
    ensures r.Some? ==> r.value < |orders| && orders[r.value].id == orderId
                        && orders[r.value].userId == userId && orders[r.value].paymentStatus == PaymentPending
    ensures r.None? <==> forall j :: 0 <= j < |orders| ==>
              !(orders[j].id == orderId && orders[j].userId == userId && orders[j].paymentStatus == PaymentPending)
  {
    Seqs.FindFirst(orders, (o: Order) => o.id == orderId && o.userId == userId && o.paymentStatus == PaymentPending)
  }

  /** `POST /api/payments/initialize`. `amount` is `None` when absent;
      `reference` is the value `generateReference()` produced; `gateway` is
      the initialisation response (`None` when its `status` is false). */
  function Initialize(db: Db, session: Option<Session>, orderId: string, amount: Option<int>,
                      paymentMethod: string, reference: string,
                      gateway: Option<Checkout>): (r: Reply<InitializeBody>)
    ensures session.None? ==> r == Reply(401, InitUnauthorized, db)
    ensures session.Some? && (orderId == "" || amount.None? || amount.value <= 0)
            ==> r == Reply(400, InvalidRequest, db)
    // only a PENDING order of the caller is accepted
    ensures session.Some? && r.status != 401 && r.status != 400 ==>
              (PendingOwnOrder(db.orders, orderId, session.value.userId).None? <==> r == Reply(404, NotFoundOrPaid, db))
    // the reference is stored before the gateway call, so it stays on failure too
    ensures r.status == 200 || r.status == 500 ==>
              && session.Some?
              && var i := PendingOwnOrder(db.orders, orderId, session.value.userId).value;
              && r.db.orders == db.orders[i := db.orders[i].(
                   transactionId := Some(reference),
                   paymentMethod := if paymentMethod == "" then "paystack" else paymentMethod)]
              && r.db.payments == db.payments && r.db.users == db.users
    // once the caller's pending order is found, the gateway's answer decides between 200 and 500
    ensures (session.Some? && orderId != "" && amount.Some? && amount.value > 0
             && PendingOwnOrder(db.orders, orderId, session.value.userId).Some?) ==>
              (gateway.Some? <==> r.status == 200) && (gateway.None? <==> r.status == 500)
    ensures r.status == 200 <==> r.body.Initialized?
    ensures r.status == 200 ==> r.body.reference == reference
    ensures r.status == 500 <==> r.body == InitializationFailed
  {
    if session.None? then Reply(401, InitUnauthorized, db)
    else if orderId == "" || amount.None? || amount.value <= 0 then Reply(400, InvalidRequest, db)
    else match PendingOwnOrder(db.orders, orderId, session.value.userId)
      case None => Reply(404, NotFoundOrPaid, db)
      case Some(i) =>
        var chosen := if paymentMethod == "" then "paystack" else paymentMethod;
        var db' := db.(orders := db.orders[i := db.orders[i].(transactionId := Some(reference), paymentMethod := chosen)]);
        match gateway
        case None => Reply(500, InitializationFailed, db')
        case Some(c) => Reply(200, Initialized(reference, c.authorizationUrl, c.accessCode), db')
  }

  /** The reference `initialize` hands back is accepted by a later `verify`
      from the same caller; and the order `verify` then finds is the one the
      reference was stored on, provided no earlier order of that caller
      already carries the same reference. */
  lemma InitializedReferenceVerifies(db: Db, session: Session, orderId: string, amount: Option<int>,
                                     paymentMethod: string, reference: string, checkout: Checkout,
                                     gateway: Transaction)
    requires reference != ""
    requires Initialize(db, Some(session), orderId, amount, paymentMethod, reference, Some(checkout)).status == 200
    ensures var db1 := Initialize(db, Some(session), orderId, amount, paymentMethod, reference, Some(checkout)).db;
            Verify(db1, Some(session), reference, Some(gateway)).status == 200
    ensures var db1 := Initialize(db, Some(session), orderId, amount, paymentMethod, reference, Some(checkout)).db;
            var i := PendingOwnOrder(db.orders, orderId, session.userId);
            i.Some? && (forall j :: 0 <= j < i.value ==>
                          !(db.orders[j].transactionId == Some(reference) && db.orders[j].userId == session.userId))
            ==> OwnOrderByReference(db1.orders, reference, session.userId) == i
  {
    var db1 := Initialize(db, Some(session), orderId, amount, paymentMethod, reference, Some(checkout)).db;
    var i := PendingOwnOrder(db.orders, orderId, session.userId).value;
    assert db1.orders[i].transactionId == Some(reference) && db1.orders[i].userId == session.userId;
  }
}

=== FILE: product_admin.dfy ===
/** The admin's product table (`ManageProductsTab`): search, category and
    stock filters, the sort modes, the summary counts, CSV export and
    import, row selection and the bulk-edit update. */
module ProductAdmin {
  import opened Wrappers
  import Seqs
  import Text
  import opened Catalog

  // ---------------------------------------------------------------------
  // Filtering

  predicate MatchesSearch(p: Product, term: string) {
    Text.ContainsIgnoringCase(p.name, term) || Text.ContainsIgnoringCase(p.description, term)
  }

  predicate MatchesCategory(p: Product, selected: string) {
    selected == "all" || p.categoryId == selected
  }

  /** The stock modes "all", "in-stock", "out-of-stock" and "low-stock";
      any other mode matches nothing. */
  predicate MatchesStock(p: Product, mode: string) {
    || mode == "all"
    || (mode == "in-stock" && p.inStock)
    || (mode == "out-of-stock" && !p.inStock)
    || (mode == "low-stock" && p.stock < LOW_STOCK)
  }

  predicate Shown(p: Product, term: string, category: string, mode: string) {
    MatchesSearch(p, term) && MatchesCategory(p, category) && MatchesStock(p, mode)
  }

  /** The products the table shows, before sorting, in list order. */
  function FilterProducts(ps: seq<Product>, term: string, category: string, mode: string): (r: seq<Product>)
    ensures forall p :: p in r <==> p in ps && Shown(p, term, category, mode)
    ensures |r| <= |ps|
    ensures Seqs.IsFilter(r, ps, (p: Product) => Shown(p, term, category, mode))
  {
    var shown := (p: Product) => Shown(p, term, category, mode);
    Seqs.FilterIsFilter(ps, shown);
    Seqs.Filter(ps, shown)
  }

  /** The initial state of the controls (empty search, "all", "all") shows
      every product. */
  lemma {:induction false} DefaultFiltersShowAll(ps: seq<Product>)
    ensures FilterProducts(ps, "", "all", "all") == ps
  {
    forall i | 0 <= i < |ps|
      ensures Shown(ps[i], "", "all", "all")
    {
      Text.ContainsEmpty(Text.LowerStr(ps[i].name));
    }
    Seqs.FilterKeepsAll(ps, (p: Product) => Shown(p, "", "all", "all"));
  }

  /** A low-stock listing holds exactly the products below 10 that pass the
      other filters, whatever their in-stock flag. */
  lemma LowStockMode(ps: seq<Product>, term: string, category: string)
    ensures forall p :: p in FilterProducts(ps, term, category, "low-stock") <==>
              p in ps && p.stock < LOW_STOCK && MatchesSearch(p, term) && MatchesCategory(p, category)
  {
  }

  // ---------------------------------------------------------------------
  // Sorting

  datatype SortMode = ByName | PriceLow | PriceHigh | StockLow | StockHigh | Newest | Unordered

  /** The `sortBy` values the comparator knows; any other keeps the order. */
  function SortModeOf(sortBy: string): (m: SortMode)
    ensures m == Unordered <==> sortBy !in {"name", "price-low", "price-high", "stock-low", "stock-high", "newest"}
  {
    match sortBy
    case "name" => ByName
    case "price-low" => PriceLow
    case "price-high" => PriceHigh
    case "stock-low" => StockLow
    case "stock-high" => StockHigh
    case "newest" => Newest
    case _ => Unordered
  }

  /** Each ordering mode is chosen by exactly one `sortBy` value. */
  lemma SortKeyIsUnique(a: string, b: string)
    requires SortModeOf(a) == SortModeOf(b) != Unordered
    ensures a == b
  {
  }

  /** Code-unit order on strings: a prefix comes first. */
  predicate LexLe(a: string, b: string)
    decreases |a|
  {
    a == [] || (b != [] && (a[0] < b[0] || (a[0] == b[0] && LexLe(a[1..], b[1..]))))
  }

  lemma {:induction false} LexTotal(a: string, b: string)
    ensures LexLe(a, b) || LexLe(b, a)
    decreases |a|
  {
    if a != [] && b != [] && a[0] == b[0] {
      LexTotal(a[1..], b[1..]);
    }
  }

  lemma {:induction false} LexTrans(a: string, b: string, c: string)
    requires LexLe(a, b) && LexLe(b, c)
    ensures LexLe(a, c)
    decreases |a|
  {
    if a != [] && a[0] == b[0] && b[0] == c[0] {
      LexTrans(a[1..], b[1..], c[1..]);
    }
  }

  /** `a` may precede `b` under the mode's comparator. */
  predicate InOrder(mode: SortMode, a: Product, b: Product) {
    match mode
    case ByName => LexLe(a.name, b.name)
    case PriceLow => a.basePrice <= b.basePrice
    case PriceHigh => b.basePrice <= a.basePrice
    case StockLow => a.stock <= b.stock
    case StockHigh => b.stock <= a.stock
    case Newest => b.createdAt <= a.createdAt
    case Unordered => true
  }

  lemma InOrderTotal(mode: SortMode, a: Product, b: Product)
    ensures InOrder(mode, a, b) || InOrder(mode, b, a)
  {
    if mode == ByName {
      LexTotal(a.name, b.name);
    }
  }

  lemma InOrderTrans(mode: SortMode, a: Product, b: Product, c: Product)
    requires InOrder(mode, a, b) && InOrder(mode, b, c)
    ensures InOrder(mode, a, c)
  {
    if mode == ByName {
      LexTrans(a.name, b.name, c.name);
    }
  }

  predicate SortedBy(mode: SortMode, s: seq<Product>) {
    forall i, j :: 0 <= i < j < |s| ==> InOrder(mode, s[i], s[j])
  }

  /** Places `x` before the first element it may precede. */
  function Insert(mode: SortMode, x: Product, s: seq<Product>): (r: seq<Product>)
    ensures multiset(r) == multiset(s) + multiset{x}
  {
    if s == [] then [x]
    else
      assert s == [s[0]] + s[1..];
      if InOrder(mode, x, s[0]) then [x] + s
      else [s[0]] + Insert(mode, x, s[1..])
  }

  /** An element that may precede every element of a sorted list extends
      it at the front. */
  lemma PrependSorted(mode: SortMode, x: Product, s: seq<Product>)
    requires SortedBy(mode, s)
    requires forall y :: y in s ==> InOrder(mode, x, y)
    ensures SortedBy(mode, [x] + s)
  {
  }

  lemma {:induction false} InsertSorted(mode: SortMode, x: Product, s: seq<Product>)
    requires SortedBy(mode, s)
    ensures SortedBy(mode, Insert(mode, x, s))
  {
    if s != [] {
      if InOrder(mode, x, s[0]) {
        forall y | y in s
          ensures InOrder(mode, x, y)
        {
          var j :| 0 <= j < |s| && s[j] == y;
          if j > 0 { InOrderTrans(mode, x, s[0], s[j]); }
        }
        PrependSorted(mode, x, s);
      } else {
        InOrderTotal(mode, x, s[0]);
        assert SortedBy(mode, s[1..]);
        InsertSorted(mode, x, s[1..]);
        var rest := Insert(mode, x, s[1..]);
        forall y | y in rest
          ensures InOrder(mode, s[0], y)
        {
          assert y in multiset(rest);
          if y != x {
            assert y in multiset(s[1..]);
            var j :| 0 <= j < |s[1..]| && s[1..][j] == y;
            assert s[j + 1] == y;
          }
        }
        PrependSorted(mode, s[0], rest);
      }
    }
  }

  /** The `.sort(...)` of the table: sorted under the mode, a permutation of
      its input. */
  function SortProducts(mode: SortMode, s: seq<Product>): (r: seq<Product>)
    ensures SortedBy(mode, r)
    ensures multiset(r) == multiset(s)
  {
    if s == [] then []
    else
      assert s == [s[0]] + s[1..];
      InsertSorted(mode, s[0], SortProducts(mode, s[1..]));
      Insert(mode, s[0], SortProducts(mode, s[1..]))
  }

  /** An unknown sort key compares everything equal, and the stable sort
      keeps the filtered order. */
  lemma {:induction false} UnorderedKeepsOrder(s: seq<Product>)
    ensures SortProducts(Unordered, s) == s
  {
    if s != [] {
      UnorderedKeepsOrder(s[1..]);
      assert s == [s[0]] + s[1..];
    }
  }

  /** The table as displayed: filtered, then sorted. */
  function DisplayedProducts(ps: seq<Product>, term: string, category: string, mode: string,
                             sortBy: string): (r: seq<Product>)
    ensures SortedBy(SortModeOf(sortBy), r)
    ensures forall p :: p in r <==> p in ps && Shown(p, term, category, mode)
    // a rearrangement of the filtered list: nothing added, lost or duplicated
    ensures multiset(r) == multiset(FilterProducts(ps, term, category, mode))
    ensures forall p :: multiset(r)[p] == if Shown(p, term, category, mode) then multiset(ps)[p] else 0
  {
    var shown := FilterProducts(ps, term, category, mode);
    var r := SortProducts(SortModeOf(sortBy), shown);
    assert forall p :: p in r <==> p in multiset(r);
    r
  }

  // ---------------------------------------------------------------------
  // Summary counts

  /** `products.filter(p => p.inStock).length`. */
  function InStockCount(ps: seq<Product>): (n: nat)
    ensures n <= |ps|
    ensures n == 0 <==> forall p :: p in ps ==> !p.inStock
  {
    var kept := Seqs.Filter(ps, (p: Product) => p.inStock);
    assert kept != [] ==> kept[0] in kept;
    |kept|
  }

  /** `products.filter(p => !p.inStock).length`. */
  function OutOfStockCount(ps: seq<Product>): (n: nat)
    ensures n <= |ps|
    ensures n == 0 <==> forall p :: p in ps ==> p.inStock
  {
    var kept := Seqs.Filter(ps, (p: Product) => !p.inStock);
    assert kept != [] ==> kept[0] in kept;
    |kept|
  }

  /** `products.filter(p => p.stock < 10).length`. */
  function LowStockCount(ps: seq<Product>): (n: nat)
    ensures n <= |ps|
    ensures n == 0 <==> forall p :: p in ps ==> p.stock >= LOW_STOCK
  {
    var kept := Seqs.Filter(ps, (p: Product) => p.stock < LOW_STOCK);
    assert kept != [] ==> kept[0] in kept;
    |kept|
  }

  function StockValue(p: Product): int { p.basePrice * p.stock }

  /** `products.reduce((sum, p) => sum + p.basePrice * p.stock, 0)`. */
  function TotalValue(ps: seq<Product>): (v: int)
    ensures ps == [] ==> v == 0
    ensures (forall i :: 0 <= i < |ps| ==> ps[i].basePrice >= 0 && ps[i].stock >= 0) ==> v >= 0
  {
    if forall i :: 0 <= i < |ps| ==> ps[i].basePrice >= 0 && ps[i].stock >= 0 then
      Seqs.SumOfNonNegative(ps, StockValue);
      Seqs.Sum(ps, StockValue)
    else Seqs.Sum(ps, StockValue)
  }

  /** Changing one product's price or stock moves the total value by the
      change in that product's value alone. */
  lemma TotalValueAfterUpdate(ps: seq<Product>, i: nat, p: Product)
    requires i < |ps|
    ensures TotalValue(ps[i := p]) == TotalValue(ps) - ps[i].basePrice * ps[i].stock + p.basePrice * p.stock
  {
    Seqs.SumUpdate(ps, i, p, StockValue);
  }

  /** Every product is counted once as in stock or out of stock, and a
      catalogue of non-negative prices and stocks has a non-negative
      value. */
  lemma {:induction false} StatsAddUp(ps: seq<Product>)
    ensures InStockCount(ps) + OutOfStockCount(ps) == |ps|
    ensures (forall i :: 0 <= i < |ps| ==> ps[i].basePrice >= 0 && ps[i].stock >= 0) ==> TotalValue(ps) >= 0
  {
    Seqs.FilterComplementCount(ps, (p: Product) => p.inStock, (p: Product) => !p.inStock);
  }

  // ---------------------------------------------------------------------
  // CSV export

  const HEADERS: seq<string> := ["Name", "Description", "Category", "Price", "Stock", "Unit", "In Stock"]

  function Quote(f: string): string { "\"" + f + "\"" }

  function QuoteAll(fields: seq<string>): (r: seq<string>)
    ensures |r| == |fields|
    ensures forall i :: 0 <= i < |fields| ==> r[i] == Quote(fields[i])
  {
    seq(|fields|, i requires 0 <= i < |fields| => Quote(fields[i]))
  }

  /** One CSV line: every field in double quotes, joined by ",". */
  function CsvLine(fields: seq<string>): string {
    Text.Join(QuoteAll(fields), ',')
  }

  /** The seven exported columns of a product. */
  function ExportFields(p: Product): (r: seq<string>)
    ensures |r| == |HEADERS|
  {
    [p.name, p.description, p.category.name, Text.IntToString(p.basePrice), Text.IntToString(p.stock), p.unit,
     if p.inStock then "Yes" else "No"]
  }

  function ExportLines(ps: seq<Product>): (r: seq<string>)
    ensures |r| == |ps|
    ensures forall i :: 0 <= i < |ps| ==> r[i] == CsvLine(ExportFields(ps[i]))
  {
    seq(|ps|, i requires 0 <= i < |ps| => CsvLine(ExportFields(ps[i])))
  }

  /** `exportToCSV`: the header line, then one line per product, joined by
      newlines. */
  function ExportCsv(ps: seq<Product>): (csv: string)
    // the file opens with the header line, which is all of it for no products
    ensures CsvLine(HEADERS) <= csv
    ensures ps == [] ==> csv == CsvLine(HEADERS)
    ensures ps != [] ==> |csv| > |CsvLine(HEADERS)| && csv[|CsvLine(HEADERS)|] == '\n'
  {
    var lines := [CsvLine(HEADERS)] + ExportLines(ps);
    assert lines[0] == CsvLine(HEADERS) && lines[1..] == ExportLines(ps);
    Text.Join(lines, '\n')
  }

  // ---------------------------------------------------------------------
  // CSV import

  /** `v.replace(/"/g, '').trim()`. */
  function Clean(v: string): string { Text.Trim(Text.Strip(v, '"')) }

  function CleanAll(vs: seq<string>): (r: seq<string>)
    ensures |r| == |vs|
    ensures forall i :: 0 <= i < |vs| ==> r[i] == Clean(vs[i])
  {
    seq(|vs|, i requires 0 <= i < |vs| => Clean(vs[i]))
  }

  /** The product the import sends for one row; `None` stands for `NaN`. */
  datatype ImportedProduct = ImportedProduct(
    name: string,
    description: string,
    basePrice: Option<real>,
    categoryId: string,
    stock: Option<int>,
    unit: string,
    inStock: bool)

  /** The category whose name equals `name` ignoring case, first in list
      order. */
  function CategoryByName(categories: seq<Category>, name: string): (r: Option<nat>)
    ensures r.Some? ==> r.value < |categories| && Text.LowerStr(categories[r.value].name) == Text.LowerStr(name)
    // the first category with that name, ignoring case
    ensures r.Some? ==> forall j :: 0 <= j < r.value ==> Text.LowerStr(categories[j].name) != Text.LowerStr(name)
    ensures r.None? <==> forall j :: 0 <= j < |categories| ==> Text.LowerStr(categories[j].name) != Text.LowerStr(name)
  {
    Seqs.FindFirst(categories, (c: Category) => Text.LowerStr(c.name) == Text.LowerStr(name))
  }

  /** What one data line contributes: nothing (blank line or unknown
      category), a product, or a thrown error. Reading `.toLowerCase()` of a
      missing category or in-stock field throws and ends the whole
      import. */
  datatype RowOutcome = Skip | Crash | Row(product: ImportedProduct)

  /** The outcome of a non-blank line from its cleaned values. */
  function RowOfValues(vs: seq<string>, categories: seq<Category>): (r: RowOutcome)
    ensures r.Row? <==> |vs| >= |HEADERS| && CategoryByName(categories, vs[2]).Some?
    ensures r == Crash <==>
              || (|vs| < 3 && categories != [])
              || (3 <= |vs| < |HEADERS| && CategoryByName(categories, vs[2]).Some?)
    ensures r.Row? ==> r.product.categoryId == categories[CategoryByName(categories, vs[2]).value].id
    // the other fields are read from their columns
    ensures r.Row? ==>
              && r.product.name == vs[0] && r.product.description == vs[1]
              && r.product.basePrice == Text.ParseDecimal(vs[3]) && r.product.stock == Text.ParseInt(vs[4])
              && r.product.unit == vs[5] && (r.product.inStock <==> Text.LowerStr(vs[6]) == "yes")
  {
    if |vs| < 3 then (if categories == [] then Skip else Crash)
    else match CategoryByName(categories, vs[2])
      case None => Skip
      case Some(c) =>
        if |vs| < 7 then Crash
        else Row(ImportedProduct(vs[0], vs[1], Text.ParseDecimal(vs[3]), categories[c].id,
                                 Text.ParseInt(vs[4]), vs[5], Text.LowerStr(vs[6]) == "yes"))
  }

  /** The values of a data line: split at commas, quotes removed, trimmed. */
  function LineValues(line: string): (r: seq<string>)
    ensures |r| == |Text.Split(line, ',')|
  {
    CleanAll(Text.Split(line, ','))
  }

  function ImportRow(line: string, categories: seq<Category>): (r: RowOutcome)
    ensures Text.Trim(line) == "" ==> r == Skip
    // a non-blank line gives a product exactly when it has all seven values and a known category
    ensures Text.Trim(line) != "" ==>
              (r.Row? <==> |LineValues(line)| >= |HEADERS| && CategoryByName(categories, LineValues(line)[2]).Some?)
    ensures r.Row? ==>
              && r.product.name == LineValues(line)[0]
              && r.product.categoryId == categories[CategoryByName(categories, LineValues(line)[2]).value].id
    ensures r == Crash ==> Text.Trim(line) != "" && |LineValues(line)| < |HEADERS|
  {
    if Text.Trim(line) == "" then Skip else RowOfValues(LineValues(line), categories)
  }

  datatype ImportOutcome = BadHeaders | Crashed | Parsed(products: seq<ImportedProduct>)

  /** The data lines in order; the first thrown error wins. */
  function ImportLines(lines: seq<string>, categories: seq<Category>): (r: ImportOutcome)
    ensures r != BadHeaders
    ensures r.Parsed? ==> |r.products| <= |lines|
  {
    if lines == [] then Parsed([])
    else match ImportRow(lines[0], categories)
      case Crash => Crashed
      case Skip => ImportLines(lines[1..], categories)
      case Row(p) =>
        var rest := ImportLines(lines[1..], categories);
        if rest.Parsed? then Parsed([p] + rest.products) else rest
  }

  /** `importFromCSV`'s parsing: the first line must name every expected
      column; the data lines follow. */
  function ImportCsv(csv: string, categories: seq<Category>): (r: ImportOutcome)
    ensures r == BadHeaders <==>
              exists k :: 0 <= k < |HEADERS| && HEADERS[k] !in CleanAll(Text.Split(Text.Split(csv, '\n')[0], ','))
  {
    var lines := Text.Split(csv, '\n');
    var headers := CleanAll(Text.Split(lines[0], ','));
    if exists k :: 0 <= k < |HEADERS| && HEADERS[k] !in headers then BadHeaders
    else ImportLines(lines[1..], categories)
  }

  /** A field the format carries unchanged: no comma, quote or newline
      inside and no white space at either end. */
  predicate CsvSafe(f: string) {
    && (forall k :: 0 <= k < |f| ==> f[k] != ',' && f[k] != '"' && f[k] != '\n')
    && (|f| > 0 ==> !Text.IsSpace(f[0]) && !Text.IsSpace(f[|f| - 1]))
  }

  /** A product whose text fields are CSV-safe and whose category is the
      one its name finds. */
  predicate Exportable(p: Product, categories: seq<Category>) {
    && CsvSafe(p.name) && CsvSafe(p.description) && CsvSafe(p.category.name) && CsvSafe(p.unit)
    && CategoryByName(categories, p.category.name).Some?
    && categories[CategoryByName(categories, p.category.name).value].id == p.categoryId
  }

  /** What importing an exported product gives back. */
  function Reimported(p: Product): ImportedProduct {
    ImportedProduct(p.name, p.description, Some(p.basePrice as real), p.categoryId, Some(p.stock), p.unit, p.inStock)
  }

  function ReimportedAll(ps: seq<Product>): (r: seq<ImportedProduct>)
    ensures |r| == |ps|
    ensures forall i :: 0 <= i < |ps| ==> r[i] == Reimported(ps[i])
  {
    if ps == [] then [] else [Reimported(ps[0])] + ReimportedAll(ps[1..])
  }

  lemma {:induction false} CleanQuote(f: string)
    requires CsvSafe(f)
    ensures Clean(Quote(f)) == f
  {
    var keep := (x: char) => x != '"';
    Seqs.FilterAppend("\"" + f, "\"", keep);
    Seqs.FilterAppend("\"", f, keep);
    Seqs.FilterSingleton('"', keep);
    Seqs.FilterKeepsAll(f, keep);
    assert Text.Strip(Quote(f), '"') == f;
    Text.TrimOfTrimmed(f);
  }

  lemma {:induction false} LineRoundTrip(fields: seq<string>)
    requires |fields| >= 1
    requires forall i :: 0 <= i < |fields| ==> CsvSafe(fields[i])
    ensures CleanAll(Text.Split(CsvLine(fields), ',')) == fields
  {
    var quoted := QuoteAll(fields);
    forall i | 0 <= i < |quoted|
      ensures ',' !in quoted[i]
    {
      assert quoted[i] == "\"" + fields[i] + "\"";
    }
    Text.SplitJoin(quoted, ',');
    forall i | 0 <= i < |fields|
      ensures Clean(quoted[i]) == fields[i]
    {
      CleanQuote(fields[i]);
    }
  }

  lemma NumberIsCsvSafe(n: int)
    ensures CsvSafe(Text.IntToString(n))
  {
  }

  lemma ExportFieldsSafe(p: Product, categories: seq<Category>)
    requires Exportable(p, categories)
    ensures forall i :: 0 <= i < |ExportFields(p)| ==> CsvSafe(ExportFields(p)[i])
  {
  }

  /** A line has no newline when its fields have none. */
  lemma CsvLineHasNoNewline(fields: seq<string>)
    requires forall i :: 0 <= i < |fields| ==> CsvSafe(fields[i])
    ensures '\n' !in CsvLine(fields)
  {
    var quoted := QuoteAll(fields);
    Text.JoinChars(quoted, ',');
    forall k | 0 <= k < |CsvLine(fields)|
      ensures CsvLine(fields)[k] != '\n'
    {
      if CsvLine(fields)[k] != ',' {
        var i, m :| 0 <= i < |quoted| && 0 <= m < |quoted[i]| && CsvLine(fields)[k] == quoted[i][m];
        assert quoted[i] == "\"" + fields[i] + "\"";
      }
    }
  }

  /** The cleaned values of an exported line are the exported fields. */
  lemma ExportedValues(p: Product, categories: seq<Category>)
    requires Exportable(p, categories)
    ensures CleanAll(Text.Split(CsvLine(ExportFields(p)), ',')) == ExportFields(p)
  {
    ExportFieldsSafe(p, categories);
    LineRoundTrip(ExportFields(p));
  }

  /** An exported line is not blank: it starts with a quote. */
  lemma ExportedLineIsNotBlank(fields: seq<string>)
    requires |fields| >= 1
    ensures Text.Trim(CsvLine(fields)) != ""
  {
  }

  lemma ValuesOfExportedRow(p: Product, categories: seq<Category>)
    requires Exportable(p, categories)
    ensures RowOfValues(ExportFields(p), categories) == Row(Reimported(p))
  {
    ExportedFieldsRead(p, categories);
  }

  /** The exported values of a product whose category name is known read
      back field by field; only the category id comes from the lookup. */
  lemma ExportedFieldsRead(p: Product, categories: seq<Category>)
    requires CategoryByName(categories, p.category.name).Some?
    ensures RowOfValues(ExportFields(p), categories) ==
              Row(ImportedProduct(p.name, p.description, Some(p.basePrice as real),
                                  categories[CategoryByName(categories, p.category.name).value].id,
                                  Some(p.stock), p.unit, p.inStock))
  {
    var vs := ExportFields(p);
    assert vs[2] == p.category.name;
    CompleteRow(vs, categories);
    ExportedNumbersParse(p);
    assert Text.LowerStr(vs[6]) == "yes" <==> p.inStock by {
      assert Text.LowerStr("Yes") == "yes";
      assert Text.LowerStr("No") != "yes";
    }
  }

  /** The product a complete row with a known category gives, field by
      field. */
  lemma CompleteRow(vs: seq<string>, categories: seq<Category>)
    requires |vs| >= |HEADERS| && CategoryByName(categories, vs[2]).Some?
    ensures RowOfValues(vs, categories) ==
              Row(ImportedProduct(vs[0], vs[1], Text.ParseDecimal(vs[3]), categories[CategoryByName(categories, vs[2]).value].id,
                                  Text.ParseInt(vs[4]), vs[5], Text.LowerStr(vs[6]) == "yes"))
  {
  }

  /** The exported price and stock read back as the numbers they print. */
  lemma ExportedNumbersParse(p: Product)
    ensures Text.ParseDecimal(ExportFields(p)[3]) == Some(p.basePrice as real)
    ensures Text.ParseInt(ExportFields(p)[4]) == Some(p.stock)
  {
    Text.IntToStringDecimalRoundTrip(p.basePrice);
    Text.IntToStringRoundTrip(p.stock);
  }

  lemma ImportExportedRow(p: Product, categories: seq<Category>)
    requires Exportable(p, categories)
    ensures ImportRow(CsvLine(ExportFields(p)), categories) == Row(Reimported(p))
  {
    ExportedValues(p, categories);
    ExportedLineIsNotBlank(ExportFields(p));
    ValuesOfExportedRow(p, categories);
  }

  lemma {:induction false} ImportExportedLines(ps: seq<Product>, categories: seq<Category>)
    requires forall i :: 0 <= i < |ps| ==> Exportable(ps[i], categories)
    ensures ImportLines(ExportLines(ps), categories) == Parsed(ReimportedAll(ps))
  {
    if ps != [] {
      var lines := ExportLines(ps);
      assert lines[0] == CsvLine(ExportFields(ps[0]));
      ImportExportedRow(ps[0], categories);
      assert lines[1..] == ExportLines(ps[1..]);
      ImportExportedLines(ps[1..], categories);
      assert ImportLines(lines, categories) == Parsed([Reimported(ps[0])] + ReimportedAll(ps[1..]));
    }
  }

  /** No exported line holds a newline. */
  lemma ExportedLinesHaveNoNewline(ps: seq<Product>, categories: seq<Category>)
    requires forall i :: 0 <= i < |ps| ==> Exportable(ps[i], categories)
    ensures forall i :: 0 <= i < |ExportLines(ps)| ==> '\n' !in ExportLines(ps)[i]
  {
    forall i | 0 <= i < |ps|
      ensures '\n' !in ExportLines(ps)[i]
    {
      ExportFieldsSafe(ps[i], categories);
      CsvLineHasNoNewline(ExportFields(ps[i]));
    }
  }

  /** Importing an export of CSV-safe products whose category names resolve
      to their own categories gives every product back, in order, with name,
      description, price, category, stock, unit and in-stock flag intact. */
  lemma HeaderLineRoundTrip()
    ensures CleanAll(Text.Split(CsvLine(HEADERS), ',')) == HEADERS
    ensures '\n' !in CsvLine(HEADERS)
  {
    assert forall i :: 0 <= i < |HEADERS| ==> CsvSafe(HEADERS[i]);
    LineRoundTrip(HEADERS);
    CsvLineHasNoNewline(HEADERS);
  }

  /** The lines of an export are the header line and the product lines. */
  lemma ExportSplitsIntoLines(ps: seq<Product>, categories: seq<Category>)
    requires forall i :: 0 <= i < |ps| ==> Exportable(ps[i], categories)
    ensures Text.Split(ExportCsv(ps), '\n') == [CsvLine(HEADERS)] + ExportLines(ps)
  {
    var lines := [CsvLine(HEADERS)] + ExportLines(ps);
    HeaderLineRoundTrip();
    ExportedLinesHaveNoNewline(ps, categories);
    forall i | 0 <= i < |lines|
      ensures '\n' !in lines[i]
    {
      if i > 0 {
        assert lines[i] == ExportLines(ps)[i - 1];
      }
    }
    Text.SplitJoin(lines, '\n');
  }

  lemma ImportOfExport(ps: seq<Product>, categories: seq<Category>)
    requires forall i :: 0 <= i < |ps| ==> Exportable(ps[i], categories)
    ensures ImportCsv(ExportCsv(ps), categories) == Parsed(ReimportedAll(ps))
  {
    var lines := Text.Split(ExportCsv(ps), '\n');
    ExportSplitsIntoLines(ps, categories);
    HeaderLineRoundTrip();
    var headers := CleanAll(Text.Split(lines[0], ','));
    assert headers == HEADERS;
    assert !exists k :: 0 <= k < |HEADERS| && HEADERS[k] !in headers by {
      forall k | 0 <= k < |HEADERS|
        ensures HEADERS[k] in headers
      {
        assert headers[k] == HEADERS[k];
      }
    }
    assert lines[1..] == ExportLines(ps);
    ImportExportedLines(ps, categories);
  }

  // ---------------------------------------------------------------------
  // Selection and bulk edit

  /** `handleSelectProduct(id)`: removes the id if selected, else appends
      it. */
  function ToggleSelected(selected: seq<string>, id: string): (r: seq<string>)
    ensures id in r <==> id !in selected
    ensures forall x :: x != id ==> (x in r <==> x in selected)
  {
    if id in selected then Seqs.Filter(selected, (x: string) => x != id) else selected + [id]
  }

  /** Toggling twice restores the selection: exactly when the id was not
      selected, and as a set when it was (it moves to the end). */
  lemma {:induction false} ToggleTwice(selected: seq<string>, id: string)
    ensures id !in selected ==> ToggleSelected(ToggleSelected(selected, id), id) == selected
    ensures forall x :: x in ToggleSelected(ToggleSelected(selected, id), id) <==> x in selected
  {
    if id !in selected {
      Seqs.FilterAppend(selected, [id], (x: string) => x != id);
      Seqs.FilterKeepsAll(selected, (x: string) => x != id);
      Seqs.FilterSingleton(id, (x: string) => x != id);
    }
  }

  function IdOf(p: Product): string { p.id }

  /** `handleSelectAll`: clears the selection when it has as many entries
      as the table shows, otherwise selects every shown product. */
  function SelectAll(selected: seq<string>, shown: seq<Product>): (r: seq<string>)
    ensures |selected| == |shown| ==> r == []
    ensures |selected| != |shown| ==> |r| == |shown| && forall i :: 0 <= i < |shown| ==> r[i] == shown[i].id
  {
    if |selected| == |shown| then [] else seq(|shown|, i requires 0 <= i < |shown| => shown[i].id)
  }

  /** Pressing "select all" twice from an empty selection clears it again. */
  lemma SelectAllTwice(shown: seq<Product>)
    requires shown != []
    ensures SelectAll(SelectAll([], shown), shown) == []
  {
  }

  /** The bulk edit only opens with something selected. */
  function BulkEditOpens(selected: seq<string>): (r: bool)
    ensures r <==> |selected| > 0
  {
    !(|selected| == 0)
  }

  /** The `updates` object: only the fields the admin filled in. `stock` is
      `Some(None)` when the entry does not read as a number. */
  datatype BulkUpdate = BulkUpdate(categoryId: Option<string>, stock: Option<Option<int>>, inStock: Option<bool>)

  /** The keys of the `updates` object sent as the request body. */
  function BodyKeys(u: BulkUpdate): set<string> {
    (if u.categoryId.Some? then {"categoryId"} else {})
    + (if u.stock.Some? then {"stock"} else {})
    + (if u.inStock.Some? then {"inStock"} else {})
  }

  /** The bulk-edit fields the admin filled in: a non-empty category or
      stock field, a chosen in-stock value. */
  function FilledFields(categoryId: string, stock: string, inStock: Option<bool>): set<string> {
    (if categoryId != "" then {"categoryId"} else {})
    + (if stock != "" then {"stock"} else {})
    + (if inStock.Some? then {"inStock"} else {})
  }

  /** `handleApplyBulkEdit`'s `updates` object, `None` when it has no key
      (the edit is refused). */
  function BuildBulkUpdate(categoryId: string, stock: string, inStock: Option<bool>): (r: Option<BulkUpdate>)
    ensures r.None? <==> categoryId == "" && stock == "" && inStock.None?
    ensures r.Some? ==> (r.value.categoryId.Some? <==> categoryId != "") && (r.value.stock.Some? <==> stock != "")
    ensures r.Some? ==> r.value.inStock == inStock
    ensures r.Some? && categoryId != "" ==> r.value.categoryId.value == categoryId
    ensures r.Some? && stock != "" ==> r.value.stock.value == Text.ParseInt(stock)
  {
    var updates := BulkUpdate(if categoryId != "" then Some(categoryId) else None,
                              if stock != "" then Some(Text.ParseInt(stock)) else None,
                              inStock);
    if BodyKeys(updates) == {} then None else Some(updates)
  }

  /** The request body names exactly the fields that were filled in, and an
      edit is refused exactly when none was. */
  lemma BulkBodyNamesFilledFields(categoryId: string, stock: string, inStock: Option<bool>)
    ensures var r := BuildBulkUpdate(categoryId, stock, inStock);
            && (r.None? <==> FilledFields(categoryId, stock, inStock) == {})
            && (r.Some? ==> BodyKeys(r.value) == FilledFields(categoryId, stock, inStock))
  {
  }
}

=== FILE: product_card.dfy ===
/** The product card: its quantity stepper, bounded to 1..99, the
    variation it starts with, and the price it shows. */
module ProductCard {
  import opened Wrappers
  import Catalog

  const MIN_QUANTITY: int := 1
  const MAX_QUANTITY: int := 99

  /** `incrementQuantity`: `Math.min(q + 1, 99)`. */
  function Increment(q: int): (r: int)
    ensures r == if q + 1 < MAX_QUANTITY then q + 1 else MAX_QUANTITY
  {
    if q + 1 < 99 then q + 1 else 99
  }

  /** `decrementQuantity`: `Math.max(q - 1, 1)`. */
  function Decrement(q: int): (r: int)
    ensures r == if q - 1 > MIN_QUANTITY then q - 1 else MIN_QUANTITY
  {
    if q - 1 > 1 then q - 1 else 1
  }

  datatype Step = Plus | Minus

  /** The quantity after pressing the buttons in order. */
  function Run(q: int, steps: seq<Step>): int
    decreases |steps|
  {
    if steps == [] then q
    else Run(if steps[0] == Plus then Increment(q) else Decrement(q), steps[1..])
  }

  /** From the initial 1, or any quantity in range, no sequence of presses
      leaves 1..99. */
  lemma {:induction false} RunStaysInRange(q: int, steps: seq<Step>)
    requires MIN_QUANTITY <= q <= MAX_QUANTITY
    ensures MIN_QUANTITY <= Run(q, steps) <= MAX_QUANTITY
    decreases |steps|
  {
    if steps != [] {
      RunStaysInRange(if steps[0] == Plus then Increment(q) else Decrement(q), steps[1..]);
    }
  }

  /** The ends are fixed points of their buttons, and inside the range the
      two buttons undo each other. */
  lemma StepperEnds(q: int)
    requires MIN_QUANTITY <= q <= MAX_QUANTITY
    ensures Increment(MAX_QUANTITY) == MAX_QUANTITY && Decrement(MIN_QUANTITY) == MIN_QUANTITY
    ensures q < MAX_QUANTITY ==> Decrement(Increment(q)) == q
    ensures q > MIN_QUANTITY ==> Increment(Decrement(q)) == q
  {
  }

  /** `variations?.[0] || null`. */
  function InitialVariation(p: Catalog.Product): (v: Option<Catalog.Variation>)
    ensures v.None? <==> p.variations == []
    ensures v.Some? ==> v.value == p.variations[0]
  {
    if |p.variations| > 0 then Some(p.variations[0]) else None
  }

  /** `currentPrice`. */
  function CurrentPrice(p: Catalog.Product, selected: Option<Catalog.Variation>): (price: int)
    ensures selected.None? ==> price == p.basePrice
    ensures selected.Some? ==> price == selected.value.price
  {
    if selected.Some? then selected.value.price else p.basePrice
  }

  /** `hasVariations`. */
  function HasVariations(p: Catalog.Product): (r: bool)
    ensures r <==> p.variations != []
  {
    |p.variations| > 0
  }

  /** A fresh card prices a product with variations at its first
      variation and one without at its base price. */
  lemma FreshCardPrice(p: Catalog.Product)
    ensures HasVariations(p) ==> CurrentPrice(p, InitialVariation(p)) == p.variations[0].price
    ensures !HasVariations(p) ==> CurrentPrice(p, InitialVariation(p)) == p.basePrice
  {
  }
}

=== FILE: product_form.dfy ===
/** The product form: its initial state, the edits of its fields and of
    its variation list, and the submit gate that runs the shared product
    validation. */
module ProductFormState {
  import opened Wrappers
  import Seqs
  import Helpers
  import Text

  /** One variation row of the form; `id` is present for rows loaded from
      an existing product. */
  datatype FormVariation = FormVariation(id: Option<string>, name: string, price: int, stock: int)

  datatype Form = Form(
    name: string,
    description: string,
    basePrice: int,
    categoryId: string,
    stock: int,
    unit: string,
    inStock: bool,
    variations: seq<FormVariation>)

  /** The product an edit starts from; `inStock` is `None` when the field
      is absent. */
  datatype Initial = Initial(
    name: string,
    description: string,
    basePrice: int,
    categoryId: string,
    stock: int,
    unit: string,
    inStock: Option<bool>,
    variations: seq<FormVariation>)

  /** The form's first state: the initial product's values, `?? true` for
      `inStock`, and blanks without an initial product. */
  function InitialForm(initial: Option<Initial>): (f: Form)
    ensures initial.None? ==> f == Form("", "", 0, "", 0, "", true, [])
    ensures initial.Some? ==>
              && f.name == initial.value.name && f.description == initial.value.description
              && f.basePrice == initial.value.basePrice
              && f.categoryId == initial.value.categoryId && f.stock == initial.value.stock
              && f.unit == initial.value.unit && f.variations == initial.value.variations
              && f.inStock == initial.value.inStock.GetOr(true)
  {
    match initial
    case None => Form("", "", 0, "", 0, "", true, [])
    case Some(d) => Form(d.name, d.description, d.basePrice, d.categoryId, d.stock, d.unit, d.inStock.GetOr(true),
                         d.variations)
  }

  /** `addVariation`: appends a blank row. */
  function AddVariation(f: Form): (r: Form)
    ensures r.variations == f.variations + [FormVariation(None, "", 0, 0)]
    ensures r.(variations := f.variations) == f
  {
    f.(variations := f.variations + [FormVariation(None, "", 0, 0)])
  }

  /** A change to one field of a variation row. */
  datatype VariationEdit = SetName(name: string) | SetPrice(price: int) | SetStock(stock: int)

  function ApplyEdit(v: FormVariation, e: VariationEdit): (r: FormVariation)
    ensures e.SetName? ==> r == v.(name := e.name)
    ensures e.SetPrice? ==> r == v.(price := e.price)
    ensures e.SetStock? ==> r == v.(stock := e.stock)
  {
    match e
    case SetName(n) => v.(name := n)
    case SetPrice(p) => v.(price := p)
    case SetStock(s) => v.(stock := s)
  }

  /** `updateVariation(index, field, value)`: only row `index` changes,
      and only in the edited field; an index outside the list changes
      nothing. */
  function UpdateVariation(f: Form, index: int, e: VariationEdit): (r: Form)
    ensures |r.variations| == |f.variations|
    ensures forall i :: 0 <= i < |f.variations| && i != index ==> r.variations[i] == f.variations[i]
    ensures 0 <= index < |f.variations| ==> r.variations[index] == ApplyEdit(f.variations[index], e)
    ensures r.(variations := f.variations) == f
  {
    f.(variations := seq(|f.variations|, i requires 0 <= i < |f.variations| =>
                           if i == index then ApplyEdit(f.variations[i], e) else f.variations[i]))
  }

  /** `removeVariation(index)`. */
  function RemoveVariation(f: Form, index: int): (r: Form)
    ensures r.variations == Seqs.RemoveAt(f.variations, index)
    ensures r.(variations := f.variations) == f
  {
    f.(variations := Seqs.RemoveAt(f.variations, index))
  }

  /** Removing the row just added restores the form. */
  lemma RemoveUndoesAdd(f: Form)
    ensures RemoveVariation(AddVariation(f), |f.variations|) == f
  {
  }

  /** Setting a field twice keeps the last value. */
  lemma LaterEditWins(f: Form, index: int, a: int, b: int)
    ensures UpdateVariation(UpdateVariation(f, index, SetPrice(a)), index, SetPrice(b)) == UpdateVariation(f, index, SetPrice(b))
  {
  }

  /** A change to one top-level field; the key is the field's name. */
  datatype FieldEdit =
    | Name(name: string)
    | Description(description: string)
    | BasePrice(basePrice: int)
    | CategoryId(categoryId: string)
    | Stock(stock: int)
    | Unit(unit: string)
    | InStock(inStock: bool)

  function Key(e: FieldEdit): string {
    match e
    case Name(_) => "name"
    case Description(_) => "description"
    case BasePrice(_) => "basePrice"
    case CategoryId(_) => "categoryId"
    case Stock(_) => "stock"
    case Unit(_) => "unit"
    case InStock(_) => "inStock"
  }

  function SetField(f: Form, e: FieldEdit): Form {
    match e
    case Name(v) => f.(name := v)
    case Description(v) => f.(description := v)
    case BasePrice(v) => f.(basePrice := v)
    case CategoryId(v) => f.(categoryId := v)
    case Stock(v) => f.(stock := v)
    case Unit(v) => f.(unit := v)
    case InStock(v) => f.(inStock := v)
  }

  datatype Editor = Editor(form: Form, errors: map<string, string>)

  /** `handleInputChange(field, value)`: stores the value and blanks that
      field's message when it has a non-empty one; other messages stay. */
  function HandleInputChange(ed: Editor, e: FieldEdit): (r: Editor)
    ensures r.form == SetField(ed.form, e)
    ensures r.errors.Keys == ed.errors.Keys
    ensures Key(e) in ed.errors ==> r.errors[Key(e)] == ""
    ensures forall k :: k in ed.errors && k != Key(e) ==> r.errors[k] == ed.errors[k]
  {
    var errors := if Key(e) in ed.errors && ed.errors[Key(e)] != "" then ed.errors[Key(e) := ""] else ed.errors;
    Editor(SetField(ed.form, e), errors)
  }

  /** The fields the shared validation looks at. */
  function ToValidated(f: Form): Helpers.ProductForm {
    Helpers.ProductForm(f.name, f.description, f.basePrice, f.categoryId, f.stock, f.unit, f.inStock)
  }

  datatype Submission = Submitted(form: Form) | Refused(errors: map<string, string>)

  /** `handleSubmit`: a form the validation accepts is handed to
      `onSubmit` as it is; otherwise the messages are stored and nothing is
      sent. */
  function Submit(f: Form): (r: Submission)
    ensures r.Submitted? <==> Helpers.ValidateProductForm(ToValidated(f)).isValid
    ensures r.Submitted? ==> r.form == f
    ensures r.Refused? ==> r.errors == Helpers.ValidateProductForm(ToValidated(f)).errors && r.errors != map[]
  {
    var v := Helpers.ValidateProductForm(ToValidated(f));
    if !v.isValid then Refused(v.errors) else Submitted(f)
  }

  /** A blank form is never sent: it names no product, no category and no
      unit. */
  lemma BlankFormIsRefused()
    ensures var r := Submit(InitialForm(None));
            r.Refused? && "name" in r.errors && "categoryId" in r.errors && "unit" in r.errors
            && "basePrice" !in r.errors && "stock" !in r.errors
  {
  }

  /** Whether an edited value passes its field's validation rule; the
      description and the in-stock flag have none. */
  predicate FieldValid(e: FieldEdit) {
    match e
    case Name(v) => Text.Trim(v) != "" && Text.Utf16Length(v) >= 2
    case CategoryId(v) => v != ""
    case BasePrice(v) => v >= 0
    case Stock(v) => v >= 0
    case Unit(v) => Text.Trim(v) != ""
    case _ => true
  }

  /** The validation judges an edited field by the new value alone. */
  lemma EditedFieldIsJudged(form: Form, e: FieldEdit)
    ensures Key(e) in Helpers.ValidateProductForm(ToValidated(SetField(form, e))).errors <==> !FieldValid(e)
  {
    var f := ToValidated(SetField(form, e));
    FieldRules(f);
    match e
    case Name(x) => assert f.name == x;
    case Unit(x) => assert f.unit == x;
    case CategoryId(x) => assert f.categoryId == x;
    case BasePrice(x) => assert f.basePrice == x;
    case Stock(x) => assert f.stock == x;
    case Description(_) =>
    case InStock(_) =>
  }

  /** Each key's message, read off the validation's contract. */
  lemma FieldRules(f: Helpers.ProductForm)
    ensures var errors := Helpers.ValidateProductForm(f).errors;
            && ("name" in errors <==> Text.Trim(f.name) == "" || Text.Utf16Length(f.name) < 2)
            && ("unit" in errors <==> Text.Trim(f.unit) == "")
            && ("categoryId" in errors <==> f.categoryId == "")
            && ("basePrice" in errors <==> f.basePrice < 0)
            && ("stock" in errors <==> f.stock < 0)
            && "description" !in errors && "inStock" !in errors
  {
  }

  /** Editing a field blanks its message at once, and the next submission
      judges the field by its new value alone: a fixed field raises no
      message whatever the old message said, and a value still breaking
      the rule raises one again. */
  lemma EditDecidesFieldAtNextSubmit(ed: Editor, e: FieldEdit)
    ensures var r := HandleInputChange(ed, e);
            && (Key(e) in ed.errors ==> r.errors[Key(e)] == "")
            && (Key(e) in Helpers.ValidateProductForm(ToValidated(r.form)).errors <==> !FieldValid(e))
            && (FieldValid(e) ==> Submit(r.form).Submitted? || Key(e) !in Submit(r.form).errors)
            && (!FieldValid(e) ==> Submit(r.form).Refused? && Key(e) in Submit(r.form).errors)
  {
    EditedFieldIsJudged(ed.form, e);
  }
}

=== FILE: products_api.dfy ===
/** `GET /api/products` and `POST /api/products`: the listing's `where`
    filter and the admin create with its field defaults.

    A query or body string the request did not carry is ""; `inStock` in the
    query is `None` when the parameter is absent, and in the body when the
    field is undefined. `id` and `now` are the generated product id and
    creation time. */
module ProductsApi {
  import opened Wrappers
  import opened Store
  import opened Catalog
  import Seqs
  import Text

  /** The `where` object of the listing; an absent field does not filter. */
  datatype ProductWhere = ProductWhere(categoryId: Option<string>, search: Option<string>, inStock: Option<bool>)

  function BuildWhere(categoryId: string, search: string, inStock: Option<string>): (w: ProductWhere)
    ensures w.categoryId.Some? <==> categoryId != ""
    ensures categoryId != "" ==> w.categoryId.value == categoryId
    ensures w.search.Some? <==> search != ""
    ensures search != "" ==> w.search.value == search
    // present-but-empty still filters; only the exact text "true" asks for stocked products
    ensures w.inStock.Some? <==> inStock.Some?
    ensures inStock.Some? ==> (w.inStock.value <==> inStock.value == "true")
  {
    ProductWhere(if categoryId != "" then Some(categoryId) else None,
                 if search != "" then Some(search) else None,
                 if inStock.Some? then Some(inStock.value == "true") else None)
  }

  /** A product `findMany` selects: the category matches, the search text
      occurs in the name or the description ignoring case, and the stock
      flag matches. */
  predicate Selects(w: ProductWhere, p: Product) {
    && (w.categoryId.Some? ==> p.categoryId == w.categoryId.value)
    && (w.search.Some? ==> Text.ContainsIgnoringCase(p.name, w.search.value)
                           || Text.ContainsIgnoringCase(p.description, w.search.value))
    && (w.inStock.Some? ==> p.inStock == w.inStock.value)
  }

  /** `GET /api/products`: the selected products in table order. */
  function ListProducts(shelf: Shelf, categoryId: string, search: string, inStock: Option<string>): (r: seq<Product>)
    ensures forall p :: p in r <==>
              && p in shelf.products
              && (categoryId != "" ==> p.categoryId == categoryId)
              && (search != "" ==> Text.ContainsIgnoringCase(p.name, search) || Text.ContainsIgnoringCase(p.description, search))
              && (inStock.Some? ==> (p.inStock <==> inStock.value == "true"))
    ensures |r| <= |shelf.products|
  {
    var w := BuildWhere(categoryId, search, inStock);
    Seqs.Filter(shelf.products, (p: Product) => Selects(w, p))
  }

  /** Any `inStock` value other than "true" (including "yes" or "") lists
      the same products as "false". */
  lemma OnlyTrueAsksForStock(shelf: Shelf, categoryId: string, search: string, value: string)
    requires value != "true"
    ensures ListProducts(shelf, categoryId, search, Some(value)) == ListProducts(shelf, categoryId, search, Some("false"))
  {
  }

  /** Without parameters the whole table is listed, in order. */
  lemma {:induction false} NoParametersListsAll(shelf: Shelf)
    ensures ListProducts(shelf, "", "", None) == shelf.products
  {
    var w := BuildWhere("", "", None);
    Seqs.FilterKeepsAll(shelf.products, (p: Product) => Selects(w, p));
  }

  /** A variation as the request body carries it; `price` is `None` when it
      is missing or not a number. */
  datatype VariationInput = VariationInput(name: string, kind: string, price: Option<int>)

  datatype ProductInput = ProductInput(
    name: string,
    description: string,
    basePrice: Option<int>,             // `None` when undefined
    categoryId: string,
    stock: string,                      // parsed with `parseInt`
    unit: string,
    inStock: Option<bool>,
    variations: seq<VariationInput>)

  datatype CreateBody = CreateUnauthorized | MissingRequired | CreateFailed | Created(product: Product)

  datatype CreateReply = CreateReply(status: int, body: CreateBody, shelf: Shelf)

  /** `parseInt(stock) || 0`. */
  function StockOf(stock: string): (n: int)
    ensures Text.ParseInt(stock).Some? ==> n == Text.ParseInt(stock).value
    ensures Text.ParseInt(stock).None? ==> n == 0
  {
    Text.ParseInt(stock).GetOr(0)
  }

  /** The row created for one variation of product `productId`. */
  function RowOf(v: VariationInput, productId: string): (row: VariationRow)
    ensures row.name == v.name && row.productId == productId
    ensures row.kind == (if v.kind != "" then v.kind else "Size")
    ensures row.price == (if v.price.Some? then v.price.value else 0)
  {
    VariationRow(v.name, if v.kind != "" then v.kind else "Size", v.price.GetOr(0), productId)
  }

  /** `POST /api/products`: an admin creates a product with defaults for
      stock (0), unit ("piece") and inStock (true), then one variation row
      per listed variation. A category id the table does not hold makes the
      create throw (500, nothing written). The reply carries the product
      with its category and without variations. */
  function CreateProduct(shelf: Shelf, session: Option<Session>, input: ProductInput, id: string, now: int): (r: CreateReply)
    ensures session.None? || session.value.role != Admin ==> r == CreateReply(401, CreateUnauthorized, shelf)
    ensures session.Some? && session.value.role == Admin
            && (input.name == "" || input.categoryId == "" || input.basePrice.None?) ==>
              r == CreateReply(400, MissingRequired, shelf)
    // past the two gates, the category decides: unknown is 500, known is 201
    ensures (session.Some? && session.value.role == Admin
             && input.name != "" && input.categoryId != "" && input.basePrice.Some?) ==>
              && (CategoryById(shelf.categories, input.categoryId).None? ==> r == CreateReply(500, CreateFailed, shelf))
              && (CategoryById(shelf.categories, input.categoryId).Some? ==> r.status == 201)
    ensures r.status != 201 ==> r.shelf == shelf
    ensures r.status in {201, 400, 401, 500}
    ensures r.status == 201 ==>
              && session.Some? && session.value.role == Admin
              && input.name != "" && input.categoryId != "" && input.basePrice.Some?
              && CategoryById(shelf.categories, input.categoryId).Some?
              && r.body.Created?
              && var p := r.body.product;
              && p.id == id && p.name == input.name && p.description == input.description
              && p.basePrice == input.basePrice.value && p.categoryId == input.categoryId
              && p.category == shelf.categories[CategoryById(shelf.categories, input.categoryId).value]
              && p.stock == StockOf(input.stock)
              && p.unit == (if input.unit != "" then input.unit else "piece")
              && p.inStock == input.inStock.GetOr(true)
              && p.variations == []
              && r.shelf.products == shelf.products + [p]
              && |r.shelf.variationRows| == |shelf.variationRows| + |input.variations|
              && r.shelf.variationRows[..|shelf.variationRows|] == shelf.variationRows
              && (forall k :: 0 <= k < |input.variations| ==>
                    r.shelf.variationRows[|shelf.variationRows| + k] == RowOf(input.variations[k], id))
              && r.shelf.categories == shelf.categories
  {
    if session.None? || session.value.role != Admin then CreateReply(401, CreateUnauthorized, shelf)
    else if input.name == "" || input.categoryId == "" || input.basePrice.None? then
      CreateReply(400, MissingRequired, shelf)
    else match CategoryById(shelf.categories, input.categoryId)
      case None => CreateReply(500, CreateFailed, shelf)
      case Some(c) =>
        var p := Product(id, input.name, input.description, input.basePrice.value, input.categoryId,
                         shelf.categories[c], StockOf(input.stock),
                         if input.unit != "" then input.unit else "piece",
                         input.inStock.GetOr(true), now, []);
        var rows := seq(|input.variations|, k requires 0 <= k < |input.variations| => RowOf(input.variations[k], id));
        CreateReply(201, Created(p),
                    shelf.(products := shelf.products + [p], variationRows := shelf.variationRows + rows))
  }

  /** A product created without stock, unit or inStock in the body is
      listed among the stocked products of its category. */
  lemma CreatedProductIsListed(shelf: Shelf, session: Session, input: ProductInput, id: string, now: int)
    requires CreateProduct(shelf, Some(session), input, id, now).status == 201
    requires input.inStock.None?
    ensures var r := CreateProduct(shelf, Some(session), input, id, now);
            r.body.product in ListProducts(r.shelf, input.categoryId, "", Some("true"))
    ensures input.stock == "" ==> CreateProduct(shelf, Some(session), input, id, now).body.product.stock == 0
  {
  }
}

=== FILE: register_page.dfy ===
/** The sign-up page: the password-strength score with its label, and the
    ordered checks that decide whether the registration request is sent
    and with what body. */
module RegisterPage {
  import opened Wrappers
  import Store
  import Accounts
  import Text

  /** `/\d/.test(password)`. */
  predicate HasDigit(password: string) {
    exists k :: 0 <= k < |password| && '0' <= password[k] <= '9'
  }

  /** `/[a-zA-Z]/.test(password)`. */
  predicate HasLetter(password: string) {
    exists k :: 0 <= k < |password| && (('a' <= password[k] <= 'z') || ('A' <= password[k] <= 'Z'))
  }

  function Count(b: bool): nat { if b then 1 else 0 }

  /** `passwordScore`: how many of the three rules the password meets. */
  function Score(password: string): (n: nat)
    ensures n <= 3
    ensures n == 3 <==> Text.Utf16Length(password) >= 6 && HasDigit(password) && HasLetter(password)
    ensures n == 0 <==> Text.Utf16Length(password) < 6 && !HasDigit(password) && !HasLetter(password)
  {
    Count(Text.Utf16Length(password) >= 6) + Count(HasDigit(password)) + Count(HasLetter(password))
  }

  /** Two emoji count as four code units, so "a1" followed by two emoji is
      six long and meets all three rules. */
  lemma EmojiPasswordScoresFull()
    ensures Score("a1\U{1F600}\U{1F600}") == 3
  {
    var p := "a1\U{1F600}\U{1F600}";
    Text.EmojiCountTwice();
    assert '0' <= p[1] <= '9';
    assert 'a' <= p[0] <= 'z';
  }

  /** The label next to the meter. */
  function Label(score: nat): (s: string)
    ensures score == 1 ==> s == "Weak"
    ensures score == 2 ==> s == "Fair"
    ensures score == 3 ==> s == "Strong"
    ensures score == 0 || score > 3 ==> s == ""
  {
    if score == 1 then "Weak" else if score == 2 then "Fair" else if score == 3 then "Strong" else ""
  }

  datatype SignUpForm = SignUpForm(name: string, email: string, phone: string, password: string, confirmPassword: string)

  /** The JSON body of the request: no `confirmPassword`. */
  datatype RegisterRequest = RegisterRequest(name: string, email: string, phone: string, password: string)

  /** Where `handleSubmit` stops, in the order it checks. */
  datatype SubmitOutcome = PasswordsDiffer | TooWeak | TermsNotAccepted | Send(request: RegisterRequest)

  function Submit(form: SignUpForm, acceptTerms: bool): (r: SubmitOutcome)
    ensures form.password != form.confirmPassword ==> r == PasswordsDiffer
    ensures form.password == form.confirmPassword && Score(form.password) < 3 ==> r == TooWeak
    ensures r.Send? <==> form.password == form.confirmPassword && Score(form.password) == 3 && acceptTerms
    ensures r.Send? ==> r.request == RegisterRequest(form.name, form.email, form.phone, form.password)
  {
    if form.password != form.confirmPassword then PasswordsDiffer
    else if Score(form.password) < 3 then TooWeak
    else if !acceptTerms then TermsNotAccepted
    else Send(RegisterRequest(form.name, form.email, form.phone, form.password))
  }

  /** The meter and the submit check agree: once the passwords match and
      the terms are accepted, the request is sent exactly when the label
      shown under the password reads "Strong". */
  lemma StrongLabelIffSent(form: SignUpForm, acceptTerms: bool)
    requires form.password == form.confirmPassword && acceptTerms
    ensures Label(Score(form.password)) == "Strong" <==> Submit(form, acceptTerms).Send?
  {
  }

  /** A request the page sends always passes the registration route's
      password checks: the route never answers that the password is
      missing or shorter than six UTF-16 code units. */
  lemma SentPasswordPassesRoute(form: SignUpForm, acceptTerms: bool, db: Store.Db, dbAvailable: bool,
                                hash: string -> string, rand: real, id: string, referralCode: string,
                                now: int, emailSent: bool)
    requires Submit(form, acceptTerms).Send?
    requires form.name != "" && form.email != "" && form.phone != ""
    requires 0.0 <= rand < 1.0
    ensures var q := Submit(form, acceptTerms).request;
            var r := Accounts.Register(db, dbAvailable, q.name, q.email, q.phone, q.password, hash, rand, id,
                                       referralCode, now, emailSent);
            r.body != Accounts.MissingFields && r.body != Accounts.PasswordTooShort
  {
  }
}

=== FILE: routing.dfy ===
/** Route protection: the `withAuth` middleware (its `authorized` callback
    and its redirect function) and the auth-error redirect route.

    `withAuth` first asks `authorized`; a request it refuses is sent to the
    sign-in page before the redirect function runs. */
module Routing {
  import opened Wrappers
  import Text

  /** Path prefixes anyone may visit; "/" is public as an exact path. */
  const PUBLIC_PREFIXES: seq<string> := ["/api/auth", "/marketplace", "/auth", "/terms", "/privacy", "/help"]

  predicate HasPublicPrefix(path: string) {
    exists i :: 0 <= i < |PUBLIC_PREFIXES| && Text.StartsWith(path, PUBLIC_PREFIXES[i])
  }

  /** The `authorized` callback. */
  function Authorized(path: string, hasToken: bool): (r: bool)
    ensures HasPublicPrefix(path) || path == "/" ==> r
    ensures !HasPublicPrefix(path) && path != "/" ==> (r <==> hasToken)
  {
    if Text.StartsWith(path, "/api/auth") || path == "/" || Text.StartsWith(path, "/marketplace")
       || Text.StartsWith(path, "/auth") || Text.StartsWith(path, "/terms")
       || Text.StartsWith(path, "/privacy") || Text.StartsWith(path, "/help")
    then
      assert HasPublicPrefix(path) || path == "/" by {
        if Text.StartsWith(path, "/api/auth") { assert Text.StartsWith(path, PUBLIC_PREFIXES[0]); }
        else if Text.StartsWith(path, "/marketplace") { assert Text.StartsWith(path, PUBLIC_PREFIXES[1]); }
        else if Text.StartsWith(path, "/auth") { assert Text.StartsWith(path, PUBLIC_PREFIXES[2]); }
        else if Text.StartsWith(path, "/terms") { assert Text.StartsWith(path, PUBLIC_PREFIXES[3]); }
        else if Text.StartsWith(path, "/privacy") { assert Text.StartsWith(path, PUBLIC_PREFIXES[4]); }
        else if Text.StartsWith(path, "/help") { assert Text.StartsWith(path, PUBLIC_PREFIXES[5]); }
      }
      true
    else hasToken
  }

  datatype Outcome = Next | Redirect(target: string) | SignInRequired

  /** The redirect function `withAuth` wraps. */
  function Middleware(path: string, hasToken: bool): (r: Outcome)
    ensures Text.StartsWith(path, "/dashboard") && !hasToken ==> r == Redirect("/auth/login")
    ensures Text.StartsWith(path, "/auth") && hasToken ==> r == Redirect("/dashboard")
    ensures !r.SignInRequired?
    ensures r == Next <==> !(Text.StartsWith(path, "/dashboard") && !hasToken) && !(Text.StartsWith(path, "/auth") && hasToken)
  {
    if Text.StartsWith(path, "/dashboard") && !hasToken then Redirect("/auth/login")
    else if Text.StartsWith(path, "/auth") && hasToken then Redirect("/dashboard")
    else Next
  }

  /** A path the `config.matcher` patterns `/dashboard/:path*`,
      `/auth/:path*` and `/api/:path*` select: the base itself or anything
      below it. */
  predicate Matched(path: string) {
    || path == "/dashboard" || Text.StartsWith(path, "/dashboard/")
    || path == "/auth" || Text.StartsWith(path, "/auth/")
    || path == "/api" || Text.StartsWith(path, "/api/")
  }

  /** One request through the middleware as deployed. */
  function Guard(path: string, hasToken: bool): (r: Outcome)
    ensures !Matched(path) ==> r == Next
    ensures Matched(path) && !Authorized(path, hasToken) ==> r == SignInRequired
    ensures Matched(path) && Authorized(path, hasToken) ==> r == Middleware(path, hasToken)
  {
    if !Matched(path) then Next
    else if !Authorized(path, hasToken) then SignInRequired
    else Middleware(path, hasToken)
  }

  /** A dashboard page without a token never reaches the redirect function:
      `authorized` already refused it, so its own "/auth/login" redirect
      for that case cannot fire. */
  lemma DashboardGuardIsShadowed(path: string)
    requires Matched(path) && Text.StartsWith(path, "/dashboard")
    ensures Guard(path, false) == SignInRequired
  {
    assert path[..|"/dashboard"|] == "/dashboard";
    forall i | 0 <= i < |PUBLIC_PREFIXES|
      ensures !Text.StartsWith(path, PUBLIC_PREFIXES[i])
    {
      assert path[1] == 'd';
      assert |PUBLIC_PREFIXES[i]| >= 2 && PUBLIC_PREFIXES[i][1] != 'd';
    }
  }

  /** A signed-in visitor to a sign-in or registration page is sent to the
      dashboard. */
  lemma SignedInAuthPagesRedirect(path: string)
    requires Text.StartsWith(path, "/auth/")
    ensures Guard(path, true) == Redirect("/dashboard")
  {
  }

  /** Every page a signed-in visitor requests is let through or redirected
      to the dashboard; sign-in is never demanded. */
  lemma TokenIsNeverAskedToSignIn(path: string)
    ensures Guard(path, true) != SignInRequired
  {
  }

  // ---------------------------------------------------------------------
  // The auth-error redirect

  /** A redirect URL: a path and its query parameters in insertion order. */
  datatype Url = Url(path: string, query: seq<(string, string)>)

  /** `searchParams.get(key)`: the value of the first entry with the key. */
  function QueryGet(query: seq<(string, string)>, key: string): (r: Option<string>)
    ensures r.Some? ==> (key, r.value) in query
    ensures r.None? <==> forall i :: 0 <= i < |query| ==> query[i].0 != key
  {
    if query == [] then None
    else if query[0].0 == key then Some(query[0].1)
    else QueryGet(query[1..], key)
  }

  /** A present, non-empty parameter; `None` for absent or "" (both falsy). */
  function Truthy(v: Option<string>): Option<string> {
    if v.Some? && v.value != "" then v else None
  }

  /** `GET /api/auth/error`: back to the login page, passing the error and
      its description on when they are present and non-empty. */
  function AuthErrorRedirect(error: Option<string>, description: Option<string>): (u: Url)
    ensures u.path == "/auth/login"
    // the login page reads back exactly the non-empty values it was sent
    ensures QueryGet(u.query, "auth_error") == Truthy(error)
    ensures QueryGet(u.query, "auth_error_description") == Truthy(description)
    // no other parameter, and each at most once
    ensures forall i :: 0 <= i < |u.query| ==> u.query[i].0 in {"auth_error", "auth_error_description"}
    ensures forall i, j :: 0 <= i < j < |u.query| ==> u.query[i].0 != u.query[j].0
  {
    var withError := if error.Some? && error.value != "" then [("auth_error", error.value)] else [];
    var withDescription := if description.Some? && description.value != ""
                           then [("auth_error_description", description.value)] else [];
    Url("/auth/login", withError + withDescription)
  }

  /** An error without a description passes exactly one parameter, and a
      request with neither leaves the login URL bare. */
  lemma AuthErrorParameters(error: string)
    requires error != ""
    ensures AuthErrorRedirect(Some(error), None).query == [("auth_error", error)]
    ensures AuthErrorRedirect(None, Some("")).query == []
  {
  }
}

=== FILE: seqs.dfy ===
/** Sequence operations that the storefront performs through JavaScript's
    `Array.prototype.filter`, `find`/`findIndex`, `some` and `reduce`. */
module Seqs {
  import opened Wrappers

  /** `r` can be obtained from `s` by deleting elements: its elements occur
      in `s` in the same order. */
  predicate SubsequenceOf<T(==)>(r: seq<T>, s: seq<T>)
    decreases |s|
  {
    if r == [] then true
    else if s == [] then false
    else (r[0] == s[0] && SubsequenceOf(r[1..], s[1..])) || SubsequenceOf(r, s[1..])
  }

  /** `r` keeps, in order, every occurrence in `s` of an element satisfying
      `p` and nothing else. */
  ghost predicate IsFilter<T(!new)>(r: seq<T>, s: seq<T>, p: T -> bool) {
    && SubsequenceOf(r, s)
    && forall x :: multiset(r)[x] == if p(x) then multiset(s)[x] else 0
  }

  /** Subsequences compose. */
  lemma {:induction false} SubsequenceTransitive<T>(a: seq<T>, b: seq<T>, c: seq<T>)
    requires SubsequenceOf(a, b) && SubsequenceOf(b, c)
    ensures SubsequenceOf(a, c)
    decreases |c|
  {
    if a != [] {
      if b[0] == c[0] && SubsequenceOf(b[1..], c[1..]) {
        if a[0] == b[0] && SubsequenceOf(a[1..], b[1..]) {
          SubsequenceTransitive(a[1..], b[1..], c[1..]);
        } else {
          SubsequenceTransitive(a, b[1..], c[1..]);
        }
      } else {
        SubsequenceTransitive(a, b, c[1..]);
      }
    }
  }

  lemma {:induction false} SubsequenceReflexive<T>(s: seq<T>)
    ensures SubsequenceOf(s, s)
  {
    if s != [] {
      SubsequenceReflexive(s[1..]);
    }
  }

  /** A test that passes everything keeps the whole list. */
  lemma IsFilterOfAll<T(!new)>(s: seq<T>, p: T -> bool)
    requires forall x :: p(x)
    ensures IsFilter(s, s, p)
  {
    SubsequenceReflexive(s);
  }

  /** Filtering by `q` and then by `p` filters by both. */
  lemma IsFilterCompose<T(!new)>(a: seq<T>, b: seq<T>, c: seq<T>, q: T -> bool, p: T -> bool, both: T -> bool)
    requires IsFilter(b, a, q) && IsFilter(c, b, p)
    requires forall x :: both(x) == (q(x) && p(x))
    ensures IsFilter(c, a, both)
  {
    SubsequenceTransitive(c, b, a);
  }

  /** `xs.filter(p)`: the elements satisfying `p`, in their original order. */
  function Filter<T(!new)>(s: seq<T>, p: T -> bool): (r: seq<T>)
    ensures |r| <= |s|
    ensures forall i :: 0 <= i < |r| ==> p(r[i])
    ensures forall x :: x in r <==> x in s && p(x)
  {
    if s == [] then []
    else if p(s[0]) then [s[0]] + Filter(s[1..], p)
    else Filter(s[1..], p)
  }

  /** `Filter` keeps exactly the occurrences satisfying `p`, in order. */
  lemma {:induction false} FilterIsFilter<T(!new)>(s: seq<T>, p: T -> bool)
    ensures IsFilter(Filter(s, p), s, p)
  {
    if s != [] {
      FilterIsFilter(s[1..], p);
      assert s == [s[0]] + s[1..];
      var rest := Filter(s[1..], p);
      if p(s[0]) {
        assert ([s[0]] + rest)[1..] == rest;
      }
    }
  }

  /** Filtering distributes over concatenation: this, with `FilterSingleton`,
      pins down that `Filter` keeps the survivors in their original order. */
  lemma {:induction false} FilterAppend<T(!new)>(a: seq<T>, b: seq<T>, p: T -> bool)
    ensures Filter(a + b, p) == Filter(a, p) + Filter(b, p)
  {
    if a == [] {
      assert a + b == b;
    } else {
      assert (a + b)[0] == a[0];
      assert (a + b)[1..] == a[1..] + b;
      FilterAppend(a[1..], b, p);
    }
  }

  lemma FilterSingleton<T(!new)>(x: T, p: T -> bool)
    ensures Filter([x], p) == if p(x) then [x] else []
  {
  }

  /** A filter that rejects nothing is the identity. */
  lemma {:induction false} FilterKeepsAll<T(!new)>(s: seq<T>, p: T -> bool)
    requires forall i :: 0 <= i < |s| ==> p(s[i])
    ensures Filter(s, p) == s
  {
    if s != [] {
      FilterKeepsAll(s[1..], p);
    }
  }

  /** A filter that accepts nothing yields the empty list. */
  lemma {:induction false} FilterDropsAll<T(!new)>(s: seq<T>, p: T -> bool)
    requires forall i :: 0 <= i < |s| ==> !p(s[i])
    ensures Filter(s, p) == []
  {
    if s != [] {
      FilterDropsAll(s[1..], p);
    }
  }

  /** Filtering by `p` and by its negation splits the list: the two counts
      add up to its length. */
  lemma {:induction false} FilterComplementCount<T(!new)>(s: seq<T>, p: T -> bool, q: T -> bool)
    requires forall x :: q(x) == !p(x)
    ensures |Filter(s, p)| + |Filter(s, q)| == |s|
  {
    if s != [] {
      FilterComplementCount(s[1..], p, q);
    }
  }

  /** `xs.findIndex(p)`, with -1 represented as `None`: the first position
      whose element satisfies `p`. */
  function FindFirst<T>(s: seq<T>, p: T -> bool): (r: Option<nat>)
    ensures r.Some? ==> r.value < |s| && p(s[r.value])
    ensures r.Some? ==> forall j :: 0 <= j < r.value ==> !p(s[j])
    ensures r.None? <==> forall j :: 0 <= j < |s| ==> !p(s[j])
  {
    if s == [] then None
    else if p(s[0]) then Some(0)
    else match FindFirst(s[1..], p)
      case None => None
      case Some(k) => Some(k + 1)
  }

  /** `xs.some(p)`. */
  function Exists<T>(s: seq<T>, p: T -> bool): (r: bool)
    ensures r <==> exists i :: 0 <= i < |s| && p(s[i])
  {
    FindFirst(s, p).Some?
  }

  /** `xs.reduce((sum, x) => sum + f(x), 0)`. */
  function Sum<T>(s: seq<T>, f: T -> int): int
  {
    if s == [] then 0 else f(s[0]) + Sum(s[1..], f)
  }

  lemma {:induction false} SumAppend<T>(a: seq<T>, b: seq<T>, f: T -> int)
    ensures Sum(a + b, f) == Sum(a, f) + Sum(b, f)
  {
    if a == [] {
      assert a + b == b;
    } else {
      assert (a + b)[0] == a[0];
      assert (a + b)[1..] == a[1..] + b;
      SumAppend(a[1..], b, f);
    }
  }

  /** Replacing one element changes the sum by exactly the difference of
      the two contributions. */
  lemma {:induction false} SumUpdate<T>(s: seq<T>, i: nat, x: T, f: T -> int)
    requires i < |s|
    ensures Sum(s[i := x], f) == Sum(s, f) - f(s[i]) + f(x)
  {
    if i == 0 {
      assert s[i := x][1..] == s[1..];
    } else {
      assert s[i := x][1..] == s[1..][i - 1 := x];
      SumUpdate(s[1..], i - 1, x, f);
    }
  }

  /** A sum of non-negative contributions is non-negative. */
  lemma {:induction false} SumOfNonNegative<T>(s: seq<T>, f: T -> int)
    requires forall i :: 0 <= i < |s| ==> f(s[i]) >= 0
    ensures Sum(s, f) >= 0
  {
    if s != [] {
      SumOfNonNegative(s[1..], f);
    }
  }

  /** Splitting a list by `p` and its negation splits its sum. */
  lemma {:induction false} SumFilterComplement<T(!new)>(s: seq<T>, p: T -> bool, q: T -> bool, f: T -> int)
    requires forall x :: q(x) == !p(x)
    ensures Sum(Filter(s, p), f) + Sum(Filter(s, q), f) == Sum(s, f)
  {
    if s != [] {
      SumFilterComplement(s[1..], p, q, f);
    }
  }

  /** `xs.filter((_, j) => j !== i)`: the list without position `i`; an
      index outside the list removes nothing. */
  function RemoveAt<T>(s: seq<T>, i: int): (r: seq<T>)
    ensures 0 <= i < |s| ==> |r| == |s| - 1
    ensures 0 <= i < |s| ==> forall j :: 0 <= j < i ==> r[j] == s[j]
    ensures 0 <= i < |s| ==> forall j :: i <= j < |r| ==> r[j] == s[j + 1]
    ensures !(0 <= i < |s|) ==> r == s
  {
    if 0 <= i < |s| then s[..i] + s[i + 1..] else s
  }

  /** The position of the first occurrence of `x` in `s`. */
  function IndexOf<T(==)>(s: seq<T>, x: T): (r: nat)
    requires x in s
    ensures r < |s| && s[r] == x
    ensures forall j :: 0 <= j < r ==> s[j] != x
  {
    if s[0] == x then 0 else 1 + IndexOf(s[1..], x)
  }

  /** A first occurrence in a prefix is the first occurrence in the whole. */
  lemma IndexOfPrefix<T>(s: seq<T>, n: nat, x: T)
    requires n <= |s| && x in s[..n]
    ensures IndexOf(s[..n], x) == IndexOf(s, x)
  {
  }

  /** The elements without repetitions, each kept at its first occurrence
      (`[...new Set(xs)]`). */
  function Distinct<T(==,!new)>(s: seq<T>): (r: seq<T>)
    ensures forall x :: x in r <==> x in s
    ensures forall i, j :: 0 <= i < j < |r| ==> r[i] != r[j]
    // the survivors appear in the order of their first occurrences
    ensures forall i, j :: 0 <= i < j < |r| ==> IndexOf(s, r[i]) < IndexOf(s, r[j])
  {
    if s == [] then []
    else
      var n := |s| - 1;
      var rest := Distinct(s[..n]);
      assert forall x :: x in s <==> x in s[..n] || x == s[n];
      forall x | x in rest
        ensures IndexOf(s, x) == IndexOf(s[..n], x) < n
      {
        IndexOfPrefix(s, n, x);
      }
      if s[n] in rest then rest
      else
        assert IndexOf(s, s[n]) == n;
        rest + [s[n]]
  }
}

=== FILE: simple_cart.dfy ===
/** The cart store of `src/lib/cart-store.ts`: lines identified by `id`
    alone, no stock cap, and totals computed on demand. Prices are whole
    naira. */
module SimpleCart {
  import opened Wrappers
  import Seqs

  datatype Line = Line(id: string, name: string, price: int, image: string, quantity: int, unit: string)

  function Quantity(l: Line): int { l.quantity }

  function LineTotal(l: Line): int { l.price * l.quantity }

  /** `getTotalItems()`: the sum of the quantities. */
  function TotalItems(items: seq<Line>): (n: int)
    ensures items == [] ==> n == 0
    ensures (forall i :: 0 <= i < |items| ==> items[i].quantity >= 0) ==> n >= 0
  {
    if forall i :: 0 <= i < |items| ==> items[i].quantity >= 0 then
      Seqs.SumOfNonNegative(items, Quantity);
      Seqs.Sum(items, Quantity)
    else Seqs.Sum(items, Quantity)
  }

  /** `getTotalPrice()`: the sum of price times quantity over the lines. */
  function TotalPrice(items: seq<Line>): (n: int)
    ensures items == [] ==> n == 0
    ensures (forall i :: 0 <= i < |items| ==> items[i].price >= 0 && items[i].quantity >= 0) ==> n >= 0
  {
    if forall i :: 0 <= i < |items| ==> items[i].price >= 0 && items[i].quantity >= 0 then
      Seqs.SumOfNonNegative(items, LineTotal);
      Seqs.Sum(items, LineTotal)
    else Seqs.Sum(items, LineTotal)
  }

  /** No two lines share an id; every action below keeps it so. */
  predicate UniqueIds(items: seq<Line>) {
    forall i, j :: 0 <= i < j < |items| ==> items[i].id != items[j].id
  }

  function IndexOf(items: seq<Line>, id: string): (r: Option<nat>)
    ensures r.Some? ==> r.value < |items| && items[r.value].id == id
    ensures r.None? <==> forall i :: 0 <= i < |items| ==> items[i].id != id
  {
    Seqs.FindFirst(items, (l: Line) => l.id == id)
  }

  /** `items.map(l => l.id === id ? { ...l, quantity: q } : l)`. */
  function SetQuantity(items: seq<Line>, id: string, q: int): (r: seq<Line>)
    ensures |r| == |items|
    ensures forall i :: 0 <= i < |items| ==> r[i] == if items[i].id == id then items[i].(quantity := q) else items[i]
  {
    seq(|items|, i requires 0 <= i < |items| => if items[i].id == id then items[i].(quantity := q) else items[i])
  }

  /** `addItem(item)`: a line with the same id gets the first such line's
      quantity plus `quantity || 1` (its own price and name stay); otherwise
      the item is appended with quantity `quantity || 1`. */
  function AddItem(items: seq<Line>, item: Line, quantity: Option<int>): (r: seq<Line>)
    ensures IndexOf(items, item.id).Some? ==>
              r == SetQuantity(items, item.id, items[IndexOf(items, item.id).value].quantity + OrOne(quantity))
    ensures IndexOf(items, item.id).None? ==> r == items + [item.(quantity := OrOne(quantity))]
    ensures |r| == |items| || |r| == |items| + 1
  {
    match IndexOf(items, item.id)
    case Some(k) => SetQuantity(items, item.id, items[k].quantity + OrOne(quantity))
    case None => items + [item.(quantity := OrOne(quantity))]
  }

  /** `removeItem(id)`. */
  function RemoveItem(items: seq<Line>, id: string): (r: seq<Line>)
    ensures r == Seqs.Filter(items, (l: Line) => l.id != id)
    ensures forall i :: 0 <= i < |r| ==> r[i].id != id
    ensures forall l :: l in items && l.id != id ==> l in r
  {
    Seqs.Filter(items, (l: Line) => l.id != id)
  }

  /** `updateQuantity(id, q)`: zero or less removes the line, anything else
      is stored as given. */
  function UpdateQuantity(items: seq<Line>, id: string, q: int): (r: seq<Line>)
    ensures q <= 0 ==> r == RemoveItem(items, id)
    ensures q > 0 ==> r == SetQuantity(items, id, q)
  {
    if q <= 0 then RemoveItem(items, id) else SetQuantity(items, id, q)
  }

  function ClearCart(items: seq<Line>): (r: seq<Line>)
    ensures r == [] && TotalItems(r) == 0 && TotalPrice(r) == 0
  {
    []
  }

  /** `getItemQuantity(id)`: `item?.quantity || 0`. */
  function GetItemQuantity(items: seq<Line>, id: string): (r: int)
    ensures IndexOf(items, id).None? ==> r == 0
    ensures IndexOf(items, id).Some? ==> r == items[IndexOf(items, id).value].quantity
  {
    match IndexOf(items, id)
    case None => 0
    case Some(k) => items[k].quantity
  }

  /** With unique ids, rewriting the quantity of every line with the id is
      rewriting the one line found. */
  lemma SetQuantityOfUnique(items: seq<Line>, k: nat, q: int)
    requires UniqueIds(items) && k < |items|
    ensures SetQuantity(items, items[k].id, q) == items[k := items[k].(quantity := q)]
  {
  }

  /** Every action keeps the ids unique. */
  lemma {:induction false} ActionsKeepIdsUnique(items: seq<Line>, item: Line, quantity: Option<int>, id: string, q: int)
    requires UniqueIds(items)
    ensures UniqueIds(AddItem(items, item, quantity))
    ensures UniqueIds(UpdateQuantity(items, id, q))
    ensures UniqueIds(RemoveItem(items, id))
  {
    FilterKeepsUnique(items, (l: Line) => l.id != id);
  }

  lemma {:induction false} FilterKeepsUnique(items: seq<Line>, p: Line -> bool)
    requires UniqueIds(items)
    ensures UniqueIds(Seqs.Filter(items, p))
  {
    if items != [] {
      FilterKeepsUnique(items[1..], p);
      var rest := Seqs.Filter(items[1..], p);
      forall l | l in rest
        ensures l.id != items[0].id
      {
        assert l in items[1..];
      }
    }
  }

  /** Adding to a cart with unique ids raises the item count by exactly
      `quantity || 1` and the price total by that many units of the price
      already in the cart, or of the new item's price for a new line. */
  lemma {:induction false} AddItemTotals(items: seq<Line>, item: Line, quantity: Option<int>)
    requires UniqueIds(items)
    ensures var r := AddItem(items, item, quantity);
            var price := if IndexOf(items, item.id).Some? then items[IndexOf(items, item.id).value].price else item.price;
            && TotalItems(r) == TotalItems(items) + OrOne(quantity)
            && TotalPrice(r) == TotalPrice(items) + price * OrOne(quantity)
  {
    match IndexOf(items, item.id)
    case Some(k) =>
      var n := items[k].quantity + OrOne(quantity);
      SetQuantityOfUnique(items, k, n);
      Seqs.SumUpdate(items, k, items[k].(quantity := n), Quantity);
      Seqs.SumUpdate(items, k, items[k].(quantity := n), LineTotal);
      assert LineTotal(items[k].(quantity := n)) - LineTotal(items[k]) == items[k].price * OrOne(quantity);
    case None =>
      Seqs.SumAppend(items, [item.(quantity := OrOne(quantity))], Quantity);
      Seqs.SumAppend(items, [item.(quantity := OrOne(quantity))], LineTotal);
  }

  /** Removing an id takes exactly that line's contribution off both
      totals (nothing, when it is absent). */
  lemma {:induction false} RemoveItemTotals(items: seq<Line>, id: string)
    requires UniqueIds(items)
    ensures var r := RemoveItem(items, id);
            && (IndexOf(items, id).None? ==> r == items)
            && (IndexOf(items, id).Some? ==>
                  var l := items[IndexOf(items, id).value];
                  TotalItems(r) == TotalItems(items) - l.quantity && TotalPrice(r) == TotalPrice(items) - LineTotal(l))
  {
    var keep := (l: Line) => l.id != id;
    var drop := (l: Line) => l.id == id;
    Seqs.SumFilterComplement(items, keep, drop, Quantity);
    Seqs.SumFilterComplement(items, keep, drop, LineTotal);
    match IndexOf(items, id)
    case None =>
      Seqs.FilterKeepsAll(items, keep);
    case Some(k) =>
      OnlyLineWithId(items, id, k);
      assert Seqs.Sum([items[k]], Quantity) == items[k].quantity;
      assert Seqs.Sum([items[k]], LineTotal) == LineTotal(items[k]);
  }

  /** With unique ids, the lines carrying the id of line `k` are just that
      line. */
  lemma {:induction false} OnlyLineWithId(items: seq<Line>, id: string, k: nat)
    requires UniqueIds(items) && k < |items| && items[k].id == id
    ensures Seqs.Filter(items, (l: Line) => l.id == id) == [items[k]]
  {
    if k == 0 {
      Seqs.FilterDropsAll(items[1..], (l: Line) => l.id == id);
    } else {
      OnlyLineWithId(items[1..], id, k - 1);
    }
  }

  /** After `addItem` the id is in the cart and `getItemQuantity` reports
      the new quantity. */
  lemma AddThenGet(items: seq<Line>, item: Line, quantity: Option<int>)
    requires UniqueIds(items)
    ensures var r := AddItem(items, item, quantity);
            GetItemQuantity(r, item.id)
              == (if IndexOf(items, item.id).Some? then items[IndexOf(items, item.id).value].quantity else 0)
                 + OrOne(quantity)
  {
    var r := AddItem(items, item, quantity);
    match IndexOf(items, item.id)
    case Some(k) =>
      SetQuantityOfUnique(items, k, items[k].quantity + OrOne(quantity));
      assert IndexOf(r, item.id) == Some(k);
    case None =>
      assert r[|items|].id == item.id;
      assert forall i :: 0 <= i < |items| ==> r[i].id != item.id;
  }
}

=== FILE: store.dfy ===
/** The database the route handlers read and write, as an immutable record
    of tables, and the session every authenticated handler receives.

    Users and orders are ordered tables searched front to back, which is how
    `findFirst` and `findUnique` are modelled. Payments are keyed by their
    `transactionId`, the unique column the payment upsert relies on. Rewards,
    notifications and wallet transactions are append-only logs. */
module Store {
  import opened Wrappers
  import Seqs

  datatype Role = Customer | Admin

  /** `Order.paymentStatus` and `Payment.status`. */
  datatype PaymentStatus = PaymentPending | PaymentCompleted | PaymentFailed

  /** The `Order.status` values the payment handlers write; the admin route
      may write any other status string. */
  const PENDING: string := "PENDING"
  const CONFIRMED: string := "CONFIRMED"
  const CANCELLED: string := "CANCELLED"

  datatype User = User(
    id: string,
    email: string,
    name: string,
    phone: string,
    password: Option<string>,           // bcrypt hash
    role: Role,
    walletBalance: int,                 // naira
    points: int,
    referralCode: string,
    referralCount: nat,                 // size of the `referrals` relation
    emailVerified: Option<int>,         // time of verification
    emailVerificationToken: Option<string>,
    resetToken: Option<string>,
    resetTokenExpiry: Option<int>)      // also the verification code's expiry

  datatype Order = Order(
    id: string,
    userId: string,
    status: string,
    paymentStatus: PaymentStatus,
    transactionId: Option<string>,      // the gateway reference
    paymentMethod: string,
    finalAmount: int)                   // naira

  /** The gateway's transaction object, as a webhook's `data` or the
      `data` of a verification response; amounts are in kobo. */
  datatype Transaction = Transaction(
    reference: string,
    amountKobo: int,
    status: string,
    paidAt: string)

  datatype Payment = Payment(
    orderId: string,
    userId: string,
    amount: real,                       // naira, `amountKobo / 100`
    currency: string,
    paymentMethod: string,
    status: PaymentStatus,
    transactionId: string,
    gatewayResponse: Transaction)

  datatype RewardKind = Purchase | Funding

  datatype Reward = Reward(userId: string, points: int, kind: RewardKind, orderId: Option<string>)

  datatype NotificationKind = PaymentNotice | WalletNotice | OrderNotice

  datatype Notification = Notification(userId: string, title: string, kind: NotificationKind, orderId: Option<string>)

  datatype LedgerKind = Credit | Debit

  datatype WalletTransaction = WalletTransaction(
    userId: string,
    kind: LedgerKind,
    amount: int,
    paymentMethod: string,
    completed: bool,
    reference: string)

  datatype Db = Db(
    users: seq<User>,
    orders: seq<Order>,
    payments: map<string, Payment>,
    rewards: seq<Reward>,
    notifications: seq<Notification>,
    walletTransactions: seq<WalletTransaction>)

  /** The authenticated caller, as `getServerSession` returns it. */
  datatype Session = Session(userId: string, email: string, role: Role)

  /** What a route handler answers and the database it leaves behind. */
  datatype Reply<B> = Reply(status: int, body: B, db: Db)

  /** A gateway amount in kobo, as naira (`amount / 100`). */
  function KoboToNaira(kobo: int): (r: real)
    ensures r * 100.0 == kobo as real
  {
    kobo as real / 100.0
  }

  /** `prisma.user.findUnique({ where: { id } })`. */
  function UserById(users: seq<User>, id: string): (r: Option<nat>)
    ensures r.Some? ==> r.value < |users| && users[r.value].id == id
    ensures r.None? <==> forall j :: 0 <= j < |users| ==> users[j].id != id
  {
    Seqs.FindFirst(users, (u: User) => u.id == id)
  }

  /** `prisma.user.findUnique({ where: { email } })`. */
  function UserByEmail(users: seq<User>, email: string): (r: Option<nat>)
    ensures r.Some? ==> r.value < |users| && users[r.value].email == email
    ensures r.None? <==> forall j :: 0 <= j < |users| ==> users[j].email != email
  {
    Seqs.FindFirst(users, (u: User) => u.email == email)
  }
}

=== FILE: text.dfy ===
/** The JavaScript string operations the storefront relies on: `\s`,
    `toLowerCase`/`toUpperCase` (ASCII letters), `includes`, `startsWith`,
    `split`/`join` on one character, `trim`, and `parseInt` without a radix
    and `parseFloat` on plain numerals. */
module Text {
  import opened Wrappers
  import Seqs

  /** The characters JavaScript's `\s` and `String.prototype.trim` treat as
      white space (WhiteSpace and LineTerminator of ECMA-262). */
  predicate IsSpace(c: char) {
    || c == ' ' || c == '\t' || c == '\n' || c == '\r' || c == '\U{0B}' || c == '\U{0C}'
    || c == '\U{A0}' || c == '\U{1680}' || ('\U{2000}' <= c <= '\U{200A}')
    || c == '\U{2028}' || c == '\U{2029}' || c == '\U{202F}' || c == '\U{205F}'
    || c == '\U{3000}' || c == '\U{FEFF}'
  }

  /** `\d`: an ASCII decimal digit. */
  predicate IsDigit(c: char) {
    '0' <= c <= '9'
  }

  /** `[a-zA-Z]`. */
  predicate IsLetter(c: char) {
    ('a' <= c <= 'z') || ('A' <= c <= 'Z')
  }

  function Lower(c: char): char {
    if 'A' <= c <= 'Z' then (c as int - 'A' as int + 'a' as int) as char else c
  }

  function Upper(c: char): char {
    if 'a' <= c <= 'z' then (c as int - 'a' as int + 'A' as int) as char else c
  }

  /** `s.toLowerCase()`, restricted to ASCII letters. */
  function LowerStr(s: string): (r: string)
    ensures |r| == |s|
    ensures forall i :: 0 <= i < |s| ==> r[i] == Lower(s[i])
  {
    seq(|s|, i requires 0 <= i < |s| => Lower(s[i]))
  }

  /** `s.toUpperCase()`, restricted to ASCII letters. */
  function UpperStr(s: string): (r: string)
    ensures |r| == |s|
    ensures forall i :: 0 <= i < |s| ==> r[i] == Upper(s[i])
  {
    seq(|s|, i requires 0 <= i < |s| => Upper(s[i]))
  }

  /** Lower-casing twice is lower-casing once. */
  lemma LowerStrIdempotent(s: string)
    ensures LowerStr(LowerStr(s)) == LowerStr(s)
  {
  }

  /** `s.startsWith(p)`. */
  predicate StartsWith(s: string, p: string) {
    p <= s
  }

  /** `t` occurs in `s` starting at offset `i`. */
  predicate OccursAt(s: string, t: string, i: int) {
    0 <= i && i + |t| <= |s| && s[i..i + |t|] == t
  }

  /** `s.includes(t)`: `t` occurs in `s` at some offset. */
  function Contains(s: string, t: string): (r: bool)
    ensures r <==> exists i :: OccursAt(s, t, i)
    decreases |s|
  {
    if t <= s then
      assert OccursAt(s, t, 0);
      true
    else if |s| == 0 then false
    else
      var r := Contains(s[1..], t);
      assert r ==> exists i :: OccursAt(s, t, i) by {
        if r {
          var k :| OccursAt(s[1..], t, k);
          assert s[1..][k..k + |t|] == s[k + 1..k + 1 + |t|];
          assert OccursAt(s, t, k + 1);
        }
      }
      assert (exists i :: OccursAt(s, t, i)) ==> r by {
        if exists i :: OccursAt(s, t, i) {
          var k :| OccursAt(s, t, k);
          assert k != 0;
          assert s[1..][k - 1..k - 1 + |t|] == s[k..k + |t|];
          assert OccursAt(s[1..], t, k - 1);
        }
      }
      r
  }

  /** The empty string occurs in every string, so an empty search matches
      everything. */
  lemma ContainsEmpty(s: string)
    ensures Contains(s, "")
  {
  }

  /** `a.toLowerCase().includes(b.toLowerCase())`. */
  predicate ContainsIgnoringCase(s: string, t: string) {
    Contains(LowerStr(s), LowerStr(t))
  }

  /** `s.split(sep)` for a one-character separator: the pieces between
      separators, at least one piece, none containing the separator. */
  function Split(s: string, sep: char): (r: seq<string>)
    ensures |r| >= 1
    ensures forall i :: 0 <= i < |r| ==> sep !in r[i]
    decreases |s|
  {
    if s == [] then [""]
    else if s[0] == sep then [""] + Split(s[1..], sep)
    else
      var rest := Split(s[1..], sep);
      [[s[0]] + rest[0]] + rest[1..]
  }

  /** `parts.join(sep)`. */
  function Join(parts: seq<string>, sep: char): string
  {
    if |parts| == 0 then ""
    else if |parts| == 1 then parts[0]
    else parts[0] + [sep] + Join(parts[1..], sep)
  }

  /** Every character of a join is the separator or a character of a part. */
  lemma {:induction false} JoinChars(parts: seq<string>, sep: char)
    ensures forall k :: 0 <= k < |Join(parts, sep)| ==>
              Join(parts, sep)[k] == sep
              || exists i, m :: 0 <= i < |parts| && 0 <= m < |parts[i]| && Join(parts, sep)[k] == parts[i][m]
  {
    if |parts| > 1 {
      JoinChars(parts[1..], sep);
      var tail := Join(parts[1..], sep);
      var j := Join(parts, sep);
      assert j == parts[0] + [sep] + tail;
      forall k | 0 <= k < |j|
        ensures j[k] == sep || exists i, m :: 0 <= i < |parts| && 0 <= m < |parts[i]| && j[k] == parts[i][m]
      {
        if k < |parts[0]| {
          assert j[k] == parts[0][k];
        } else if k > |parts[0]| {
          var t := k - |parts[0]| - 1;
          assert j[k] == tail[t];
          if tail[t] != sep {
            var i, m :| 0 <= i < |parts[1..]| && 0 <= m < |parts[1..][i]| && tail[t] == parts[1..][i][m];
            assert j[k] == parts[i + 1][m];
          }
        }
      }
    } else if |parts| == 1 {
      var j := Join(parts, sep);
      assert forall k :: 0 <= k < |j| ==> j[k] == parts[0][k];
    }
  }

  /** Joining the pieces of a split restores the original text. */
  lemma {:induction false} JoinSplit(s: string, sep: char)
    ensures Join(Split(s, sep), sep) == s
    decreases |s|
  {
    if s == [] {
    } else if s[0] == sep {
      JoinSplit(s[1..], sep);
      var rest := Split(s[1..], sep);
      assert Split(s, sep) == [""] + rest;
      assert ([""] + rest)[1..] == rest;
    } else {
      JoinSplit(s[1..], sep);
      var rest := Split(s[1..], sep);
      var r := [[s[0]] + rest[0]] + rest[1..];
      assert Split(s, sep) == r;
      if |rest| == 1 {
        assert Join(r, sep) == [s[0]] + rest[0];
      } else {
        assert r[1..] == rest[1..];
        assert Join(rest, sep) == rest[0] + [sep] + Join(rest[1..], sep);
        assert Join(r, sep) == [s[0]] + rest[0] + [sep] + Join(rest[1..], sep);
      }
    }
  }

  /** Splitting text that starts with a separator-free piece puts that piece
      at the front of the first result. */
  lemma {:induction false} SplitPrefix(p: string, rest: string, sep: char)
    requires sep !in p
    ensures Split(p + rest, sep) == [p + Split(rest, sep)[0]] + Split(rest, sep)[1..]
    decreases |p|
  {
    if p == [] {
      assert p + rest == rest;
      var r := Split(rest, sep);
      assert p + r[0] == r[0];
      assert r == [r[0]] + r[1..];
    } else {
      assert (p + rest)[0] == p[0];
      assert (p + rest)[1..] == p[1..] + rest;
      SplitPrefix(p[1..], rest, sep);
      assert [p[0]] + (p[1..] + Split(rest, sep)[0]) == p + Split(rest, sep)[0];
    }
  }

  /** Splitting joined separator-free pieces gives the pieces back. */
  lemma {:induction false} SplitJoin(parts: seq<string>, sep: char)
    requires |parts| >= 1
    requires forall i :: 0 <= i < |parts| ==> sep !in parts[i]
    ensures Split(Join(parts, sep), sep) == parts
  {
    if |parts| == 1 {
      SplitPrefix(parts[0], "", sep);
      assert parts[0] + "" == parts[0];
    } else {
      var tail := Join(parts[1..], sep);
      SplitJoin(parts[1..], sep);
      assert Join(parts, sep) == parts[0] + ([sep] + tail);
      SplitPrefix(parts[0], [sep] + tail, sep);
      assert ([sep] + tail)[0] == sep;
      assert ([sep] + tail)[1..] == tail;
      assert Split([sep] + tail, sep) == [""] + parts[1..];
      assert parts[0] + "" == parts[0];
    }
  }

  /** `s.trimStart()`. */
  function TrimStart(s: string): (r: string)
    ensures r <= s || (|r| <= |s| && r == s[|s| - |r|..])
    ensures |r| > 0 ==> !IsSpace(r[0])
    ensures forall i :: 0 <= i < |s| - |r| ==> IsSpace(s[i])
  {
    if |s| > 0 && IsSpace(s[0]) then TrimStart(s[1..]) else s
  }

  /** `s.trimEnd()`. */
  function TrimEnd(s: string): (r: string)
    ensures r <= s
    ensures |r| > 0 ==> !IsSpace(r[|r| - 1])
    ensures forall i :: |r| <= i < |s| ==> IsSpace(s[i])
  {
    if |s| > 0 && IsSpace(s[|s| - 1]) then TrimEnd(s[..|s| - 1]) else s
  }

  /** `s.trim()`. */
  function Trim(s: string): string {
    TrimEnd(TrimStart(s))
  }

  /** Text that starts with a non-space character does not trim to "". */
  lemma TrimOfNonBlank(s: string)
    requires |s| > 0 && !IsSpace(s[0])
    ensures Trim(s) != ""
  {
  }

  /** A string without surrounding white space is its own trim. */
  lemma TrimOfTrimmed(s: string)
    requires |s| > 0 ==> !IsSpace(s[0]) && !IsSpace(s[|s| - 1])
    ensures Trim(s) == s
  {
  }

  /** `s.replace(/c/g, '')`: every occurrence of `c` removed. */
  function Strip(s: string, c: char): (r: string)
    ensures c !in r
    ensures c !in s ==> r == s
  {
    var r := Seqs.Filter(s, x => x != c);
    if c !in s then
      Seqs.FilterKeepsAll(s, x => x != c);
      r
    else r
  }

  // ---------------------------------------------------------------------
  // UTF-16 length and slicing

  /** Whether JavaScript stores `c` as a surrogate pair: every character
      above U+FFFF takes two UTF-16 code units. */
  predicate Astral(c: char) {
    c > '\U{FFFF}'
  }

  function Utf16Units(c: char): nat {
    if Astral(c) then 2 else 1
  }

  /** `s.length`: the number of UTF-16 code units, which exceeds the number
      of characters by one for each character above U+FFFF. */
  function Utf16Length(s: string): (n: nat)
    ensures |s| <= n <= 2 * |s|
    ensures n == |s| <==> forall k :: 0 <= k < |s| ==> !Astral(s[k])
  {
    if s == [] then 0
    else
      var n := Utf16Units(s[0]) + Utf16Length(s[1..]);
      assert forall k :: 1 <= k < |s| ==> s[1..][k - 1] == s[k];
      n
  }

  lemma {:induction false} Utf16LengthAppend(a: string, b: string)
    ensures Utf16Length(a + b) == Utf16Length(a) + Utf16Length(b)
    decreases |a|
  {
    if a != [] {
      assert (a + b)[0] == a[0];
      assert (a + b)[1..] == a[1..] + b;
      Utf16LengthAppend(a[1..], b);
    } else {
      assert a + b == b;
    }
  }

  /** A password with two emoji is six code units long although it has four
      characters. */
  lemma EmojiCountTwice()
    ensures |"a1\U{1F600}\U{1F600}"| == 4
    ensures Utf16Length("a1\U{1F600}\U{1F600}") == 6
    ensures Utf16Length("ab\U{1F600}\U{1F600}") == 6
    ensures Utf16Length("\U{1F600}") == 2
  {
    assert "a1\U{1F600}\U{1F600}"[1..] == "1\U{1F600}\U{1F600}";
    assert "1\U{1F600}\U{1F600}"[1..] == "\U{1F600}\U{1F600}";
    assert "ab\U{1F600}\U{1F600}"[1..] == "b\U{1F600}\U{1F600}";
    assert "b\U{1F600}\U{1F600}"[1..] == "\U{1F600}\U{1F600}";
    assert "\U{1F600}\U{1F600}"[1..] == "\U{1F600}";
    assert "\U{1F600}"[1..] == "";
  }

  /** `s.slice(0, n)` for `0 <= n`, cut in UTF-16 code units: the longest
      prefix whose code units fit in `n`. Where the cut falls between the
      two halves of a surrogate pair, JavaScript keeps the lone high half,
      which a Dafny string cannot hold; that character is left out. */
  function Utf16Prefix(s: string, n: nat): (r: string)
    ensures r <= s
    ensures Utf16Length(r) <= n
    // maximal: the character after the cut would not fit
    ensures r != s ==> n < Utf16Length(r) + Utf16Units(s[|r|])
    // so the cut is at most one code unit short of `n`
    ensures n <= Utf16Length(s) ==> n <= Utf16Length(r) + 1
    ensures n >= Utf16Length(s) ==> r == s
  {
    if s == [] || Utf16Units(s[0]) > n then
      assert s != [] ==> Utf16Length(s) >= Utf16Units(s[0]);
      []
    else
      var rest := Utf16Prefix(s[1..], n - Utf16Units(s[0]));
      var r := [s[0]] + rest;
      assert r[1..] == rest;
      assert r != s ==> rest != s[1..] && s[|r|] == s[1..][|rest|];
      r
  }

  /** On text without characters above U+FFFF, code units and characters
      agree, and the code-unit cut is the plain prefix. */
  lemma {:induction false} Utf16PrefixOfPlainText(s: string, n: nat)
    requires forall k :: 0 <= k < |s| ==> !Astral(s[k])
    requires n <= |s|
    ensures Utf16Prefix(s, n) == s[..n]
  {
    // the cut is a prefix, so it is plain too and its code units are its
    // characters; by maximality it stops short of `n` only at a character
    // of two units, which plain text does not have
    var r := Utf16Prefix(s, n);
    assert forall k :: 0 <= k < |r| ==> !Astral(r[k]) by {
      assert forall k :: 0 <= k < |r| ==> r[k] == s[k];
    }
    if r != s {
      assert Utf16Units(s[|r|]) == 1;
    }
    assert |r| == n;
  }

  /** `s.slice(-n)` for `0 <= n`, cut in UTF-16 code units: the longest
      suffix whose code units fit in `n`. Where the cut falls between the
      two halves of a surrogate pair, JavaScript keeps the lone low half,
      which a Dafny string cannot hold; that character is left out. */
  function Utf16Suffix(s: string, n: nat): (r: string)
    ensures |r| <= |s| && r == s[|s| - |r|..]
    ensures Utf16Length(r) <= n
    ensures n >= Utf16Length(s) ==> r == s
    // maximal: one more character would not fit, so the cut is at most
    // one code unit short of `n`
    ensures r != s ==> n < Utf16Length(s[|s| - |r| - 1..]) && n <= Utf16Length(r) + 1
  {
    if Utf16Length(s) <= n then s
    else
      var r := Utf16Suffix(s[1..], n);
      assert s[1..][|s[1..]| - |r|..] == s[|s| - |r|..];
      assert r != s[1..] ==> s[1..][|s[1..]| - |r| - 1..] == s[|s| - |r| - 1..];
      assert s[|s| - |r| - 1..][1..] == r;
      r
  }

  /** Text in front does not change a cut that the rest already fills. */
  lemma {:induction false} Utf16SuffixOfAppend(prefix: string, s: string, n: nat)
    requires Utf16Length(s) >= n
    ensures Utf16Suffix(prefix + s, n) == Utf16Suffix(s, n)
    decreases |prefix|
  {
    if prefix == [] {
      assert prefix + s == s;
    } else {
      Utf16LengthAppend(prefix, s);
      assert (prefix + s)[1..] == prefix[1..] + s;
      Utf16SuffixOfAppend(prefix[1..], s, n);
    }
  }

  /** On text without characters above U+FFFF, the code-unit cut is the
      plain suffix of `n` characters. */
  lemma {:induction false} Utf16SuffixOfPlainText(s: string, n: nat)
    requires forall k :: 0 <= k < |s| ==> !Astral(s[k])
    requires n <= |s|
    ensures Utf16Suffix(s, n) == s[|s| - n..]
    decreases |s|
  {
    if n < |s| {
      assert forall k :: 0 <= k < |s[1..]| ==> s[1..][k] == s[k + 1];
      Utf16SuffixOfPlainText(s[1..], n);
      assert s[1..][|s| - 1 - n..] == s[|s| - n..];
    }
  }

  /** On text without characters above U+FFFF, the cut keeps min(|s|, n)
      characters. */
  lemma PlainSuffixLength(s: string, n: nat)
    ensures (forall k :: 0 <= k < |s| ==> !Astral(s[k])) ==>
              |Utf16Suffix(s, n)| == (if |s| < n then |s| else n)
  {
    if (forall k :: 0 <= k < |s| ==> !Astral(s[k])) && n <= |s| {
      Utf16SuffixOfPlainText(s, n);
    }
  }

  function DigitChar(d: nat): char
    requires d < 10
  {
    ('0' as int + d) as char
  }

  function DigitValue(c: char): nat
    requires IsDigit(c)
  {
    c as int - '0' as int
  }

  /** The decimal numeral of a natural number, without leading zeros
      (`n.toString()`). */
  function NatToString(n: nat): (r: string)
    ensures |r| >= 1
    ensures forall i :: 0 <= i < |r| ==> IsDigit(r[i])
  {
    if n < 10 then [DigitChar(n)] else NatToString(n / 10) + [DigitChar(n % 10)]
  }

  /** `n.toString()` for any integer. */
  function IntToString(n: int): (r: string)
    ensures |r| >= 1
    ensures forall i :: 0 <= i < |r| ==> IsDigit(r[i]) || (i == 0 && r[i] == '-')
  {
    if n < 0 then "-" + NatToString(-n) else NatToString(n)
  }

  /** The value of a string of decimal digits, most significant first. */
  function DigitsValue(d: string): nat
    requires forall i :: 0 <= i < |d| ==> IsDigit(d[i])
  {
    if d == [] then 0 else 10 * DigitsValue(d[..|d| - 1]) + DigitValue(d[|d| - 1])
  }

  /** The longest prefix made of digits. */
  function LeadingDigits(s: string): (r: string)
    ensures r <= s
    ensures forall i :: 0 <= i < |r| ==> IsDigit(r[i])
    ensures |r| < |s| ==> !IsDigit(s[|r|])
  {
    if |s| > 0 && IsDigit(s[0]) then [s[0]] + LeadingDigits(s[1..]) else ""
  }

  function ParseDigits(s: string): Option<nat> {
    var d := LeadingDigits(s);
    if d == "" then None else Some(DigitsValue(d))
  }

  predicate IsHexDigit(c: char) {
    IsDigit(c) || ('a' <= c <= 'f') || ('A' <= c <= 'F')
  }

  function HexDigitValue(c: char): (r: nat)
    requires IsHexDigit(c)
    ensures r < 16
  {
    if IsDigit(c) then DigitValue(c)
    else if 'a' <= c <= 'f' then c as int - 'a' as int + 10
    else c as int - 'A' as int + 10
  }

  /** The value of a string of hexadecimal digits, most significant first. */
  function HexValue(d: string): nat
    requires forall i :: 0 <= i < |d| ==> IsHexDigit(d[i])
  {
    if d == [] then 0 else 16 * HexValue(d[..|d| - 1]) + HexDigitValue(d[|d| - 1])
  }

  /** The longest prefix made of hexadecimal digits. */
  function LeadingHexDigits(s: string): (r: string)
    ensures r <= s
    ensures forall i :: 0 <= i < |r| ==> IsHexDigit(r[i])
    ensures |r| < |s| ==> !IsHexDigit(s[|r|])
  {
    if |s| > 0 && IsHexDigit(s[0]) then [s[0]] + LeadingHexDigits(s[1..]) else ""
  }

  /** A numeral that `parseInt` without a radix reads in base 16. */
  predicate HexPrefixed(u: string) {
    |u| >= 2 && u[0] == '0' && (u[1] == 'x' || u[1] == 'X')
  }

  /** What follows the white space and the optional sign. */
  function Unsigned(s: string): (r: string)
    ensures |r| <= |s|
  {
    var t := TrimStart(s);
    if |t| > 0 && (t[0] == '-' || t[0] == '+') then t[1..] else t
  }

  /** The magnitude `parseInt` reads after the sign: hexadecimal digits
      after `0x` or `0X`, decimal digits otherwise. */
  function ParseMagnitude(u: string): Option<nat> {
    if HexPrefixed(u) then
      var h := LeadingHexDigits(u[2..]);
      if h == "" then None else Some(HexValue(h))
    else ParseDigits(u)
  }

  /** `parseInt(s)` with no radix: leading white space, an optional sign,
      then the longest run of digits, read in base 16 after a `0x` or `0X`
      prefix and in base 10 otherwise; `None` stands for `NaN` (no digit at
      all). */
  function ParseInt(s: string): (r: Option<int>)
    // `NaN` exactly when no digit follows the sign, or no hexadecimal
    // digit follows a 0x prefix
    ensures !HexPrefixed(Unsigned(s)) ==> (r.Some? <==> |Unsigned(s)| > 0 && IsDigit(Unsigned(s)[0]))
    ensures HexPrefixed(Unsigned(s)) ==> (r.Some? <==> |Unsigned(s)| > 2 && IsHexDigit(Unsigned(s)[2]))
    // the sign is kept: only a leading minus gives a negative number
    ensures r.Some? && r.value < 0 ==> TrimStart(s)[0] == '-'
  {
    var t := TrimStart(s);
    if |t| > 0 && t[0] == '-' then
      match ParseMagnitude(t[1..])
      case None => None
      case Some(n) => Some(-(n as int))
    else if |t| > 0 && t[0] == '+' then
      match ParseMagnitude(t[1..])
      case None => None
      case Some(n) => Some(n)
    else
      match ParseMagnitude(t)
      case None => None
      case Some(n) => Some(n)
  }

  /** `parseInt` reads a `0x` numeral in base 16, whatever the case of
      the prefix and the digits. */
  lemma HexNumeralReadsInBase16()
    ensures ParseInt("0x1A") == Some(26)
    ensures ParseInt(" -0X1a") == Some(-26)
  {
    HexOneA("0x1A");
    HexOneA("0X1a");
    assert !IsSpace('0') && !IsSpace('-');
    assert TrimStart("0x1A") == "0x1A";
    assert TrimStart(" -0X1a") == TrimStart("-0X1a") == "-0X1a";
    assert "-0X1a"[1..] == "0X1a";
  }

  lemma HexOneA(u: string)
    requires u == "0x1A" || u == "0X1a"
    ensures ParseMagnitude(u) == Some(26)
  {
    var h := u[2..];
    assert HexPrefixed(u);
    assert h[1..] == [h[1]];
    assert h[..1] == "1" && h[..1][..0] == "";
    assert !IsDigit(h[1]) && IsHexDigit(h[1]) && HexDigitValue(h[1]) == 10;
    assert HexDigitValue('1') == 1;
    assert LeadingHexDigits(h) == h;
    assert HexValue(h[..1]) == 1;
    assert HexValue(h) == 16 * HexValue(h[..1]) + 10;
  }

  /** `parseInt("0x")` has no digit after the prefix, so it is `NaN`, and
      `parseFloat("0x1A")` stops at the `x` and reads `0`. */
  lemma HexPrefixAlone()
    ensures ParseInt("0x") == None
    ensures ParseDecimal("0x1A") == Some(0.0)
  {
    assert !IsSpace('0');
    assert ParseInt("0x") == None by {
      assert TrimStart("0x") == "0x";
      assert "0x"[2..] == "";
    }
    assert TrimStart("0x1A") == "0x1A";
    assert LeadingDigits("0x1A") == "0" by {
      assert "0x1A"[1..] == "x1A";
    }
    assert "0x1A"[1..] == "x1A";
  }

  lemma LeadingDigitsOfDigits(d: string)
    requires forall i :: 0 <= i < |d| ==> IsDigit(d[i])
    ensures LeadingDigits(d) == d
  {
  }

  lemma {:induction false} DigitsValueOfNatToString(n: nat)
    ensures DigitsValue(NatToString(n)) == n
  {
    if n >= 10 {
      var d := NatToString(n);
      assert d[..|d| - 1] == NatToString(n / 10);
      DigitsValueOfNatToString(n / 10);
    }
  }

  /** Printing an integer and parsing it back gives the integer. */
  lemma IntToStringRoundTrip(n: int)
    ensures ParseInt(IntToString(n)) == Some(n)
  {
    var m := if n < 0 then -n else n;
    var d := NatToString(m);
    LeadingDigitsOfDigits(d);
    DigitsValueOfNatToString(m);
    if n < 0 {
      var s := "-" + d;
      assert !IsSpace(s[0]);
      assert TrimStart(s) == s;
      assert s[1..] == d;
    } else {
      assert !IsSpace(d[0]);
      assert TrimStart(d) == d;
    }
  }
  function Pow10(n: nat): (r: nat)
    ensures r >= 1
  {
    if n == 0 then 1 else 10 * Pow10(n - 1)
  }

  /** A run of `n` digits denotes less than `10^n`, so a fraction written
      with it lies in `[0, 1)`. */
  lemma {:induction false} DigitsValueBound(d: string)
    requires forall i :: 0 <= i < |d| ==> IsDigit(d[i])
    ensures DigitsValue(d) < Pow10(|d|)
  {
    if d != [] {
      DigitsValueBound(d[..|d| - 1]);
      assert DigitValue(d[|d| - 1]) <= 9;
    }
  }

  lemma FractionBelowOne(a: nat, b: nat)
    requires a < b
    ensures 0.0 <= a as real / b as real < 1.0
  {
  }

  /** `x` truncated toward zero, as JavaScript's `Math.trunc`. */
  function Trunc(x: real): int {
    if x >= 0.0 then x.Floor else -((-x).Floor)
  }

  /** The unsigned part of a decimal numeral: digits, optionally a point
      and more digits; `None` when there is no digit on either side. */
  function ParseUnsignedDecimal(s: string): (r: Option<real>)
    ensures r.Some? ==> r.value >= 0.0
    ensures ParseDigits(s).Some? ==> r.Some? && r.value.Floor == ParseDigits(s).value
  {
    var whole := LeadingDigits(s);
    var after := s[|whole|..];
    var fraction := if |after| > 0 && after[0] == '.' then LeadingDigits(after[1..]) else "";
    if whole == "" && fraction == "" then None
    else
      var w := DigitsValue(whole) as real;
      var f := DigitsValue(fraction) as real / Pow10(|fraction|) as real;
      DigitsValueBound(fraction);
      FractionBelowOne(DigitsValue(fraction), Pow10(|fraction|));
      assert w <= w + f < w + 1.0;
      Some(w + f)
  }

  /** `parseFloat(s)` on plain decimal numerals: leading white space, an
      optional sign, then digits with an optional fractional part; `None`
      stands for `NaN`. Exponents and `Infinity` are not recognised. */
  function ParseDecimal(s: string): (r: Option<real>)
    // wherever `parseInt` reads a decimal number, this reads one that truncates to it
    ensures (ParseInt(s).Some? && !HexPrefixed(Unsigned(s))) ==> r.Some? && Trunc(r.value) == ParseInt(s).value
  {
    var t := TrimStart(s);
    if |t| > 0 && t[0] == '-' then
      match ParseUnsignedDecimal(t[1..])
      case None => None
      case Some(x) => Some(-x)
    else if |t| > 0 && t[0] == '+' then ParseUnsignedDecimal(t[1..])
    else ParseUnsignedDecimal(t)
  }

  /** Printing an integer and reading it back as a decimal gives the integer. */
  lemma IntToStringDecimalRoundTrip(n: int)
    ensures ParseDecimal(IntToString(n)) == Some(n as real)
  {
    var m := if n < 0 then -n else n;
    var d := NatToString(m);
    LeadingDigitsOfDigits(d);
    DigitsValueOfNatToString(m);
    assert d[|d|..] == "";
    if n < 0 {
      var s := "-" + d;
      assert !IsSpace(s[0]);
      assert TrimStart(s) == s;
      assert s[1..] == d;
    } else {
      assert !IsSpace(d[0]);
      assert TrimStart(d) == d;
    }
  }
}

=== FILE: use_products.dfy ===
/** The `useProducts` hook: the local product list it keeps in step with
    the create, update and delete requests, its error text and its loading
    flag. The server's answer is a parameter. */
module UseProducts {
  import opened Wrappers
  import Seqs
  import Catalog

  datatype State = State(products: seq<Catalog.Product>, loading: bool, error: Option<string>)

  /** How a request ended: the returned product, a non-OK status with the
      body's `message` ("" when it has none), or a thrown `Error` (network
      failure, unreadable body) with its message. */
  datatype Outcome = Ok(product: Catalog.Product) | NotOk(message: string) | Thrown(message: string)

  /** The text stored in `error` for a failed request. */
  function ErrorText(o: Outcome, fallback: string): (e: string)
    requires !o.Ok?
    ensures o.NotOk? && o.message == "" ==> e == fallback
    ensures o.NotOk? && o.message != "" ==> e == o.message
    ensures o.Thrown? ==> e == o.message
  {
    if o.NotOk? && o.message == "" then fallback else o.message
  }

  datatype Result = Result(state: State, product: Option<Catalog.Product>)

  /** `createProduct`: the created product is appended and returned. */
  function Create(s: State, o: Outcome): (r: Result)
    ensures !r.state.loading
    ensures o.Ok? ==> r.state.products == s.products + [o.product] && r.state.error.None? && r.product == Some(o.product)
    ensures !o.Ok? ==> r.state.products == s.products && r.product.None?
                       && r.state.error == Some(ErrorText(o, "Failed to create product"))
  {
    match o
    case Ok(p) => Result(State(s.products + [p], false, None), Some(p))
    case _ => Result(State(s.products, false, Some(ErrorText(o, "Failed to create product"))), None)
  }

  /** `products.map(p => p.id === id ? updated : p)`. */
  function ReplaceById(ps: seq<Catalog.Product>, id: string, updated: Catalog.Product): (r: seq<Catalog.Product>)
    ensures |r| == |ps|
    ensures forall i :: 0 <= i < |ps| ==> r[i] == if ps[i].id == id then updated else ps[i]
  {
    seq(|ps|, i requires 0 <= i < |ps| => if ps[i].id == id then updated else ps[i])
  }

  /** `updateProduct`: every entry with the id becomes the returned
      product; the others stay as they were. */
  function Update(s: State, id: string, o: Outcome): (r: Result)
    ensures !r.state.loading
    ensures o.Ok? ==> r.state.products == ReplaceById(s.products, id, o.product) && r.state.error.None?
                      && r.product == Some(o.product)
    ensures !o.Ok? ==> r.state.products == s.products && r.product.None?
                       && r.state.error == Some(ErrorText(o, "Failed to update product"))
  {
    match o
    case Ok(p) => Result(State(ReplaceById(s.products, id, p), false, None), Some(p))
    case _ => Result(State(s.products, false, Some(ErrorText(o, "Failed to update product"))), None)
  }

  /** How a delete ended; `Removed` is an OK status. */
  datatype DeleteOutcome = Removed | DeleteNotOk(message: string) | DeleteThrown(message: string)

  /** `deleteProduct`: the entries with the id leave the list. */
  function Delete(s: State, id: string, o: DeleteOutcome): (r: (State, bool))
    ensures !r.0.loading
    ensures r.1 <==> o.Removed?
    ensures o.Removed? ==> r.0.products == Seqs.Filter(s.products, (p: Catalog.Product) => p.id != id) && r.0.error.None?
    ensures !o.Removed? ==> r.0.products == s.products && r.0.error.Some?
    ensures o.DeleteNotOk? ==> r.0.error == Some(if o.message != "" then o.message else "Failed to delete product")
    ensures o.DeleteThrown? ==> r.0.error == Some(o.message)
  {
    match o
    case Removed => (State(Seqs.Filter(s.products, (p: Catalog.Product) => p.id != id), false, None), true)
    case DeleteNotOk(m) => (State(s.products, false, Some(if m != "" then m else "Failed to delete product")), false)
    case DeleteThrown(m) => (State(s.products, false, Some(m)), false)
  }

  /** Deleting a product that was just created, under an id no other
      entry has, gives back the list from before the create. */
  lemma DeleteUndoesCreate(s: State, p: Catalog.Product)
    requires forall i :: 0 <= i < |s.products| ==> s.products[i].id != p.id
    ensures Delete(Create(s, Ok(p)).state, p.id, Removed).0.products == s.products
  {
    var keep := (q: Catalog.Product) => q.id != p.id;
    Seqs.FilterAppend(s.products, [p], keep);
    Seqs.FilterKeepsAll(s.products, keep);
    Seqs.FilterSingleton(p, keep);
  }

  /** After an update no entry carries the old version of a replaced
      product: every entry with the id is the returned one. */
  lemma UpdateReplacesEveryMatch(s: State, id: string, p: Catalog.Product)
    ensures forall q :: q in Update(s, id, Ok(p)).state.products ==> q.id != id || q == p
    ensures forall q :: q in s.products && q.id != id ==> q in Update(s, id, Ok(p)).state.products
  {
  }
}

=== FILE: wallet.dfy ===
/** The wallet routes: `GET /api/wallet`, the simulated top-up
    `POST /api/wallet`, and `POST /api/wallet/fund`. Amounts are whole
    naira; `None` stands for an amount the request did not carry. */
module Wallet {
  import opened Wrappers
  import opened Store

  /** The smallest top-up `/api/wallet/fund` accepts. */
  const MIN_FUNDING: int := 100

  datatype WalletView = WalletView(walletBalance: int, points: int, referralCode: string, referralCount: nat)

  datatype WalletBody =
    | WalletUnauthorized
    | InvalidAmount
    | UserNotFound
    | WalletFailed
    | View(view: WalletView)
    | Funded(balance: int)

  /** `GET /api/wallet`: the caller's balance, points, referral code and
      number of referrals. Never writes. */
  function GetWallet(db: Db, session: Option<Session>): (r: Reply<WalletBody>)
    ensures r.db == db
    ensures session.None? ==> r.status == 401 && r.body == WalletUnauthorized
    ensures session.Some? ==> (UserById(db.users, session.value.userId).None? <==> r.status == 404)
    ensures session.Some? ==> (UserById(db.users, session.value.userId).Some? <==> r.status == 200)
    ensures r.status == 200 <==> r.body.View?
    ensures r.status == 200 ==>
              && session.Some?
              && var u := db.users[UserById(db.users, session.value.userId).value];
              && u.id == session.value.userId
              && r.body.view == WalletView(u.walletBalance, u.points, u.referralCode, u.referralCount)
  {
    if session.None? then Reply(401, WalletUnauthorized, db)
    else match UserById(db.users, session.value.userId)
      case None => Reply(404, UserNotFound, db)
      case Some(i) =>
        var u := db.users[i];
        Reply(200, View(WalletView(u.walletBalance, u.points, u.referralCode, u.referralCount)), db)
  }

  /** `POST /api/wallet`: any positive amount is added to the balance and a
      FUNDING Reward worth 0 points is recorded. An unknown caller makes the
      update throw (500, nothing written). */
  function PostWallet(db: Db, session: Option<Session>, amount: Option<int>): (r: Reply<WalletBody>)
    ensures session.None? ==> r == Reply(401, WalletUnauthorized, db)
    ensures session.Some? && (amount.None? || amount.value <= 0) ==> r == Reply(400, InvalidAmount, db)
    ensures session.Some? && amount.Some? && amount.value > 0 ==>
              && (UserById(db.users, session.value.userId).Some? <==> r.status == 200)
              && (UserById(db.users, session.value.userId).None? ==> r == Reply(500, WalletFailed, db))
    ensures r.status != 200 ==> r.db == db
    ensures r.status == 200 ==>
              && session.Some? && amount.Some? && amount.value > 0
              && UserById(db.users, session.value.userId).Some?
              && var i := UserById(db.users, session.value.userId).value;
              && r.db.users == db.users[i := db.users[i].(walletBalance := db.users[i].walletBalance + amount.value)]
              && r.db.rewards == db.rewards + [Reward(session.value.userId, 0, Funding, None)]
              && r.body == Funded(db.users[i].walletBalance + amount.value)
              && r.db.orders == db.orders && r.db.payments == db.payments
              && r.db.notifications == db.notifications && r.db.walletTransactions == db.walletTransactions
  {
    if session.None? then Reply(401, WalletUnauthorized, db)
    else if amount.None? || amount.value <= 0 then Reply(400, InvalidAmount, db)
    else match UserById(db.users, session.value.userId)
      case None => Reply(500, WalletFailed, db)
      case Some(i) =>
        var u := db.users[i];
        var balance := u.walletBalance + amount.value;
        Reply(200, Funded(balance),
              db.(users := db.users[i := u.(walletBalance := balance)],
                  rewards := db.rewards + [Reward(session.value.userId, 0, Funding, None)]))
  }

  /** `POST /api/wallet/fund`: a top-up of at least 100 naira credits the
      balance, appends one completed CREDIT ledger entry and one WALLET
      notification. `fundingMethod` is the request's funding method and
      `reference` the generated `WF…` reference. */
  function Fund(db: Db, session: Option<Session>, amount: Option<int>, fundingMethod: string,
                reference: string): (r: Reply<WalletBody>)
    ensures session.None? ==> r == Reply(401, WalletUnauthorized, db)
    ensures session.Some? && (amount.None? || amount.value < MIN_FUNDING) ==> r == Reply(400, InvalidAmount, db)
    ensures session.Some? && amount.Some? && amount.value >= MIN_FUNDING ==>
              && (UserById(db.users, session.value.userId).Some? <==> r.status == 200)
              && (UserById(db.users, session.value.userId).None? ==> r == Reply(500, WalletFailed, db))
    ensures r.status != 200 ==> r.db == db
    ensures r.status == 200 ==>
              && session.Some? && amount.Some? && amount.value >= MIN_FUNDING
              && UserById(db.users, session.value.userId).Some?
              && var i := UserById(db.users, session.value.userId).value;
              && var u := db.users[i];
              && r.db.users == db.users[i := u.(walletBalance := u.walletBalance + amount.value)]
              && r.db.walletTransactions == db.walletTransactions
                   + [WalletTransaction(session.value.userId, Credit, amount.value, fundingMethod, true, reference)]
              && r.db.notifications == db.notifications
                   + [Notification(session.value.userId, "Wallet Funded Successfully", WalletNotice, None)]
              && r.body == Funded(u.walletBalance + amount.value)
              && r.db.orders == db.orders && r.db.payments == db.payments && r.db.rewards == db.rewards
  {
    if session.None? then Reply(401, WalletUnauthorized, db)
    else if amount.None? || amount.value < MIN_FUNDING then Reply(400, InvalidAmount, db)
    else match UserById(db.users, session.value.userId)
      case None => Reply(500, WalletFailed, db)
      case Some(i) =>
        var u := db.users[i];
        var balance := u.walletBalance + amount.value;
        Reply(200, Funded(balance),
              db.(users := db.users[i := u.(walletBalance := balance)],
                  walletTransactions := db.walletTransactions
                    + [WalletTransaction(session.value.userId, Credit, amount.value, fundingMethod, true, reference)],
                  notifications := db.notifications
                    + [Notification(session.value.userId, "Wallet Funded Successfully", WalletNotice, None)]))
  }

  /** The sum of the caller's completed CREDIT entries. */
  function CreditedTotal(ledger: seq<WalletTransaction>, userId: string): int {
    if ledger == [] then 0
    else
      var last := ledger[|ledger| - 1];
      CreditedTotal(ledger[..|ledger| - 1], userId)
        + (if last.userId == userId && last.kind == Credit && last.completed then last.amount else 0)
  }

  /** The two funding routes differ in threshold and in what they record:
      an amount in [1, 99] is accepted by `/api/wallet` but refused by
      `/api/wallet/fund`, and `/api/wallet` leaves the ledger alone while
      `/api/wallet/fund` leaves the rewards alone. */
  lemma FundingThresholdsDiffer(db: Db, session: Session, amount: int, fundingMethod: string, reference: string)
    requires 0 < amount < MIN_FUNDING
    requires UserById(db.users, session.userId).Some?
    ensures PostWallet(db, Some(session), Some(amount)).status == 200
    ensures Fund(db, Some(session), Some(amount), fundingMethod, reference) == Reply(400, InvalidAmount, db)
  {
  }

  /** A successful `/api/wallet/fund` raises the balance and the caller's
      credited ledger total by the same amount, so a balance that agreed
      with the ledger still agrees with it afterwards. */
  lemma {:induction false} FundKeepsLedgerInStep(db: Db, session: Session, amount: Option<int>, fundingMethod: string,
                                                 reference: string)
    requires Fund(db, Some(session), amount, fundingMethod, reference).status == 200
    ensures var r := Fund(db, Some(session), amount, fundingMethod, reference);
            var i := UserById(db.users, session.userId).value;
            && UserById(r.db.users, session.userId) == Some(i)
            && r.db.users[i].walletBalance - CreditedTotal(r.db.walletTransactions, session.userId)
               == db.users[i].walletBalance - CreditedTotal(db.walletTransactions, session.userId)
  {
    var r := Fund(db, Some(session), amount, fundingMethod, reference);
    var i := UserById(db.users, session.userId).value;
    assert r.db.walletTransactions[..|r.db.walletTransactions| - 1] == db.walletTransactions;
    assert forall j :: 0 <= j < |db.users| ==> r.db.users[j].id == db.users[j].id;
  }

  /** Two successful top-ups add up: the balance rises by their sum. */
  lemma FundTwiceAddsBoth(db: Db, session: Session, a: int, b: int, fundingMethod: string, ref1: string, ref2: string)
    requires a >= MIN_FUNDING && b >= MIN_FUNDING
    requires UserById(db.users, session.userId).Some?
    ensures var r1 := Fund(db, Some(session), Some(a), fundingMethod, ref1);
            var r2 := Fund(r1.db, Some(session), Some(b), fundingMethod, ref2);
            var i := UserById(db.users, session.userId).value;
            && r2.status == 200
            && r2.body == Funded(db.users[i].walletBalance + a + b)
            && |r2.db.walletTransactions| == |db.walletTransactions| + 2
  {
    var r1 := Fund(db, Some(session), Some(a), fundingMethod, ref1);
    var i := UserById(db.users, session.userId).value;
    assert forall j :: 0 <= j < |db.users| ==> r1.db.users[j].id == db.users[j].id;
    assert UserById(r1.db.users, session.userId) == Some(i);
  }

  /** After a successful top-up through either route, reading the wallet
      shows the balance the top-up answered with, and the same points and
      referral details as before. */
  lemma {:induction false} WalletShowsFundedBalance(db: Db, session: Session, amount: Option<int>, fundingMethod: string,
                                                    reference: string, viaFundRoute: bool)
    requires UserById(db.users, session.userId).Some?
    ensures var r := if viaFundRoute then Fund(db, Some(session), amount, fundingMethod, reference)
                     else PostWallet(db, Some(session), amount);
            var before := GetWallet(db, Some(session)).body.view;
            r.status == 200 ==>
              && GetWallet(r.db, Some(session)).status == 200
              && r.body == Funded(GetWallet(r.db, Some(session)).body.view.walletBalance)
              && GetWallet(r.db, Some(session)).body.view == before.(walletBalance := r.body.balance)
  {
    var r := if viaFundRoute then Fund(db, Some(session), amount, fundingMethod, reference)
             else PostWallet(db, Some(session), amount);
    if r.status == 200 {
      var i := UserById(db.users, session.userId).value;
      assert forall j :: 0 <= j < |db.users| ==> r.db.users[j].id == db.users[j].id;
      assert UserById(r.db.users, session.userId) == Some(i);
    }
  }
}

=== FILE: wallet_tab.dfy ===
/** The arithmetic of the dashboard's wallet tab: loyalty tiers, the
    points-to-cash conversion, and the gates on the funding and conversion
    forms. Text fields are the raw input; `parseFloat` is `Text.ParseDecimal`
    and `parseInt` is `Text.ParseInt`, with `None` standing for `NaN`. */
module WalletTab {
  import opened Wrappers
  import Text
  import Wallet

  const POINTS_PER_TIER: int := 1000
  const NAIRA_PER_POINT: int := 10
  const MINIMUM_POINTS_TO_CONVERT: int := 100

  /** JavaScript's `a % b` for a positive `b`: the remainder takes the sign
      of `a`. */
  function JsRem(a: int, b: int): (r: int)
    requires b > 0
    ensures a >= 0 ==> r == a % b
    ensures a < 0 ==> r == -((-a) % b)
  {
    if a >= 0 then a % b else -((-a) % b)
  }

  /** `1000 - points % 1000`. */
  function PointsToNextTier(points: int): (r: int)
    ensures points >= 0 ==> 1 <= r <= POINTS_PER_TIER
  {
    POINTS_PER_TIER - JsRem(points, POINTS_PER_TIER)
  }

  /** `Math.floor(points / 1000) + 1`. */
  function Tier(points: int): (t: int)
    ensures POINTS_PER_TIER * (t - 1) <= points < POINTS_PER_TIER * t
  {
    points / POINTS_PER_TIER + 1
  }

  function TierName(tier: int): (name: string)
    ensures tier == 1 ==> name == "Bronze"
    ensures tier == 2 ==> name == "Silver"
    ensures tier == 3 ==> name == "Gold"
    ensures tier != 1 && tier != 2 && tier != 3 ==> name == "Platinum"
  {
    if tier == 1 then "Bronze" else if tier == 2 then "Silver" else if tier == 3 then "Gold" else "Platinum"
  }

  /** Earning the points still missing reaches exactly the next tier's
      threshold, one point fewer stays in the current tier. */
  lemma NextTierIsReached(points: int)
    requires points >= 0
    ensures Tier(points + PointsToNextTier(points)) == Tier(points) + 1
    ensures Tier(points + PointsToNextTier(points) - 1) == Tier(points)
    ensures (points + PointsToNextTier(points)) % POINTS_PER_TIER == 0
  {
  }

  /** The tier name follows the points: below 1000 Bronze, from 3000 on
      Platinum. A negative balance, which no route produces, would also
      show Platinum. */
  lemma TierNames(points: int)
    ensures 0 <= points < 1000 ==> TierName(Tier(points)) == "Bronze"
    ensures 1000 <= points < 2000 ==> TierName(Tier(points)) == "Silver"
    ensures 2000 <= points < 3000 ==> TierName(Tier(points)) == "Gold"
    ensures points >= 3000 || points < 0 ==> TierName(Tier(points)) == "Platinum"
  {
  }

  /** `Math.min(points, Math.floor(points / 10) * 10)`: the points that
      convert in whole steps of 10. */
  function ConvertiblePoints(points: int): (r: int)
    ensures r <= points && r % NAIRA_PER_POINT == 0
    ensures points - r < NAIRA_PER_POINT
  {
    var whole := points / NAIRA_PER_POINT * NAIRA_PER_POINT;
    if points < whole then points else whole
  }

  /** `Math.floor(convertible / 10) * 10`. */
  function CashValue(points: int): (r: int)
    ensures r % NAIRA_PER_POINT == 0
  {
    ConvertiblePoints(points) / NAIRA_PER_POINT * NAIRA_PER_POINT
  }

  /** The cash value shown is the convertible points themselves. */
  lemma CashValueIsConvertible(points: int)
    ensures CashValue(points) == ConvertiblePoints(points)
  {
  }

  /** The "Convert to Cash" button. */
  function ConvertEnabled(points: int): (r: bool)
    ensures r <==> points >= MINIMUM_POINTS_TO_CONVERT
  {
    !(points < MINIMUM_POINTS_TO_CONVERT)
  }

  /** "You will receive ₦…": `Math.floor(parseInt(entered || "0") / 10)`,
      `None` when the entry is not a number. */
  function NairaReceived(entered: string): (r: Option<int>)
    ensures entered == "" ==> r == Some(0)
    ensures entered != "" ==> (r.Some? <==> Text.ParseInt(entered).Some?)
    ensures entered != "" && r.Some? ==>
              NAIRA_PER_POINT * r.value <= Text.ParseInt(entered).value < NAIRA_PER_POINT * (r.value + 1)
  {
    var n := if entered == "" then Some(0) else Text.ParseInt(entered);
    match n
    case None => None
    case Some(v) => Some(v / NAIRA_PER_POINT)
  }

  /** The "Convert Points" button: disabled for an empty entry or one that
      reads below 100. `NaN < 100` is false, so an entry that is not a
      number leaves it enabled. */
  function ConvertSubmitEnabled(entered: string): (r: bool)
    ensures r <==> entered != "" && (Text.ParseInt(entered).None? || Text.ParseInt(entered).value >= MINIMUM_POINTS_TO_CONVERT)
  {
    !(entered == "" || (Text.ParseInt(entered).Some? && Text.ParseInt(entered).value < MINIMUM_POINTS_TO_CONVERT))
  }

  lemma NonNumericEntryEnablesConvert()
    ensures ConvertSubmitEnabled("abc")
  {
  }

  /** `handleFundWallet`'s own check: an empty entry or one that reads as
      zero or less is refused. */
  function FundRejectedLocally(amount: string): (r: bool)
    ensures r <==> amount == "" || (Text.ParseDecimal(amount).Some? && Text.ParseDecimal(amount).value <= 0.0)
  {
    amount == "" || (Text.ParseDecimal(amount).Some? && Text.ParseDecimal(amount).value <= 0.0)
  }

  /** The "Fund Wallet" button: disabled for an empty entry, one that reads
      below 100, or while a request is running. */
  function FundButtonEnabled(amount: string, isFunding: bool): (r: bool)
    ensures r ==> !isFunding && amount != ""
    ensures r <==> !isFunding && amount != ""
                   && (Text.ParseDecimal(amount).None? || Text.ParseDecimal(amount).value >= 100.0)
  {
    !(amount == "" || (Text.ParseDecimal(amount).Some? && Text.ParseDecimal(amount).value < 100.0) || isFunding)
  }

  /** Whatever the button lets through also passes the handler's check. */
  lemma EnabledFundingIsNotRejected(amount: string)
    requires FundButtonEnabled(amount, false)
    ensures !FundRejectedLocally(amount)
  {
  }

  /** For a whole-naira entry the button's threshold is the funding route's:
      the button is enabled exactly when `/api/wallet/fund` accepts the
      amount. */
  lemma ButtonMatchesFundingRoute(n: int)
    ensures FundButtonEnabled(Text.IntToString(n), false) <==> n >= Wallet.MIN_FUNDING
  {
    Text.IntToStringDecimalRoundTrip(n);
    Text.IntToStringRoundTrip(n);
  }
}

=== FILE: wrappers.dfy ===
/** Failure-compatible helper types shared by every module of the model. */
module Wrappers {

  /** A value that may be absent: JavaScript's `null`/`undefined` and the
      result of a lookup that found nothing. */
  datatype Option<+T> = None | Some(value: T) {

    /** The value, or `default` when absent (JavaScript's `x ?? default`). */
    function GetOr(default: T): T {
      match this
      case Some(v) => v
      case None => default
    }
  }

  /** `quantity || 1` on an optional count: an absent or zero count reads
      as one. */
  function OrOne(q: Option<int>): (n: int)
    ensures q.Some? && q.value != 0 ==> n == q.value
    ensures q.None? || q.value == 0 ==> n == 1
  {
    if q.Some? && q.value != 0 then q.value else 1
  }
}
